=== FILE: README.md ===
# Brat document model

A Dafny model of `DocumentBrat` (corpus/document_brat.py). It is the annotated-document class of the sdoh_extraction
corpus tools, and it keeps one clinical note together with its brat stand-off annotations. Those annotations sit in four linked
tables:

- **textbounds** (`T<n>`): a typed span of the text;
- **events** (`E<n>`): a type, plus an insertion-ordered mapping from role names to textbound ids, whose first entry
  is the trigger;
- **relations** (`R<n>`);
- **attributes** (`A<n>`): a typed value attached to a textbound. The attribute table is keyed by the id of the
  textbound it labels, not by its own id.

Python's insertion-ordered dicts are modelled as `Tables.Table<K, V>`, a key sequence plus a map. `Put` is `d[k] = v`:
it replaces a value in place or appends a new key. `RemoveAll` is `del`. The order of the tables matters in several
places:

- the row order of the quality report;
- the line order of `brat_str`;
- which argument is the trigger;
- "last match wins" when a type is looked up.

Record ids are `Id(prefix, index)`, the prefix letter and numeric suffix of strings such as `T12`.

The model covers:

- **the pure helpers**: `get_line`, `non_white_space_check`, `ids_to_keep`, the three quality rules, `quality_check`,
  `adj_tokens`, the assertions of `tokenize_document`, and the selection and order of the lines of `brat_str`;
- **the in-place passes** over the tables: `map_`, `map_roles`, `swap_spans`, `transfer_subtype_value`,
  `prune_invalid_connections` and `snap_textbounds`;
- **the constructor's rule** that exactly one way of supplying the annotations is used.

Each pass appears three times in the model:

- a specification function over the table values, with lemmas stating what the pass does to every record;
- a value-level method with the source's loops and their invariants, proved equal to that function;
- a method of the `Document.DocumentBrat` class. It runs the loops and assigns the table fields. Its contract ties the
  new fields, and the returned counter, to the specification function applied to the old fields.

Python `Counter`s are multisets of small tally datatypes.

Modules:

- `Wrappers`: `Option` and `Result`.
- `Tables`: ordered dictionaries.
- `Records`: the four record kinds, and the id helpers `get_trigger`, `get_max_id` and `get_next_index`.
- `Text`: `get_line`, whitespace stripping, `split` and `join`, and Python slicing and indexing.
- `Tokens`: `adj_tokens` and the checks of `tokenize_document`.
- `Selection`: `ids_to_keep` and `brat_str`.
- `Quality`: the quality rules.
- `Snap`, `TypeMapping`, `RoleMapping`, `Swap`, `Transfer` and `Prune`: one module per pass.
- `Document`: the constructor rule and the `DocumentBrat` class.

## Model

| member | source | states |
|---|---|---|
| Records.Trigger | corpus/document_brat.py:635 | the trigger, the event's first argument, is a role of the event paired with the textbound id it names |
| Records.MaxSuffix | corpus/document_brat.py:755 | the result is at least every id's numeric suffix, and equals one of them when there are ids (the `get_max_id` contract) |
| Records.NextIndex | corpus/document_brat.py:627-628 | the index `get_next_index` returns exceeds every existing suffix, so ids minted from it are fresh |
| Records.RecordIds | corpus/document_brat.py:627-628 | the ids of a table's records, one per key, including the id of every record; the ids `get_next_index` scans |
| Text.Slice | corpus/document_brat.py:508 | Python `text[a:b]`: bounds clamped to the length; equals the Dafny slice when `a <= b <= len` |
| Text.GetLine | corpus/document_brat.py:70-71 | the line number lies between 1 and 1 + the length of the text |
| Text.GetLineAtStart | corpus/document_brat.py:70-71 | offset 0 is on line 1 |
| Text.GetLineStep | corpus/document_brat.py:70-71 | one character further on, the line number rises by one exactly when that character is a newline |
| Text.GetLineMonotone | corpus/document_brat.py:70-71 | line numbers never decrease as the offset grows |
| Text.StripWhiteSpace | corpus/document_brat.py:65-66 | `"".join(s.split())` is no longer than `s` and holds no whitespace |
| Text.StripWhiteSpaceChars | corpus/document_brat.py:65-66 | the stripped string holds exactly the non-whitespace characters of `s` |
| Text.NonWhiteSpaceCheck | corpus/document_brat.py:64-67 | equal strings pass; strings that pass hold the same non-whitespace characters |
| Text.WhiteSpaceInsertionPasses | corpus/document_brat.py:64-67 | inserting whitespace anywhere never makes `non_white_space_check` fail |
| Text.ChangedCharacterFails | corpus/document_brat.py:64-67 | changing one non-whitespace character always makes `non_white_space_check` fail |
| Text.Split | corpus/document_brat.py:398 | `str.split(sep)` gives at least one part, and no part contains the separator |
| Text.SplitJoin | corpus/document_brat.py:398 | joining the parts of a split with the separator gives back the string |
| Text.PyIndex | corpus/document_brat.py:398 | Python indexing of a list of length `n` at a position in `[-n, n)`: the element at the position taken modulo `n`, so a negative position counts from the end |
| Tokens.FlattenIndex | corpus/document_brat.py:176-182 | element `j` of sentence `i` sits at the sentence's start position plus `j` in the flattened sequence |
| Tokens.AdjTokens | corpus/document_brat.py:164-184 | no tokens, or grouping by sentence, returns the input unchanged; otherwise the call succeeds exactly when the two groupings have the same shape, and then returns their concatenations |
| Tokens.AppendSentence | corpus/document_brat.py:180-182 | the inner loop appends a sentence's tokens and its offsets, in order, to the flat outputs |
| Tokens.CheckTokenization | corpus/document_brat.py:154-159 | the checks pass exactly when the shapes agree and every token equals the text its offsets cut out |
| Tokens.FlattenKeepsTokensMatched | corpus/document_brat.py:154-184 | after flattening, every token still equals the text its offsets cut out |
| Selection.KeptEvents | corpus/document_brat.py:37-61 | an event id is kept exactly when some argument of it names an existing textbound, with the event type passing the event filter and the textbound type passing the argument filter |
| Selection.KeptTbs | corpus/document_brat.py:37-61 | a textbound id is kept exactly when some such selected argument names it |
| Selection.KeepArgsEvents | corpus/document_brat.py:47-59 | the argument loop of one event adds that event exactly when one of the visited arguments is selected |
| Selection.KeepArgsTbs | corpus/document_brat.py:47-59 | the argument loop adds exactly the textbound ids of the selected arguments it visited |
| Selection.KeepOverEvents | corpus/document_brat.py:44-59 | after the first `i` events, the kept event ids are exactly those events among them with a selected argument |
| Selection.KeepOverTbs | corpus/document_brat.py:44-59 | after the first `i` events, the kept textbound ids are exactly those named by a selected argument of one of them |
| Selection.KeepOverEventsAll | corpus/document_brat.py:44-61 | after every event, an event id is kept exactly when one of its arguments is selected |
| Selection.KeepOverTbsAll | corpus/document_brat.py:44-61 | after every event, a textbound id is kept exactly when a selected argument names it |
| Selection.KeepOverAll | corpus/document_brat.py:44-61 | the loop over all events computes exactly `KeptEvents` and `KeptTbs` |
| Selection.KeepEventArgs | corpus/document_brat.py:47-59 | the inner loop over one event's arguments computes the argument visit |
| Selection.IdsToKeep | corpus/document_brat.py:37-61 | `ids_to_keep` returns exactly `KeptEvents` and `KeptTbs` |
| Selection.UnfilteredKeep | corpus/document_brat.py:44-59 | with no filters, exactly the events with at least one argument are kept, and a textbound is kept exactly when some event argument names it; a textbound no event refers to is never kept |
| Selection.Kept | corpus/document_brat.py:360-373 | the records the output loops keep are exactly the records whose key is in the keep set, taken in table order |
| Selection.BratLinesOrdered | corpus/document_brat.py:358-375 | the lines come in sections: kept textbounds, then relations, then kept events, then attributes |
| Selection.InBratLines | corpus/document_brat.py:358-375 | a line is emitted exactly when it belongs to one of the four sections |
| Selection.BratLinesTextbounds | corpus/document_brat.py:360-362 | a textbound line is emitted exactly when its key is kept |
| Selection.BratLinesRelations | corpus/document_brat.py:364-365 | every relation line is emitted, whatever is kept |
| Selection.BratLinesEvents | corpus/document_brat.py:367-369 | an event line (which carries the kept textbound ids) is emitted exactly when its key is kept |
| Selection.BratLinesAttributes | corpus/document_brat.py:371-373 | an attribute line is emitted exactly when the textbound id it is keyed by is kept |
| Quality.Referenced | corpus/document_brat.py:78-79 | the set holds exactly the textbound ids that some event argument names |
| Quality.SpanRows | corpus/document_brat.py:88-92 | one report row per id, in order: annotator, document id, line of the span start, type, text and message |
| Quality.OrphanIds | corpus/document_brat.py:82-85 | the collected ids are exactly the textbound ids no event refers to |
| Quality.OrphanRows | corpus/document_brat.py:82-92 | at most one row per textbound, each with the document id, the annotator and the orphan message |
| Quality.OrphanRowsExact | corpus/document_brat.py:82-92 | the orphan rows are the span rows of those ids, in table order |
| Quality.OrphanIdsDistinct | corpus/document_brat.py:82-85 | every orphan is reported once |
| Quality.FindTbNotInEvents | corpus/document_brat.py:73-94 | the method returns the orphan rows |
| Quality.UnlabeledIds | corpus/document_brat.py:117-120 | the collected ids are exactly those textbounds whose type must be labelled and that have no attribute |
| Quality.UnlabeledRows | corpus/document_brat.py:117-126 | at most one row per textbound, each with the document id, the annotator and the missing-label message |
| Quality.UnlabeledRowsExact | corpus/document_brat.py:117-126 | the label rows are the span rows of those ids, in table order |
| Quality.FindMissingLabels | corpus/document_brat.py:112-128 | no rows without a label set; otherwise the label rows |
| Quality.RoleRowsExact | corpus/document_brat.py:105-107 | for one event, a row is reported exactly for each required role the event lacks, with the trigger's line and `--` as text |
| Quality.RoleRows | corpus/document_brat.py:105-107 | at most one row per required role; each names a required role the event lacks, on the given line, with `--` as text and the missing-argument message |
| Quality.MissingRoleRows | corpus/document_brat.py:105-107 | the inner loop computes those rows |
| Quality.MissingRoles | corpus/document_brat.py:105-106 | the required roles the event lacks, in schema order: exactly those roles, and no more of them than the schema lists |
| Quality.MissingRoleRowsOf | corpus/document_brat.py:107 | one row per missing role, in the same order, each on the trigger's line with `--` as text and the missing-argument message |
| Quality.RoleRowsInOrder | corpus/document_brat.py:104-107 | one event's rows are exactly one row per missing required role in schema order, repeats included |
| Quality.EventBlock | corpus/document_brat.py:100-107 | an event whose type has no required roles contributes no rows; otherwise at most one per required role |
| Quality.EventBlocks | corpus/document_brat.py:99-107 | one block per event, in event-table order |
| Quality.MissingArgumentRowsInOrder | corpus/document_brat.py:99-109 | the whole output is the events' blocks concatenated in event-table order |
| Quality.FindMissingArguments | corpus/document_brat.py:96-109 | without a schema the rule fails exactly when there is an event, and otherwise reports nothing; with one it returns the argument rows |
| Quality.MissingArgumentRowsExact | corpus/document_brat.py:99-109 | a row is reported exactly for each pair of an event and a required role it lacks |
| Quality.MissingArgumentRows | corpus/document_brat.py:99-109 | every row carries the document id, the annotator, `--` as text and the missing-argument message |
| Quality.Annotator | corpus/document_brat.py:395-398 | "unknown" without a position; otherwise the part of the document id, split at the separator, at that position (modulo the number of parts, as Python indexes), which holds no separator |
| Snap.FirstStart | corpus/document_brat.py:490-494 | the start of the first token containing the position, or none when no token contains it |
| Snap.FirstEnd | corpus/document_brat.py:497-501 | the end of the first token containing the character before the position, or none |
| Snap.SnapBounds | corpus/document_brat.py:485-504 | bounds exist exactly when both trimmed ends fall in some token; then the start is a token start and the end a token end |
| Snap.Snapped | corpus/document_brat.py:506-512 | id, type and tokens are kept and the bounds set; the textbound changes, its text re-cut from the document, only when a bound moves |
| Snap.SnapOne | corpus/document_brat.py:485-512 | a textbound fails to snap exactly when its bounds cannot be found; otherwise it is snapped to them |
| Snap.FirstFail | corpus/document_brat.py:483-504 | the position of the first textbound that cannot be snapped, which is indeed rejected |
| Snap.FirstFailBefore | corpus/document_brat.py:483-504 | every textbound before the first failure can be snapped |
| Snap.SnapOverKeys | corpus/document_brat.py:483-514 | the pass neither adds nor removes textbounds |
| Snap.SnapOverUnvisited | corpus/document_brat.py:483-514 | the textbounds after the visited ones are as they were |
| Snap.SnapOverOk | corpus/document_brat.py:483-514 | the pass completes exactly when no visited textbound failed |
| Snap.SnapOverStep | corpus/document_brat.py:483-514 | one visit: after a failure nothing changes; a rejected textbound stops the pass; an accepted one is replaced |
| Snap.SnapOverAt | corpus/document_brat.py:483-514 | the textbounds before the first failure are snapped; that one and the rest are unchanged |
| Snap.SnapOverStops | corpus/document_brat.py:503-504 | once a textbound fails, later visits change nothing |
| Snap.SnapLoop | corpus/document_brat.py:483-514 | the loop over the textbounds in table order computes the pass, keeping the key order |
| Snap.SnapTextbounds | corpus/document_brat.py:474-516 | only the textbound table changes, and it keeps its keys and their order |
| Snap.SnapOneWell | corpus/document_brat.py:485-512 | a snapped textbound starts at a token start and ends at a token end; its text is re-cut when a bound moved, and otherwise it is unchanged |
| Snap.SnapTextboundsOk | corpus/document_brat.py:503-504 | the pass completes exactly when every textbound can be snapped |
| Snap.SnapTextboundsEffect | corpus/document_brat.py:506-514 | after a completed pass every textbound is snapped well |
| Snap.SnapOnBoundaries | corpus/document_brat.py:489-506 | over ordered tokens, a textbound already on a token start and a token end, which trimming leaves alone, is unchanged |
| Snap.SnapIdempotent | corpus/document_brat.py:485-512 | over ordered tokens, snapping a snapped textbound again changes nothing |
| Swap.Lookup | corpus/document_brat.py:649-653 | role mode finds an id exactly when the role is present, and then it is the id that role names |
| Swap.ResolveByType | corpus/document_brat.py:661-669 | type mode finds a source exactly when it finds a role, and that role names the source id; a found target exists |
| Swap.Resolve | corpus/document_brat.py:634-669 | a resolved source is named by the resolved role; a resolved target is one of the event's arguments |
| Swap.TargetIsArgument | corpus/document_brat.py:661-669 | a target found by type is one of the event's arguments |
| Swap.Rebind | corpus/document_brat.py:676-712 | the events keep their keys and order; no other event changes; textbounds are only added |
| Swap.SwapStep | corpus/document_brat.py:632-712 | the visit of one event keeps the event keys, changes no other event, and only adds textbounds |
| Swap.RebindAdvances | corpus/document_brat.py:680-712 | a rebinding keeps the invariant of the pass, and adds one `new_tb` to the counter |
| Swap.RebindShape | corpus/document_brat.py:680-712 | a rebinding keeps every event's role names, and keeps every textbound |
| Swap.RebindCount | corpus/document_brat.py:680-712 | each created textbound or attribute takes one number and one counter entry; marked textbounds exist |
| Swap.SwapStepAdvances | corpus/document_brat.py:632-712 | every visit keeps the invariant of the pass |
| Swap.EventDefinedGrows | corpus/document_brat.py:661-678 | adding textbounds keeps every later visit free of a `KeyError` |
| Swap.SwapOverAdvances | corpus/document_brat.py:632-712 | the pass over any prefix of the events keeps the state well formed and the invariant |
| Swap.SwapOverUntouched | corpus/document_brat.py:632-712 | events not yet visited are as they were |
| Swap.SwapOverDefined | corpus/document_brat.py:632-712 | each event, when its turn comes, can be visited without a `KeyError` |
| Swap.Purge | corpus/document_brat.py:714-719 | the deferred deletion keeps the tables well formed |
| Swap.Start | corpus/document_brat.py:625-630 | the starting state is well formed |
| Swap.SwapSpans | corpus/document_brat.py:619-722 | the tables stay well formed, and the relations are untouched |
| Swap.SwapSpansLoop | corpus/document_brat.py:619-722 | the loop over the events in table order, then the deletion loop, computes `SwapSpans` |
| Swap.RebindEffect | corpus/document_brat.py:680-712 | one swap: a new `T<k>` with the source's type and the target's span, text and tokens is appended; the role keeps its position and names it; the source is marked; when the source has an attribute, a new `A<m>` with the same type and value is keyed by the new id; the numbers and the counter advance |
| Swap.PurgeEffect | corpus/document_brat.py:714-719 | exactly the marked textbounds and their attributes are deleted; `rm_tb` grows by the number of marked textbounds; events are untouched |
| Swap.SwapSpansCounts | corpus/document_brat.py:627-719 | `new_tb` is the number of events whose source and target both resolve; the T and A numbers grow by `new_tb` and `new_attr`; exactly `new_tb` textbounds are added; the deleted ones are the marked ones; `rm_tb` counts the distinct sources, at most one per swap |
| Swap.SwapSpansKeepsRoles | corpus/document_brat.py:692 | every event keeps its id and its role names, in order |
| Swap.StartFresh | corpus/document_brat.py:627-628 | the starting numbers are past every existing textbound number |
| Swap.SwapSpansSwapped | corpus/document_brat.py:632-719 | after the whole call, an event whose source and target both resolve has its source role naming a surviving `T<k>`, `k` the next index plus the number of swapped events before it; that textbound has the source's type and the target's start, end, text and tokens, and carries a copy of the source's attribute when it had one |
| Swap.SwapSpansUnswapped | corpus/document_brat.py:632-719 | after the whole call, every other event is unchanged |
| Swap.SwapOverCount | corpus/document_brat.py:672-694 | after visiting a prefix of the events, `new_tb` is the number of them that swapped |
| Swap.IndexAt | corpus/document_brat.py:680-681 | `tb_index` has grown by the number of swapped events visited |
| Swap.SwappedVisit | corpus/document_brat.py:672-712 | a visit that swaps rebinds the source role to `T<tb_index>`, a copy of the target with the source's type, with a copy of the source's attribute |
| Swap.UnswappedVisit | corpus/document_brat.py:672 | a visit that does not swap leaves the event as it was |
| Swap.VisitEffect | corpus/document_brat.py:632-712 | the effect of the `i`-th visit on its own event, swapped or not |
| Swap.EventKept | corpus/document_brat.py:632-712 | later visits never change an event already visited |
| Swap.PassSwapped | corpus/document_brat.py:632-712 | at the end of the event loop, a swapped event and its new textbound and attribute are as its visit left them |
| Swap.PassUnswapped | corpus/document_brat.py:632-712 | at the end of the event loop, an event that did not swap is unchanged |
| Swap.SwappedPurged | corpus/document_brat.py:714-719 | the deletion loop keeps a swapped event, its new textbound and its new attribute, which are never marked |
| Swap.PurgeSwapped | corpus/document_brat.py:627-719 | the swapped event's new textbound is not marked for deletion, so it survives the deletion loop |
| Transfer.TypeToTb | corpus/document_brat.py:737-740 | each type maps to an argument whose textbound has that type |
| Transfer.TypeToTbLast | corpus/document_brat.py:737-740 | a type is present exactly when some argument has it, and it maps to the last such argument |
| Transfer.TypeToTbHas | corpus/document_brat.py:737-744 | the full map holds exactly the types some argument has |
| Transfer.NewAttribute | corpus/document_brat.py:755-762 | the new attribute has the target type, the target textbound and the source value, and an id no existing attribute has |
| Transfer.TransferEvent | corpus/document_brat.py:733-768 | at most one entry is counted; only attributes keyed by a textbound of the target type change or appear |
| Transfer.TransferEventEffect | corpus/document_brat.py:742-768 | a missing type, or a source without an attribute, changes nothing; otherwise the target's attribute becomes a fresh one with the target type and the source value, replacing any previous one; the source attribute and all others are unchanged; one entry is counted |
| Transfer.TransferEvents | corpus/document_brat.py:733-768 | visiting `j` events counts at most `j` entries, and changes only attributes on textbounds of the target type |
| Transfer.TransferLoop | corpus/document_brat.py:733-768 | the loop over the events in table order computes `TransferEvents` |
| Transfer.TransferPairs | corpus/document_brat.py:730-768 | textbound lookups are needed only once a pair is processed; only attributes on textbounds whose type is a target of some pair change; every entry counted is for some pair's target |
| Transfer.TransferSubtypeValue | corpus/document_brat.py:724-770 | with no pairs nothing need resolve; only the attribute table changes, and only on textbounds of a target type |
| Prune.DropEvents | corpus/document_brat.py:774-778 | deleting the events one at a time is deleting at once all those whose type is not in the schema |
| Prune.DropLoop | corpus/document_brat.py:774-778 | the loop over a copy of the event ids computes `DropEvents` |
| Prune.DropEventsAt | corpus/document_brat.py:775-778 | the event met at each step is still there, as it was |
| Prune.DropEventsStep | corpus/document_brat.py:775-778 | one step deletes the event it meets exactly when its type is not in the schema |
| Prune.DropEventsEffect | corpus/document_brat.py:774-778 | exactly the events whose type the schema lists remain, unchanged, in their order |
| Prune.BadEvents | corpus/document_brat.py:774-778 | among the given ids that name events, exactly those whose type is not in the schema |
| Prune.BadRoles | corpus/document_brat.py:797-803 | the collected roles are roles of the event |
| Prune.BadRolesMeaning | corpus/document_brat.py:797-803 | a role is collected exactly when it comes after the trigger and its textbound type is not allowed |
| Prune.DeleteRoles | corpus/document_brat.py:806-807 | deleting the roles one at a time is deleting them all at once |
| Prune.PruneArgs | corpus/document_brat.py:796-807 | the arguments stay a well-formed ordered mapping |
| Prune.PruneArgsDeletes | corpus/document_brat.py:796-807 | an argument is deleted exactly when it comes after the trigger and its textbound type is not allowed; the survivors keep their ids and order |
| Prune.PruneArgsTrigger | corpus/document_brat.py:798-803 | the trigger is never deleted, and stays first |
| Prune.PruneArgsAllowed | corpus/document_brat.py:798-807 | every remaining argument after the trigger has an allowed textbound type |
| Prune.PruneEvent | corpus/document_brat.py:794-807 | an event keeps its id and type, and its arguments stay well formed |
| Prune.PrunedEvents | corpus/document_brat.py:794-807 | each kept event is replaced by its pruned form |
| Prune.PrunedEventsValid | corpus/document_brat.py:794-807 | pruning keeps every argument table well formed and every event type |
| Prune.PruneKept | corpus/document_brat.py:793-807 | the loop over the kept events in table order computes `PrunedEvents` |
| Prune.PruneInvalidConnections | corpus/document_brat.py:772-809 | the relations, textbounds and attributes are untouched, and every remaining event has a schema type |
| Prune.PruneEffect | corpus/document_brat.py:772-809 | exactly the events with a schema type remain; each keeps its id, type and trigger, and every later argument has a textbound type allowed for that event type |
| TypeMapping.RetypeUpToAt | corpus/document_brat.py:529-535 | after visiting `j` records, a record has the new type exactly when it was visited and had the old type |
| TypeMapping.RetypeUpToAll | corpus/document_brat.py:529-535 | visiting every record replaces the old type by the new one everywhere |
| TypeMapping.RetypePairStep | corpus/document_brat.py:529-535 | each record still has its original type when its turn comes; it is renamed and counted exactly when that is the old type |
| TypeMapping.RetypePair | corpus/document_brat.py:529-535 | the inner loop renames every record of the old type, and counts them |
| TypeMapping.RetypeLoop | corpus/document_brat.py:524-535 | the nested loops apply the pairs in map order, each to the types as they are at that moment |
| TypeMapping.RetypeTypesNoChain | corpus/document_brat.py:527-535 | when no pair renames to another pair's old type, a record whose type has a pair gets that pair's new type, and all others keep theirs |
| TypeMapping.RetypeTalliesNoChain | corpus/document_brat.py:527-535 | without such chains, each pair counts the records that originally had its old type |
| TypeMapping.RetypeTypes | corpus/document_brat.py:527-535 | applying the pairs keeps the records of the table |
| TypeMapping.RetypeTypesValues | corpus/document_brat.py:527-535 | after the pairs, every record has its original type or the new type of one of the pairs |
| TypeMapping.RetypeTallies | corpus/document_brat.py:524-535 | every counter entry is of the table's section and is one of the pairs (old type, new type) |
| TypeMapping.RenameRoleLoop | corpus/document_brat.py:560-570 | the argument loop computes `RenameRole` |
| TypeMapping.RenameRoleKeys | corpus/document_brat.py:560-567 | without a collision, the roles keep their positions, and only the old role is renamed |
| TypeMapping.RenameRoleValue | corpus/document_brat.py:560-567 | without a collision, every renamed role names the textbound it named before |
| TypeMapping.RenameRoleInPlace | corpus/document_brat.py:557-570 | the argument order and the textbound ids are kept; only the role name `old` changes |
| TypeMapping.RenameAbsentRole | corpus/document_brat.py:557-570 | an event without the old role is unchanged |
| TypeMapping.RenameRoleRemovesOld | corpus/document_brat.py:561-567 | after renaming, the old role name is gone |
| TypeMapping.RenameRolesLoop | corpus/document_brat.py:546-570 | the loops over the pairs and the events compute the renamed arguments and their counter |
| TypeMapping.RenameRolesPair | corpus/document_brat.py:557-570 | the loop over the events for one pair renames every event's arguments, and counts the renamed roles |
| TypeMapping.RenameRole | corpus/document_brat.py:557-570 | the old role is gone after a real renaming; without a collision the roles keep their order, only the old one renamed, each naming the textbound it named before |
| TypeMapping.CountRoleOver | corpus/document_brat.py:565-567 | every entry one pair counts over the events is that pair, in the arguments section |
| TypeMapping.ArgumentTallies | corpus/document_brat.py:557-570 | every role counter entry is of the arguments section and is one of the tb_map pairs |
| TypeMapping.MapTypesCounter | corpus/document_brat.py:524-586 | no mapping, empty counter; every entry is a pair of the mapping of its section (event_map for events, tb_map for textbounds and roles, attr_map for attributes) |
| TypeMapping.DrawnCounter | corpus/document_brat.py:524-586 | joining the four parts keeps each entry tied to the mapping of its section |
| TypeMapping.MapTypes | corpus/document_brat.py:518-586 | the tables stay well formed and keep their keys and order; relations are untouched |
| TypeMapping.MapTypesLoop | corpus/document_brat.py:518-586 | the passes, in the code's order, compute `MapTypes` |
| RoleMapping.RStripDigits | corpus/document_brat.py:605 | `rstrip(digits)`: the result is a prefix without a trailing digit, and everything removed is digits |
| RoleMapping.MapRolesArgs | corpus/document_brat.py:599-611 | the new arguments are well formed, with no more entries than arguments visited |
| RoleMapping.RoleTallies | corpus/document_brat.py:602-611 | every counted key is a mapped base name |
| RoleMapping.FutureRolesFree | corpus/document_brat.py:602-611 | a later role that keeps its name is not yet taken |
| RoleMapping.NewRoleFresh | corpus/document_brat.py:604-611 | given the assumed `get_unique_arg` contract, each argument's new role is not yet taken |
| RoleMapping.MapRolesArgsGrows | corpus/document_brat.py:611 | each argument adds one entry |
| RoleMapping.MapRolesArgsLength | corpus/document_brat.py:599-611 | the new mapping has as many entries as the old one |
| RoleMapping.MapRolesArgsStable | corpus/document_brat.py:611 | a later argument does not move an earlier entry |
| RoleMapping.MapRolesArgsRole | corpus/document_brat.py:604-611 | entry `i` carries the role the code chose for argument `i` |
| RoleMapping.MapRolesArgsValue | corpus/document_brat.py:611 | entry `i` names argument `i`'s textbound |
| RoleMapping.MapRolesArgsInPlace | corpus/document_brat.py:599-614 | argument order and textbound ids are kept; a role whose base is not mapped keeps its name |
| RoleMapping.MapRolesArgsStep | corpus/document_brat.py:604-611 | each argument is put under its new role, and counted when its base is mapped |
| RoleMapping.MapRolesArgsLoop | corpus/document_brat.py:599-614 | the inner loop computes the new mapping and the counter |
| RoleMapping.MapRolesOf | corpus/document_brat.py:599-614 | the new arguments of an event are well formed |
| RoleMapping.MapRolesEach | corpus/document_brat.py:596-614 | every event gets a well-formed new mapping |
| RoleMapping.RoleCountsMapped | corpus/document_brat.py:596-611 | every counted key is a mapped base name |
| RoleMapping.MapRolesLoop | corpus/document_brat.py:596-616 | the loop over the events computes the new mappings and the counter |
| RoleMapping.RenamedEvents | corpus/document_brat.py:596-614 | the events keep their keys, order, ids and types |
| RoleMapping.RoleCounter | corpus/document_brat.py:593-616 | every counter key is a mapped base name |
| RoleMapping.MapRoles | corpus/document_brat.py:588-616 | only the events' argument mappings change; relations, textbounds and attributes are untouched |
| Document.ChooseAnnotations | corpus/document_brat.py:216-235 | construction succeeds exactly when either only the annotation text or all four tables are given; the tables then come from that path alone |
| Document.DocumentBrat.constructor | corpus/document_brat.py:190-235 | the id, text and annotation are stored; the tokens are stored when a tokenisation is given; the tables come from the chosen path |
| Document.DocumentBrat.AnnotationSummary | corpus/document_brat.py:431-440 | each kind is counted once per record of its table |
| Document.DocumentBrat.QualityCheck | corpus/document_brat.py:391-429 | fails exactly when there is an event but no schema; otherwise returns the orphan rows, then the label rows, then the argument rows |
| Document.DocumentBrat.BratStr | corpus/document_brat.py:347-377 | the lines are `BratLines` of the tables and of the kept ids |
| Document.DocumentBrat.TextboundSection | corpus/document_brat.py:360-362 | the kept textbounds' lines, in table order |
| Document.DocumentBrat.RelationSection | corpus/document_brat.py:364-365 | every relation's line, in table order |
| Document.DocumentBrat.EventSection | corpus/document_brat.py:367-369 | the kept events' lines, in table order |
| Document.DocumentBrat.AttributeSection | corpus/document_brat.py:371-373 | the lines of the attributes on kept textbounds, in table order |
| Document.DocumentBrat.MapTypes | corpus/document_brat.py:518-586 | the new tables and the counter are `TypeMapping.MapTypes` of the old tables |
| Document.DocumentBrat.MapRoles | corpus/document_brat.py:588-616 | the new tables and the counter are `RoleMapping.MapRoles` of the old tables |
| Document.DocumentBrat.SwapSpans | corpus/document_brat.py:619-722 | the new tables and the counter are `Swap.SwapSpans` of the old tables |
| Document.DocumentBrat.TransferSubtypeValue | corpus/document_brat.py:724-770 | the new tables and the counter are `Transfer.TransferSubtypeValue` of the old tables |
| Document.DocumentBrat.TransferPair | corpus/document_brat.py:733-768 | one pair: only the attribute table changes, as `TransferEvents` says |
| Document.DocumentBrat.PruneInvalidConnections | corpus/document_brat.py:772-809 | the new tables are `Prune.PruneInvalidConnections` of the old ones; the returned counter is empty |
| Document.DocumentBrat.SnapTextbounds | corpus/document_brat.py:474-516 | the new tables and the success flag are `Snap.SnapTextbounds` of the old tables, over the flattened token offsets |

## Left out

- The tokenizer (`tokenize_document`, 130-161) is external code. A document receives the sentence-grouped tokens and
  offsets as a value, and only their post-check (154-159) is modelled.
- The constructor with no tokenizer (208-209): the code assigns `self.indices` rather than `self.tokens`. The model
  records that there are no tokens. corpus/document.py, whose base constructor might set `tokens`, is not part of this
  model.
- The parser `get_annotations` (corpus/brat.py) is not part of this model; it is the `parse` parameter.
- `tags` and the base class `Document` are not modelled.
- These members delegate to corpus/labels.py and spert_utils, which are not part of this model:
  `sentence_count`, `word_count`, `entities`, `relations`, `events`, `events2spert`, `events2spert_multi`, `y`, `Xy`
  and `label_summary`.
- `write_brat` writes files, so it is not modelled.
- The per-record `brat_str` serialisers live in corpus/brat.py. A line is a symbolic `Selection.Line` naming its record,
  and the final `"\n".join` is left out.
- The pandas DataFrame of `quality_check` is a sequence of rows. `os.sep` is the `separator` parameter.
- `non_white_space_check` treats as whitespace exactly six characters (`Text.IsWhiteSpace`): space, tab `\t`, line feed
  `\n`, carriage return `\r`, vertical tab `\x0b` and form feed `\x0c`. Python's `str.split()` also splits on the
  separators `\x1c`-`\x1f` and on Unicode whitespace; those are not modelled. The failing assertion is the check
  being false.
- `logging.warn` in `transfer_subtype_value` (765) is dropped; the overwrite it warns about is modelled.
- Exceptions the code raises by indexing are preconditions:
  - `KeyError` on a missing textbound or a missing schema entry;
  - `IndexError` on an annotator position out of range.

  The two failures with a defined outcome are modelled:
  - `find_missing_arguments` without a schema, as an `Err`;
  - the `ValueError` of `snap_textbounds`, as the flag `false`. The textbounds before the failing one stay snapped and
    the rest are unchanged.
- Helpers of corpus/brat.py and corpus/tokenization.py are not part of this model, so each has an assumed contract:
  - `get_trigger`: the first argument (`Records.Trigger`);
  - `get_max_id` and `get_next_index`: the largest numeric suffix, plus one for the next index (`Records.MaxSuffix`,
    `Records.NextIndex`). They are assumed to scan the records' own `id` fields (`Records.RecordIds`). For the textbound
    table the keys are those ids. The attribute table, however, is keyed by textbound ids (119, 699-700, 710), so
    `get_next_index(self.attr_dict)` (628) and `get_max_id(self.attr_dict)` (755) read as scanning the keys would
    number from the textbounds instead. That new `A` ids are fresh (`Transfer.NewAttribute`, the `attrIndex` clause
    of `Swap.SwapSpansCounts`) rests on this assumption;
  - `get_unique_arg`: the `uniq` parameter. The contract `RoleMapping.UniqueArg` (the result is not yet a role of the
    arguments built so far) and `RoleMapping.NoClash` are hypotheses of the lemmas that need them;
  - `remove_white_space_at_ends`: the `trim` parameter, with no contract of its own. Where a property needs one,
    the lemma states it as a hypothesis (`Snap.SnapOnBoundaries` assumes trimming leaves a span on token
    boundaries alone, and `Snap.SnapIdempotent` that it leaves a snapped span alone).
- `snap_textbounds` as written cannot run:
  - it calls the stored values `self.token_offsets` and `self.text` as functions (479, 481);
  - it unpacks three-element offsets (491, 498), while `tokenize_document` produces sentence-grouped pairs.

  The model snaps over the flattened `(start, end)` offsets and the document text. It also reads each textbound as
  stored before the pass, which is what the code sees, since every textbound is visited once.
- `map_` with a `relation_map` changes nothing: `NotImplementedError` is built but never raised (539).
- In the `tb_map` pass of `map_`, the code renames the textbound types and the roles pair by pair. The model applies all
  the pairs to the textbounds, then all of them to the roles. The two never read each other, so the tables and the
  counter are the same.
- `swap_spans` deletes every marked source unconditionally (714-719). Other events, relations or attributes that still
  point to it are left dangling, as in the code. The model leaves relations untouched.
- `prune_invalid_connections` returns a counter that is always empty (793, 809). The commented-out block (780-791) is
  not modelled.
- The passes mutate `Event` and `Textbound` objects in place, and the objects may be shared (aliasing). The model treats
  records as values, and each class method assigns whole new tables.
- TypeMapping.MapTypes: its own contract states only the shape of the result. The meaning of the type and role renaming
  is stated separately by `RetypeTypesNoChain`, `RetypeTalliesNoChain` and the `RenameRole*` lemmas. Those lemmas
  assume no pair renames to another pair's old type, or that no role collides; the collision cases are modelled but
  have no lemma of their own.
- RoleMapping.MapRoles: its own contract states only which tables change. Argument order and textbound ids are stated by
  `MapRolesArgsInPlace`, under the assumed `get_unique_arg` contract.
- Records.Trigger: its contract says only that the trigger is an argument of the event. That it is the first argument
  is its definition, the behaviour assumed of `get_trigger`.

=== FILE: document.dfy ===
/** The annotated document: its text, its tokenisation and the four tables
    of annotations, which the passes below edit in place. */
module Document {
  import opened Wrappers
  import opened Tables
  import opened Records
  import opened Text
  import opened Tokens
  import opened Selection
  import opened Quality
  import opened TypeMapping
  import opened RoleMapping
  import opened Swap
  import opened Transfer
  import opened Prune
  import opened Snap

  /** The counter keys `EVENT`, `RELATION`, `TEXTBOUND` and `ATTRIBUTE` of
      config/constants.py, which is not part of this model. */
  datatype Kind = EventKind | RelationKind | TextboundKind | AttributeKind

  /** The two ways to build a document: from brat annotation text, parsed
      by `get_annotations` (corpus/brat.py, not part of this model, hence
      the `parse` parameter), or from the four tables directly. Exactly one
      way succeeds: annotation text with no tables, or all four tables with
      no annotation text; the tables then come from that way alone. Giving
      anything of the other way, or leaving out one of the tables, fails an
      assertion. */
  function ChooseAnnotations(ann: Option<string>, eventDict: Option<Table<Id, Event>>,
                             relationDict: Option<Table<Id, Relation>>, tbDict: Option<Table<Id, Textbound>>,
                             attrDict: Option<Table<Id, Attribute>>, parse: string -> Annotations)
    : (r: Result<Annotations>)
    ensures r.Ok? <==>
      || (ann.Some? && eventDict.None? && relationDict.None? && tbDict.None? && attrDict.None?)
      || (ann.None? && eventDict.Some? && relationDict.Some? && tbDict.Some? && attrDict.Some?)
    ensures r.Ok? && ann.Some? ==> r.value == parse(ann.value)
    ensures r.Ok? && ann.None? ==>
      r.value.events == eventDict.value && r.value.relations == relationDict.value
      && r.value.tbs == tbDict.value && r.value.attrs == attrDict.value
  {
    if ann.Some? then
      if eventDict.None? && relationDict.None? && tbDict.None? && attrDict.None? then Ok(parse(ann.value))
      else Err("AssertionError")
    else if eventDict.Some? && relationDict.Some? && tbDict.Some? && attrDict.Some? then
      Ok(Annotations(eventDict.value, relationDict.value, tbDict.value, attrDict.value))
    else Err("AssertionError")
  }

  class DocumentBrat {
    const id: string
    const text: string
    const ann: Option<string>
    /** Sentence-grouped tokens and their `(start, end)` offsets, when a
        tokeniser was given. */
    const tokens: Option<seq<seq<string>>>
    const tokenOffsets: Option<seq<seq<Span>>>

    var events: Table<Id, Event>
    var relations: Table<Id, Relation>
    var tbs: Table<Id, Textbound>
    var attrs: Table<Id, Attribute>

    /** The four tables as one value. */
    function Ann(): Annotations
      reads this
    {
      Annotations(events, relations, tbs, attrs)
    }

    predicate Valid()
      reads this
    {
      Ann().Valid()
    }

    /** `DocumentBrat(id, text, ann, tags, tokenizer, event_dict, ...)`. The
        tokeniser itself is not modelled: `tokenized` is what
        `tokenize_document` returns, whose own assertions must hold. */
    constructor(id: string, text: string, ann: Option<string>,
                tokenized: Option<(seq<seq<string>>, seq<seq<Span>>)>,
                eventDict: Option<Table<Id, Event>>, relationDict: Option<Table<Id, Relation>>,
                tbDict: Option<Table<Id, Textbound>>, attrDict: Option<Table<Id, Attribute>>,
                parse: string -> Annotations)
      requires tokenized.Some? ==> TokensMatchText(text, tokenized.value.0, tokenized.value.1)
      requires ChooseAnnotations(ann, eventDict, relationDict, tbDict, attrDict, parse).Ok?
      requires ChooseAnnotations(ann, eventDict, relationDict, tbDict, attrDict, parse).value.Valid()
      ensures Valid()
      ensures this.id == id && this.text == text && this.ann == ann
      ensures tokenized.Some? ==> tokens == Some(tokenized.value.0) && tokenOffsets == Some(tokenized.value.1)
      ensures tokenized.None? ==> tokens.None? && tokenOffsets.None?
      ensures Ann() == ChooseAnnotations(ann, eventDict, relationDict, tbDict, attrDict, parse).value
    {
      this.id := id;
      this.text := text;
      this.ann := ann;
      if tokenized.Some? {
        tokens := Some(tokenized.value.0);
        tokenOffsets := Some(tokenized.value.1);
      } else {
        tokens := None;
        tokenOffsets := None;
      }
      var a := ChooseAnnotations(ann, eventDict, relationDict, tbDict, attrDict, parse).value;
      events := a.events;
      relations := a.relations;
      tbs := a.tbs;
      attrs := a.attrs;
    }

    /** `annotation_summary`: the number of records of each table. */
    method AnnotationSummary() returns (counter: multiset<Kind>)
      requires Valid()
      ensures counter[EventKind] == |events.keys| && counter[RelationKind] == |relations.keys|
      ensures counter[TextboundKind] == |tbs.keys| && counter[AttributeKind] == |attrs.keys|
      ensures |counter| == |events.keys| + |relations.keys| + |tbs.keys| + |attrs.keys|
    {
      SizeOfValid(events);
      SizeOfValid(relations);
      SizeOfValid(tbs);
      SizeOfValid(attrs);
      counter := multiset{};
      counter := counter[EventKind := counter[EventKind] + |events.vals|];
      counter := counter[RelationKind := counter[RelationKind] + |relations.vals|];
      counter := counter[TextboundKind := counter[TextboundKind] + |tbs.vals|];
      counter := counter[AttributeKind := counter[AttributeKind] + |attrs.vals|];
    }

    /** `quality_check`: the orphan rows, then the missing-label rows, then
        the missing-argument rows. The annotator is the component of the id
        at `annotatorPosition` (an out-of-range position raises), or
        "unknown". Without a required-argument schema the argument rule
        raises as soon as there is an event. */
    method QualityCheck(separator: char, annotatorPosition: Option<int>, labeledArguments: Option<set<string>>,
                        requiredArguments: Option<map<string, seq<string>>>)
      returns (r: Result<seq<Row>>)
      requires Valid()
      requires annotatorPosition.Some? ==>
        -|Split(id, separator)| <= annotatorPosition.value < |Split(id, separator)|
      requires requiredArguments.Some? ==> TriggersResolve(events, tbs, requiredArguments.value)
      ensures r.Err? <==> requiredArguments.None? && |events.keys| > 0
      ensures r.Ok? ==>
        var annotator := Annotator(id, separator, annotatorPosition);
        var orphans := OrphanRows(tbs.keys, |tbs.keys|, Referenced(events), tbs.vals, text, id, annotator);
        var labels := if labeledArguments.None? then [] else
          UnlabeledRows(tbs.keys, |tbs.keys|, tbs.vals, attrs.vals, labeledArguments.value, text, id, annotator);
        var arguments := if requiredArguments.None? then [] else
          MissingArgumentRows(events.keys, |events.keys|, events, tbs, text, requiredArguments.value, id, annotator);
        r.value == orphans + labels + arguments
    {
      var annotator := Annotator(id, separator, annotatorPosition);
      var rows := FindTbNotInEvents(tbs, events, text, id, annotator);
      var labelRows := FindMissingLabels(tbs, attrs, text, labeledArguments, id, annotator);
      rows := rows + labelRows;
      var argumentRows := FindMissingArguments(tbs, events, text, requiredArguments, id, annotator);
      if argumentRows.Err? {
        return Err(argumentRows.message);
      }
      rows := rows + argumentRows.value;
      return Ok(rows);
    }

    /** `brat_str`: the lines of the kept textbounds, of every relation, of
        the kept events and of the attributes of kept textbounds, each
        section in table order. */
    method BratStr(eventTypes: Option<set<string>>, argumentTypes: Option<set<string>>) returns (lines: seq<Line>)
      requires Valid() && ArgumentsResolve(events, tbs)
      ensures lines == BratLines(Ann(), KeptEvents(events, tbs, eventTypes, argumentTypes),
                                 KeptTbs(events, tbs, eventTypes, argumentTypes))
    {
      var eventIdsKeep, tbIdsKeep := IdsToKeep(events, tbs, eventTypes, argumentTypes);
      var tbLines := TextboundSection(tbIdsKeep);
      var relationLines := RelationSection();
      var eventLines := EventSection(eventIdsKeep, tbIdsKeep);
      var attrLines := AttributeSection(tbIdsKeep);
      lines := tbLines + relationLines + eventLines + attrLines;
    }

    /** The textbound lines of `brat_str`, in table order. */
    method TextboundSection(tbIdsKeep: set<Id>) returns (lines: seq<Line>)
      requires Valid()
      ensures lines == TbLines(Kept(tbs.keys, tbs.vals, tbIdsKeep))
    {
      lines := [];
      var i := 0;
      while i < |tbs.keys|
        invariant 0 <= i <= |tbs.keys|
        invariant lines == TbLines(Kept(tbs.keys[..i], tbs.vals, tbIdsKeep))
      {
        var tbId := tbs.keys[i];
        KeptSnoc(tbs.keys, tbs.vals, tbIdsKeep, i);
        if tbId in tbIdsKeep {
          TbLinesSnoc(Kept(tbs.keys[..i], tbs.vals, tbIdsKeep), tbs.vals[tbId]);
          lines := lines + [TbLine(tbs.vals[tbId])];
        }
        i := i + 1;
      }
      assert tbs.keys[..i] == tbs.keys;
    }

    /** The relation lines of `brat_str`: every relation, in table order. */
    method RelationSection() returns (lines: seq<Line>)
      requires Valid()
      ensures lines == RelationLines(Kept(relations.keys, relations.vals, relations.vals.Keys))
    {
      lines := [];
      var i := 0;
      while i < |relations.keys|
        invariant 0 <= i <= |relations.keys|
        invariant lines == RelationLines(Kept(relations.keys[..i], relations.vals, relations.vals.Keys))
      {
        var relationId := relations.keys[i];
        KeptSnoc(relations.keys, relations.vals, relations.vals.Keys, i);
        RelationLinesSnoc(Kept(relations.keys[..i], relations.vals, relations.vals.Keys), relations.vals[relationId]);
        lines := lines + [RelationLine(relations.vals[relationId])];
        i := i + 1;
      }
      assert relations.keys[..i] == relations.keys;
    }

    /** The event lines of `brat_str`, in table order. */
    method EventSection(eventIdsKeep: set<Id>, tbIdsKeep: set<Id>) returns (lines: seq<Line>)
      requires Valid()
      ensures lines == EventLines(Kept(events.keys, events.vals, eventIdsKeep), tbIdsKeep)
    {
      lines := [];
      var i := 0;
      while i < |events.keys|
        invariant 0 <= i <= |events.keys|
        invariant lines == EventLines(Kept(events.keys[..i], events.vals, eventIdsKeep), tbIdsKeep)
      {
        var eventId := events.keys[i];
        KeptSnoc(events.keys, events.vals, eventIdsKeep, i);
        if eventId in eventIdsKeep {
          EventLinesSnoc(Kept(events.keys[..i], events.vals, eventIdsKeep), events.vals[eventId], tbIdsKeep);
          lines := lines + [EventLine(events.vals[eventId], tbIdsKeep)];
        }
        i := i + 1;
      }
      assert events.keys[..i] == events.keys;
    }

    /** The attribute lines of `brat_str`: those on kept textbounds, in
        table order. */
    method AttributeSection(tbIdsKeep: set<Id>) returns (lines: seq<Line>)
      requires Valid()
      ensures lines == AttrLines(Kept(attrs.keys, attrs.vals, tbIdsKeep))
    {
      lines := [];
      var i := 0;
      while i < |attrs.keys|
        invariant 0 <= i <= |attrs.keys|
        invariant lines == AttrLines(Kept(attrs.keys[..i], attrs.vals, tbIdsKeep))
      {
        var tbId := attrs.keys[i];
        KeptSnoc(attrs.keys, attrs.vals, tbIdsKeep, i);
        if tbId in tbIdsKeep {
          AttrLinesSnoc(Kept(attrs.keys[..i], attrs.vals, tbIdsKeep), attrs.vals[tbId]);
          lines := lines + [AttrLine(attrs.vals[tbId])];
        }
        i := i + 1;
      }
      assert attrs.keys[..i] == attrs.keys;
    }

    /** `map_`: event types, then (nothing for) relations, then textbound
        types and the matching event roles, then attribute types, each
        through its own mapping when one is given. */
    method MapTypes(eventMap: Option<Table<string, string>>, relationMap: Option<Table<string, string>>,
                    tbMap: Option<Table<string, string>>, attrMap: Option<Table<string, string>>)
      returns (counter: multiset<Tally<string>>)
      requires Valid()
      requires eventMap.Some? ==> eventMap.value.Valid()
      requires tbMap.Some? ==> tbMap.value.Valid()
      requires attrMap.Some? ==> attrMap.value.Valid()
      modifies this
      ensures (Ann(), counter) == TypeMapping.MapTypes(old(Ann()), eventMap, relationMap, tbMap, attrMap)
    {
      var r;
      r, counter := MapTypesLoop(Ann(), eventMap, relationMap, tbMap, attrMap);
      events, tbs, attrs := r.events, r.tbs, r.attrs;
    }

    /** `map_roles`: every event's roles renamed through `roleMap` by base
        name, `uniq` standing for `get_unique_arg`. */
    method MapRoles(roleMap: map<string, string>, uniq: (string, Table<string, Id>) -> string)
      returns (counter: multiset<RoleTally<string>>)
      requires Valid()
      modifies this
      ensures (Ann(), counter) == RoleMapping.MapRoles(old(Ann()), roleMap, uniq)
    {
      var args;
      args, counter := MapRolesLoop(ArgsOf(events.vals), events.keys, roleMap, RStripDigits, uniq);
      events := Table(events.keys, EventsWithArgs(events.vals, args));
    }

    /** `swap_spans`: each event in table order has its `source` argument
        rebound to a copy of its `target` argument's span, then the replaced
        textbounds are deleted. */
    method SwapSpans(source: string, target: Target, useRole: bool) returns (counter: multiset<SwapTally>)
      requires Valid() && SwapDefined(Start(Ann()), source, target, useRole)
      modifies this
      ensures (Ann(), counter) == Swap.SwapSpans(old(Ann()), source, target, useRole)
    {
      var a := Ann();
      var r;
      r, counter := SwapSpansLoop(a, source, target, useRole);
      assert r.relations == a.relations;
      events, tbs, attrs := r.events, r.tbs, r.attrs;
    }

    /** `transfer_subtype_value`: for each (target, source) pair in order,
        every event in table order is visited. */
    method TransferSubtypeValue(pairs: Table<string, string>) returns (counts: multiset<Transferred>)
      requires Valid() && (|pairs.keys| > 0 ==> ArgumentsResolve(events, tbs)) && pairs.Valid()
      modifies this
      ensures (Ann(), counts) == Transfer.TransferSubtypeValue(old(Ann()), pairs)
    {
      counts := multiset{};
      var i := 0;
      while i < |pairs.keys|
        invariant 0 <= i <= |pairs.keys|
        invariant events == old(events) && relations == old(relations) && tbs == old(tbs)
        invariant (attrs, counts) == TransferPairs(old(attrs), events, tbs, pairs, i)
      {
        var target := pairs.keys[i];
        var count := TransferPair(target, pairs.vals[target]);
        counts := counts + count;
        i := i + 1;
      }
    }

    /** The loop over the events for one (target, source) pair. */
    method TransferPair(target: string, source: string) returns (counts: multiset<Transferred>)
      requires Valid() && ArgumentsResolve(events, tbs)
      modifies this
      ensures events == old(events) && relations == old(relations) && tbs == old(tbs)
      ensures (attrs, counts) == TransferEvents(old(attrs), events, events.keys, |events.keys|, tbs, target, source)
      ensures Valid()
    {
      attrs, counts := TransferLoop(attrs, events, tbs, target, source);
    }

    /** `prune_invalid_connections`: the events whose type the schema does
        not list are deleted, then every kept event loses the non-trigger
        arguments whose type the schema does not allow. The counter it
        returns is always empty. */
    method PruneInvalidConnections(schema: Schema) returns (counts: multiset<(string, string)>)
      requires Valid() && PruneDefined(events, tbs.vals, schema)
      modifies this
      ensures Ann() == Prune.PruneInvalidConnections(old(Ann()), schema)
      ensures counts == multiset{}
    {
      ghost var events0 := events;
      events := DropLoop(events, schema);
      DropEventsEffect(events0, schema);
      events := PruneKept(events, tbs.vals, schema);
      counts := multiset{};
    }

    /** `snap_textbounds`: every textbound in table order is snapped to the
        token spans, `trim` standing for `remove_white_space_at_ends`;
        `false` stands for the `ValueError` raised at the first textbound
        that cannot be snapped, the ones before it staying snapped. */
    method SnapTextbounds(trim: Trim) returns (ok: bool)
      requires Valid() && tokenOffsets.Some?
      modifies this
      ensures (Ann(), ok) == Snap.SnapTextbounds(old(Ann()), Flatten(tokenOffsets.value), text, trim)
    {
      tbs, ok := SnapLoop(tbs, Flatten(tokenOffsets.value), text, trim);
    }
  }
}

=== FILE: prune.dfy ===
/** Specification of `prune_invalid_connections`: dropping the events whose
    type the schema does not list, then every non-trigger argument whose
    textbound type the schema does not allow for the event's type. */
module Prune {
  import opened Tables
  import opened Records

  /** `args_by_event_type`: the argument types allowed for each event type. */
  type Schema = map<string, set<string>>

  /** The first pass over `keys[..j]`: each event whose type is not in the
      schema is deleted as it is met. Deleting one at a time is deleting the
      set of them at once. */
  function DropEvents(events: Table<Id, Event>, keys: seq<Id>, j: nat, schema: Schema): (r: Table<Id, Event>)
    requires events.Valid() && keys == events.keys && j <= |keys|
    ensures r.Valid()
    ensures r == events.RemoveAll(BadEvents(events, keys[..j], schema))
  {
    if j == 0 then
      assert BadEvents(events, keys[..j], schema) == {};
      assert events.RemoveAll({}) == events by {
        FilterOutNothing(events.keys);
      }
      events
    else
      var prev := DropEvents(events, keys, j - 1, schema);
      var k := keys[j - 1];
      DropEventsStep(events, keys, j, schema);
      if k in events.vals && events.vals[k].type_ !in schema then prev.RemoveAll({k}) else prev
  }

  /** The first loop, over the event ids as they were at its start: an
      event whose type the schema does not list is deleted. */
  method DropLoop(events0: Table<Id, Event>, schema: Schema) returns (events: Table<Id, Event>)
    requires events0.Valid()
    ensures events == DropEvents(events0, events0.keys, |events0.keys|, schema)
  {
    events := events0;
    var eventIds := events0.keys;
    var j := 0;
    while j < |eventIds|
      invariant 0 <= j <= |eventIds|
      invariant events == DropEvents(events0, eventIds, j, schema)
    {
      var id := eventIds[j];
      DropEventsAt(events0, eventIds, j, schema);
      var event := events.vals[id];
      if event.type_ !in schema {
        events := events.RemoveAll({id});
      }
      j := j + 1;
    }
  }

  /** The event the first pass meets at step `j` is still there, as it was. */
  lemma DropEventsAt(events: Table<Id, Event>, keys: seq<Id>, j: nat, schema: Schema)
    requires events.Valid() && keys == events.keys && j < |keys|
    ensures keys[j] in DropEvents(events, keys, j, schema).vals
    ensures DropEvents(events, keys, j, schema).vals[keys[j]] == events.vals[keys[j]]
  {
    DistinctNotBefore(keys, j);
  }

  /** One more deletion of the first pass. */
  lemma DropEventsStep(events: Table<Id, Event>, keys: seq<Id>, j: nat, schema: Schema)
    requires events.Valid() && keys == events.keys && 0 < j <= |keys|
    ensures var prev := events.RemoveAll(BadEvents(events, keys[..j - 1], schema));
      var k := keys[j - 1];
      (if k in events.vals && events.vals[k].type_ !in schema then prev.RemoveAll({k}) else prev)
        == events.RemoveAll(BadEvents(events, keys[..j], schema))
  {
    var k := keys[j - 1];
    var gone := BadEvents(events, keys[..j - 1], schema);
    assert keys[..j] == keys[..j - 1] + [k];
    BadEventsSnoc(events, keys[..j - 1], k, schema);
    if k in events.vals && events.vals[k].type_ !in schema {
      RemoveAllStep(events, gone, k);
      assert BadEvents(events, keys[..j], schema) == gone + {k};
    } else {
      assert BadEvents(events, keys[..j], schema) == gone;
    }
  }

  lemma BadEventsSnoc(events: Table<Id, Event>, ks: seq<Id>, k: Id, schema: Schema)
    ensures BadEvents(events, ks + [k], schema) ==
      BadEvents(events, ks, schema) + (if k in events.vals && events.vals[k].type_ !in schema then {k} else {})
  {
  }

  /** The events among `ks` whose type is not in the schema. */
  function BadEvents(events: Table<Id, Event>, ks: seq<Id>, schema: Schema): (bad: set<Id>)
    ensures bad <= events.vals.Keys
    ensures forall k :: k in bad ==> k in ks
    ensures forall k :: k in ks && k in events.vals ==> (k in bad <==> events.vals[k].type_ !in schema)
  {
    set k | k in ks && k in events.vals && events.vals[k].type_ !in schema
  }

  /** After the first pass exactly the events whose type is in the schema
      remain, in their original order, unchanged. */
  lemma DropEventsEffect(events: Table<Id, Event>, schema: Schema)
    requires events.Valid()
    ensures var r := DropEvents(events, events.keys, |events.keys|, schema);
      && (forall k :: k in r.vals <==> k in events.vals && events.vals[k].type_ in schema)
      && (forall k :: k in r.vals ==> r.vals[k] == events.vals[k])
      && r.keys == FilterOut(events.keys, set k | k in events.vals && events.vals[k].type_ !in schema)
  {
    var keys := events.keys;
    assert keys[..|keys|] == keys;
    assert BadEvents(events, keys, schema) == set k | k in events.vals && events.vals[k].type_ !in schema;
  }

  /** The roles `to_remove` collects among the first `n` arguments: those
      after the trigger whose textbound type is not in `allowed`. */
  function BadRoles<R(==,!new)>(args: Table<R, Id>, tbs: map<Id, Textbound>, allowed: set<string>, n: nat)
    : (bad: seq<R>)
    requires args.Valid() && n <= |args.keys|
    requires forall i :: 1 <= i < |args.keys| ==> args.vals[args.keys[i]] in tbs
    ensures forall x :: x in bad ==> x in args.vals
  {
    if n == 0 then []
    else
      var prev := BadRoles(args, tbs, allowed, n - 1);
      var role := args.keys[n - 1];
      if n - 1 > 0 && tbs[args.vals[role]].type_ !in allowed then prev + [role] else prev
  }

  /** A role is collected exactly when it sits after the trigger among the
      first `n` arguments and its textbound type is not allowed. */
  lemma {:induction false} BadRolesMeaning<R(!new)>(args: Table<R, Id>, tbs: map<Id, Textbound>, allowed: set<string>,
                                                    n: nat, x: R)
    requires args.Valid() && n <= |args.keys|
    requires forall i :: 1 <= i < |args.keys| ==> args.vals[args.keys[i]] in tbs
    ensures x in BadRoles(args, tbs, allowed, n) <==>
      exists i :: 1 <= i < n && args.keys[i] == x && tbs[args.vals[x]].type_ !in allowed
  {
    if n > 0 {
      BadRolesMeaning(args, tbs, allowed, n - 1, x);
    }
  }

  /** The second loop: deleting `roles[..j]` one at a time is deleting them
      all at once. */
  function DeleteRoles<R(==,!new)>(args: Table<R, Id>, roles: seq<R>, j: nat): (r: Table<R, Id>)
    requires args.Valid() && j <= |roles|
    ensures r.Valid()
    ensures r == args.RemoveAll(Elems(roles[..j]))
  {
    if j == 0 then
      assert Elems(roles[..j]) == {};
      assert args.RemoveAll({}) == args by {
        FilterOutNothing(args.keys);
      }
      args
    else
      var prev := DeleteRoles(args, roles, j - 1);
      var gone := Elems(roles[..j - 1]);
      RemoveAllStep(args, gone, roles[j - 1]);
      assert roles[..j] == roles[..j - 1] + [roles[j - 1]];
      ElemsSnoc(roles[..j - 1], roles[j - 1]);
      prev.RemoveAll({roles[j - 1]})
  }

  /** An event's arguments once its invalid roles are deleted. */
  function PruneArgs<R(==,!new)>(args: Table<R, Id>, tbs: map<Id, Textbound>, allowed: set<string>): (r: Table<R, Id>)
    requires args.Valid()
    requires forall i :: 1 <= i < |args.keys| ==> args.vals[args.keys[i]] in tbs
    ensures r.Valid()
  {
    var bad := BadRoles(args, tbs, allowed, |args.keys|);
    DeleteRoles(args, bad, |bad|)
  }

  /** A role is deleted exactly when it comes after the trigger and its
      textbound type is not allowed; the rest keep their order and
      textbound ids. */
  lemma PruneArgsDeletes<R(!new)>(args: Table<R, Id>, tbs: map<Id, Textbound>, allowed: set<string>)
    requires args.Valid()
    requires forall i :: 1 <= i < |args.keys| ==> args.vals[args.keys[i]] in tbs
    ensures var r := PruneArgs(args, tbs, allowed);
      && (forall x :: x in args.vals ==>
            (x !in r.vals <==> exists i :: 1 <= i < |args.keys| && args.keys[i] == x && tbs[args.vals[x]].type_ !in allowed))
      && (forall x :: x in r.vals ==> r.vals[x] == args.vals[x])
      && r.keys == FilterOut(args.keys, set x | x in BadRoles(args, tbs, allowed, |args.keys|))
  {
    var bad := BadRoles(args, tbs, allowed, |args.keys|);
    var r := PruneArgs(args, tbs, allowed);
    assert bad[..|bad|] == bad;
    forall x | x in args.vals
      ensures x !in r.vals <==>
        exists i :: 1 <= i < |args.keys| && args.keys[i] == x && tbs[args.vals[x]].type_ !in allowed
    {
      BadRolesMeaning(args, tbs, allowed, |args.keys|, x);
    }
  }

  /** The trigger, the first argument, is never deleted and stays first. */
  lemma PruneArgsTrigger<R(!new)>(args: Table<R, Id>, tbs: map<Id, Textbound>, allowed: set<string>)
    requires args.Valid()
    requires forall i :: 1 <= i < |args.keys| ==> args.vals[args.keys[i]] in tbs
    ensures var r := PruneArgs(args, tbs, allowed);
      |args.keys| > 0 ==> |r.keys| > 0 && r.keys[0] == args.keys[0]
  {
    if |args.keys| > 0 {
      var bad := BadRoles(args, tbs, allowed, |args.keys|);
      var gone := set x | x in bad;
      assert bad[..|bad|] == bad;
      var t := args.keys[0];
      BadRolesMeaning(args, tbs, allowed, |args.keys|, t);
      forall i | 1 <= i < |args.keys|
        ensures args.keys[i] != t
      {
        DistinctNe(args.keys, i, 0);
      }
      assert t !in gone;
      FilterOutHead(args.keys, gone);
    }
  }

  /** Every argument left after the trigger has an allowed textbound type. */
  lemma PruneArgsAllowed<R(!new)>(args: Table<R, Id>, tbs: map<Id, Textbound>, allowed: set<string>)
    requires args.Valid()
    requires forall i :: 1 <= i < |args.keys| ==> args.vals[args.keys[i]] in tbs
    ensures var r := PruneArgs(args, tbs, allowed);
      forall i :: 1 <= i < |r.keys| ==> r.vals[r.keys[i]] in tbs && tbs[r.vals[r.keys[i]]].type_ in allowed
  {
    var r := PruneArgs(args, tbs, allowed);
    PruneArgsTrigger(args, tbs, allowed);
    forall i | 1 <= i < |r.keys|
      ensures r.vals[r.keys[i]] in tbs && tbs[r.vals[r.keys[i]]].type_ in allowed
    {
      var x := r.keys[i];
      var p :| 0 <= p < |args.keys| && args.keys[p] == x;
      DistinctNe(r.keys, i, 0);
      BadRolesMeaning(args, tbs, allowed, |args.keys|, x);
    }
  }

  /** Every kept event's non-trigger arguments name existing textbounds:
      the second pass looks each of them up. */
  predicate PruneDefined(events: Table<Id, Event>, tbs: map<Id, Textbound>, schema: Schema)
    requires EventsValid(events)
  {
    forall k, i :: k in events.vals && events.vals[k].type_ in schema && 1 <= i < |events.vals[k].arguments.keys| ==>
      events.vals[k].arguments.vals[events.vals[k].arguments.keys[i]] in tbs
  }

  /** One kept event with its invalid arguments deleted. */
  function PruneEvent(e: Event, tbs: map<Id, Textbound>, schema: Schema): (r: Event)
    requires e.arguments.Valid() && e.type_ in schema
    requires forall i :: 1 <= i < |e.arguments.keys| ==> e.arguments.vals[e.arguments.keys[i]] in tbs
    ensures r.arguments.Valid() && r.id == e.id && r.type_ == e.type_
  {
    e.(arguments := PruneArgs(e.arguments, tbs, schema[e.type_]))
  }

  /** `PruneEvent` where it is defined; elsewhere the event as it is. */
  function PruneOne(e: Event, tbs: map<Id, Textbound>, schema: Schema): (r: Event)
    ensures r.id == e.id && r.type_ == e.type_
    ensures e.arguments.Valid() ==> r.arguments.Valid()
  {
    if e.arguments.Valid() && e.type_ in schema
       && (forall i :: 1 <= i < |e.arguments.keys| ==> e.arguments.vals[e.arguments.keys[i]] in tbs)
    then PruneEvent(e, tbs, schema)
    else e
  }

  /** `PruneOne`, as a function value. */
  function PruneVisit(tbs: map<Id, Textbound>, schema: Schema): Event -> Event
  {
    e => PruneOne(e, tbs, schema)
  }

  /** The event each kept id names, pruned. */
  function PrunedEvents(kept: Table<Id, Event>, tbs: map<Id, Textbound>, schema: Schema): (m: map<Id, Event>)
    ensures m.Keys == kept.vals.Keys
    ensures forall k :: k in m ==> m[k] == PruneOne(kept.vals[k], tbs, schema)
  {
    map k | k in kept.vals :: PruneOne(kept.vals[k], tbs, schema)
  }

  /** Pruning keeps every event's argument table well formed and its type. */
  lemma PrunedEventsValid(kept: Table<Id, Event>, tbs: map<Id, Textbound>, schema: Schema)
    requires EventsValid(kept)
    ensures EventsValid(Table(kept.keys, PrunedEvents(kept, tbs, schema)))
    ensures forall k :: k in kept.vals ==> PrunedEvents(kept, tbs, schema)[k].type_ == kept.vals[k].type_
  {
  }

  /** Visiting every kept event with `PruneVisit` is `PrunedEvents`. */
  lemma PruneVisitEach(kept: Table<Id, Event>, tbs: map<Id, Textbound>, schema: Schema)
    ensures (map k | k in kept.vals :: PruneVisit(tbs, schema)(kept.vals[k])) == PrunedEvents(kept, tbs, schema)
  {
  }

  /** The second loop tallies nothing. */
  function NoTally(e: Event): multiset<(string, string)>
  {
    multiset{}
  }

  /** The second loop, over the kept events in table order: each loses its
      invalid arguments. */
  method PruneKept(kept: Table<Id, Event>, tbs: map<Id, Textbound>, schema: Schema) returns (events: Table<Id, Event>)
    requires EventsValid(kept) && PruneDefined(kept, tbs, schema)
    requires forall k :: k in kept.vals ==> kept.vals[k].type_ in schema
    ensures events == Table(kept.keys, PrunedEvents(kept, tbs, schema))
  {
    var vals, _ := VisitEach(kept.vals, kept.keys, PruneVisit(tbs, schema), NoTally);
    PruneVisitEach(kept, tbs, schema);
    events := Table(kept.keys, vals);
  }

  /** The events after both passes: the kept events, each with its invalid
      arguments deleted. The returned counter is always empty. */
  function PruneInvalidConnections(a: Annotations, schema: Schema): (r: Annotations)
    requires a.Valid() && PruneDefined(a.events, a.tbs.vals, schema)
    ensures r.Valid()
    ensures r.relations == a.relations && r.tbs == a.tbs && r.attrs == a.attrs
    ensures forall k :: k in r.events.vals ==> r.events.vals[k].type_ in schema
  {
    var kept := DropEvents(a.events, a.events.keys, |a.events.keys|, schema);
    DropEventsEffect(a.events, schema);
    PrunedEventsValid(kept, a.tbs.vals, schema);
    a.(events := Table(kept.keys, PrunedEvents(kept, a.tbs.vals, schema)))
  }

  /** Every remaining event's type is in the schema, its trigger is its
      first argument as before, and every later argument has a type the
      schema allows for that event type; events of other types are gone. */
  lemma PruneEffect(a: Annotations, schema: Schema)
    requires a.Valid() && PruneDefined(a.events, a.tbs.vals, schema)
    ensures var r := PruneInvalidConnections(a, schema);
      && (forall k :: k in r.events.vals <==> k in a.events.vals && a.events.vals[k].type_ in schema)
      && (forall k :: k in r.events.vals ==>
            var e := a.events.vals[k];
            var e' := r.events.vals[k];
            && e'.id == e.id && e'.type_ == e.type_
            && (|e.arguments.keys| > 0 ==> |e'.arguments.keys| > 0 && e'.arguments.keys[0] == e.arguments.keys[0])
            && (forall i :: 1 <= i < |e'.arguments.keys| ==>
                  e'.arguments.vals[e'.arguments.keys[i]] in a.tbs.vals
                  && a.tbs.vals[e'.arguments.vals[e'.arguments.keys[i]]].type_ in schema[e.type_]))
  {
    DropEventsEffect(a.events, schema);
    var r := PruneInvalidConnections(a, schema);
    forall k | k in r.events.vals
      ensures var e := a.events.vals[k];
        var e' := r.events.vals[k];
        && (|e.arguments.keys| > 0 ==> |e'.arguments.keys| > 0 && e'.arguments.keys[0] == e.arguments.keys[0])
        && (forall i :: 1 <= i < |e'.arguments.keys| ==>
              e'.arguments.vals[e'.arguments.keys[i]] in a.tbs.vals
              && a.tbs.vals[e'.arguments.vals[e'.arguments.keys[i]]].type_ in schema[e.type_])
    {
      var e := a.events.vals[k];
      assert e.arguments.Valid() && e.type_ in schema;
      assert forall i :: 1 <= i < |e.arguments.keys| ==> e.arguments.vals[e.arguments.keys[i]] in a.tbs.vals;
      assert r.events.vals[k] == PruneEvent(e, a.tbs.vals, schema);
      PruneArgsTrigger(e.arguments, a.tbs.vals, schema[e.type_]);
      PruneArgsAllowed(e.arguments, a.tbs.vals, schema[e.type_]);
    }
  }
}

=== FILE: quality.dfy ===
/** The structural quality rules: textbounds no event uses, textbounds that
    need a label and lack one, and events missing a required argument. Each
    violation is a report row. */
module Quality {
  import opened Wrappers
  import opened Tables
  import opened Records
  import opened Text
  import Tokens

  /** A report row: `(annotator, id, line, argument, text, message)`. */
  datatype Row = Row(annotator: string, docId: string, line: nat, argument: string, text: string, message: string)

  const OrphanMessage: string := "Argument not connected to an event"
  const MissingArgumentMessage: string := "Event is missing required argument"
  const MissingLabelMessage: string := "Argument missing a label"
  /** Placeholder text of a missing-argument row. */
  const NoText: string := "--"

  /** The textbound ids some event argument names. */
  function Referenced(events: Table<Id, Event>): (ids: set<Id>)
    ensures forall x :: x in ids <==>
      exists k, r :: k in events.vals && r in events.vals[k].arguments.vals && events.vals[k].arguments.vals[r] == x
  {
    set k, r | k in events.vals && r in events.vals[k].arguments.vals :: events.vals[k].arguments.vals[r]
  }

  /** The row reporting textbound `tb`. */
  function SpanRow(tb: Textbound, text: string, docId: string, annotator: string, message: string): Row
  {
    Row(annotator, docId, GetLine(tb.start, text), tb.type_, tb.text, message)
  }

  /** The rows reporting the textbounds `ids`, in that order. */
  function SpanRows(ids: seq<Id>, tbs: map<Id, Textbound>, text: string, docId: string, annotator: string, message: string)
    : (rows: seq<Row>)
    requires forall x :: x in ids ==> x in tbs
    ensures |rows| == |ids|
    ensures forall i :: 0 <= i < |ids| ==> rows[i] == SpanRow(tbs[ids[i]], text, docId, annotator, message)
  {
    seq(|ids|, i requires 0 <= i < |ids| => SpanRow(tbs[ids[i]], text, docId, annotator, message))
  }

  /** One more id is one more row at the end. */
  lemma SpanRowsSnoc(ids: seq<Id>, x: Id, tbs: map<Id, Textbound>, text: string, docId: string, annotator: string,
                     message: string)
    requires forall y :: y in ids ==> y in tbs
    requires x in tbs
    ensures SpanRows(ids + [x], tbs, text, docId, annotator, message)
         == SpanRows(ids, tbs, text, docId, annotator, message) + [SpanRow(tbs[x], text, docId, annotator, message)]
  {
  }

  /** Every key names a textbound. */
  predicate AllIn(keys: seq<Id>, tbs: map<Id, Textbound>)
  {
    forall j :: 0 <= j < |keys| ==> keys[j] in tbs
  }

  /** The first `n` textbound ids that no event refers to, in table order. */
  function OrphanIds(keys: seq<Id>, n: nat, referenced: set<Id>): (ids: seq<Id>)
    requires n <= |keys|
    ensures forall x :: x in ids <==> x in keys[..n] && x !in referenced
  {
    if n == 0 then []
    else
      assert forall x :: x in keys[..n] <==> x in keys[..n - 1] || x == keys[n - 1];
      OrphanIds(keys, n - 1, referenced) + (if keys[n - 1] in referenced then [] else [keys[n - 1]])
  }

  /** The rows of the orphan rule over the first `n` textbound ids. */
  function OrphanRows(keys: seq<Id>, n: nat, referenced: set<Id>, tbs: map<Id, Textbound>, text: string, docId: string,
                      annotator: string): (rows: seq<Row>)
    requires n <= |keys| && AllIn(keys, tbs)
    ensures |rows| <= n
    ensures forall i :: 0 <= i < |rows| ==>
      rows[i].message == OrphanMessage && rows[i].docId == docId && rows[i].annotator == annotator
  {
    if n == 0 then []
    else
      OrphanRows(keys, n - 1, referenced, tbs, text, docId, annotator)
      + (if keys[n - 1] in referenced then [] else [SpanRow(tbs[keys[n - 1]], text, docId, annotator, OrphanMessage)])
  }

  /** Every textbound id the first `n` keys hold names a textbound. */
  lemma PrefixIn(keys: seq<Id>, n: nat, tbs: map<Id, Textbound>)
    requires n <= |keys| && AllIn(keys, tbs)
    ensures forall y :: y in keys[..n] ==> y in tbs
  {
    forall y | y in keys[..n] ensures y in tbs {
      var j :| 0 <= j < n && keys[..n][j] == y;
    }
  }

  /** The orphan rows are the rows of the ids no event refers to, in table
      order. */
  lemma {:induction false} OrphanRowsExact(keys: seq<Id>, n: nat, referenced: set<Id>, tbs: map<Id, Textbound>,
                                           text: string, docId: string, annotator: string)
    requires n <= |keys| && AllIn(keys, tbs)
    ensures forall y :: y in OrphanIds(keys, n, referenced) ==> y in tbs
    ensures OrphanRows(keys, n, referenced, tbs, text, docId, annotator)
         == SpanRows(OrphanIds(keys, n, referenced), tbs, text, docId, annotator, OrphanMessage)
  {
    PrefixIn(keys, n, tbs);
    if n > 0 {
      OrphanRowsExact(keys, n - 1, referenced, tbs, text, docId, annotator);
      if keys[n - 1] !in referenced {
        SpanRowsSnoc(OrphanIds(keys, n - 1, referenced), keys[n - 1], tbs, text, docId, annotator, OrphanMessage);
      }
    }
  }

  /** The orphan ids are distinct, each named once. */
  lemma {:induction false} OrphanIdsDistinct(keys: seq<Id>, n: nat, referenced: set<Id>)
    requires n <= |keys| && Distinct(keys)
    ensures Distinct(OrphanIds(keys, n, referenced))
  {
    if n > 0 {
      OrphanIdsDistinct(keys, n - 1, referenced);
      DistinctNotBefore(keys, n - 1);
      if keys[n - 1] !in referenced {
        DistinctSnoc(OrphanIds(keys, n - 1, referenced), keys[n - 1]);
      } else {
        assert OrphanIds(keys, n, referenced) == OrphanIds(keys, n - 1, referenced);
      }
    }
  }

  /** `find_tb_not_in_events`: one row per textbound no event refers to, in
      table order. */
  method FindTbNotInEvents(tbs: Table<Id, Textbound>, events: Table<Id, Event>, text: string, docId: string, annotator: string)
    returns (rows: seq<Row>)
    requires tbs.Valid()
    ensures rows == OrphanRows(tbs.keys, |tbs.keys|, Referenced(events), tbs.vals, text, docId, annotator)
  {
    var tbInEvents := Referenced(events);
    rows := [];
    var i := 0;
    while i < |tbs.keys|
      invariant 0 <= i <= |tbs.keys|
      invariant rows == OrphanRows(tbs.keys, i, tbInEvents, tbs.vals, text, docId, annotator)
    {
      var tbId := tbs.keys[i];
      if tbId !in tbInEvents {
        rows := rows + [SpanRow(tbs.vals[tbId], text, docId, annotator, OrphanMessage)];
      }
      i := i + 1;
    }
  }

  /** A textbound whose type must be labelled and that has no attribute. */
  predicate Unlabeled(x: Id, tbs: map<Id, Textbound>, attrs: map<Id, Attribute>, labeled: set<string>)
  {
    x in tbs && tbs[x].type_ in labeled && x !in attrs
  }

  /** The first `n` keys whose textbound must be labelled and has no
      attribute, in order. */
  function UnlabeledIds(keys: seq<Id>, n: nat, tbs: map<Id, Textbound>, attrs: map<Id, Attribute>, labeled: set<string>)
    : (ids: seq<Id>)
    requires n <= |keys|
    ensures forall x :: x in ids <==> x in keys[..n] && Unlabeled(x, tbs, attrs, labeled)
  {
    if n == 0 then []
    else
      assert forall x :: x in keys[..n] <==> x in keys[..n - 1] || x == keys[n - 1];
      UnlabeledIds(keys, n - 1, tbs, attrs, labeled) + (if Unlabeled(keys[n - 1], tbs, attrs, labeled) then [keys[n - 1]] else [])
  }

  /** The rows of the label rule over the first `n` textbound ids. */
  function UnlabeledRows(keys: seq<Id>, n: nat, tbs: map<Id, Textbound>, attrs: map<Id, Attribute>, labeled: set<string>,
                         text: string, docId: string, annotator: string): (rows: seq<Row>)
    requires n <= |keys|
    ensures |rows| <= n
    ensures forall i :: 0 <= i < |rows| ==>
      rows[i].message == MissingLabelMessage && rows[i].docId == docId && rows[i].annotator == annotator
  {
    if n == 0 then []
    else
      UnlabeledRows(keys, n - 1, tbs, attrs, labeled, text, docId, annotator)
      + (if Unlabeled(keys[n - 1], tbs, attrs, labeled)
         then [SpanRow(tbs[keys[n - 1]], text, docId, annotator, MissingLabelMessage)] else [])
  }

  /** The label rows are the rows of the unlabelled ids, in table order. */
  lemma {:induction false} UnlabeledRowsExact(keys: seq<Id>, n: nat, tbs: map<Id, Textbound>, attrs: map<Id, Attribute>,
                                              labeled: set<string>, text: string, docId: string, annotator: string)
    requires n <= |keys|
    ensures UnlabeledRows(keys, n, tbs, attrs, labeled, text, docId, annotator)
         == SpanRows(UnlabeledIds(keys, n, tbs, attrs, labeled), tbs, text, docId, annotator, MissingLabelMessage)
  {
    if n > 0 {
      UnlabeledRowsExact(keys, n - 1, tbs, attrs, labeled, text, docId, annotator);
      if Unlabeled(keys[n - 1], tbs, attrs, labeled) {
        SpanRowsSnoc(UnlabeledIds(keys, n - 1, tbs, attrs, labeled), keys[n - 1], tbs, text, docId, annotator,
                     MissingLabelMessage);
      }
    }
  }

  /** `find_missing_labels`: nothing without a label schema; otherwise one row
      per textbound whose type must be labelled and that has no attribute, in
      table order. */
  method FindMissingLabels(tbs: Table<Id, Textbound>, attrs: Table<Id, Attribute>, text: string,
                           labeledArguments: Option<set<string>>, docId: string, annotator: string)
    returns (rows: seq<Row>)
    requires tbs.Valid()
    ensures labeledArguments.None? ==> rows == []
    ensures labeledArguments.Some? ==>
      rows == UnlabeledRows(tbs.keys, |tbs.keys|, tbs.vals, attrs.vals, labeledArguments.value, text, docId, annotator)
  {
    if labeledArguments.None? {
      return [];
    }
    var labeled := labeledArguments.value;
    rows := [];
    var i := 0;
    while i < |tbs.keys|
      invariant 0 <= i <= |tbs.keys|
      invariant rows == UnlabeledRows(tbs.keys, i, tbs.vals, attrs.vals, labeled, text, docId, annotator)
    {
      var tbId := tbs.keys[i];
      var tb := tbs.vals[tbId];
      if tb.type_ in labeled && tbId !in attrs.vals {
        rows := rows + [SpanRow(tb, text, docId, annotator, MissingLabelMessage)];
      }
      i := i + 1;
    }
  }

  /** The rows of one event over its first `m` required roles: one per role
      the event lacks, on the trigger's line. */
  function RoleRows(e: Event, roles: seq<string>, m: nat, line: nat, docId: string, annotator: string)
    : (rows: seq<Row>)
    requires m <= |roles|
    ensures |rows| <= m
    ensures forall i :: 0 <= i < |rows| ==>
      && rows[i] == Row(annotator, docId, line, rows[i].argument, NoText, MissingArgumentMessage)
      && rows[i].argument in roles[..m] && rows[i].argument !in e.arguments.vals
  {
    if m == 0 then []
    else
      RoleRows(e, roles, m - 1, line, docId, annotator)
      + (if roles[m - 1] in e.arguments.vals then []
         else [Row(annotator, docId, line, roles[m - 1], NoText, MissingArgumentMessage)])
  }

  /** A row of one event names a required role the event lacks, with the
      trigger's line and placeholder text; every such role has its row. */
  lemma {:induction false} RoleRowsExact(e: Event, roles: seq<string>, m: nat, line: nat, docId: string, annotator: string,
                                         row: Row)
    requires m <= |roles|
    ensures row in RoleRows(e, roles, m, line, docId, annotator) <==>
      row.argument in roles[..m] && row.argument !in e.arguments.vals
      && row == Row(annotator, docId, line, row.argument, NoText, MissingArgumentMessage)
  {
    if m > 0 {
      RoleRowsExact(e, roles, m - 1, line, docId, annotator, row);
      assert roles[..m] == roles[..m - 1] + [roles[m - 1]];
    }
  }

  /** Every event whose type has required roles has a trigger naming an
      existing textbound (otherwise the rule raises). */
  predicate TriggersResolve(events: Table<Id, Event>, tbs: Table<Id, Textbound>, required: map<string, seq<string>>)
  {
    forall k :: k in events.vals && events.vals[k].type_ in required ==>
      && events.vals[k].arguments.Valid()
      && |events.vals[k].arguments.keys| > 0
      && Trigger(events.vals[k]).1 in tbs.vals
  }

  /** Line of an event's trigger. */
  function TriggerLine(e: Event, tbs: Table<Id, Textbound>, text: string): nat
    requires e.arguments.Valid() && |e.arguments.keys| > 0 && Trigger(e).1 in tbs.vals
  {
    GetLine(tbs.vals[Trigger(e).1].start, text)
  }

  /** Every key names an event. */
  predicate AllEvents(keys: seq<Id>, events: Table<Id, Event>)
  {
    forall j :: 0 <= j < |keys| ==> keys[j] in events.vals
  }

  /** The rows of the argument rule over the first `n` events, in order. */
  function MissingArgumentRows(keys: seq<Id>, n: nat, events: Table<Id, Event>, tbs: Table<Id, Textbound>, text: string,
                               required: map<string, seq<string>>, docId: string, annotator: string)
    : (rows: seq<Row>)
    requires n <= |keys| && AllEvents(keys, events)
    requires TriggersResolve(events, tbs, required)
    ensures forall i :: 0 <= i < |rows| ==>
      && rows[i].message == MissingArgumentMessage && rows[i].text == NoText
      && rows[i].docId == docId && rows[i].annotator == annotator
  {
    if n == 0 then []
    else
      var e := events.vals[keys[n - 1]];
      MissingArgumentRows(keys, n - 1, events, tbs, text, required, docId, annotator)
      + (if e.type_ in required
         then RoleRows(e, required[e.type_], |required[e.type_]|, TriggerLine(e, tbs, text), docId, annotator)
         else [])
  }

  /** `find_missing_arguments`. Without a schema the membership test raises
      as soon as there is an event. */
  method FindMissingArguments(tbs: Table<Id, Textbound>, events: Table<Id, Event>, text: string,
                              requiredArguments: Option<map<string, seq<string>>>, docId: string, annotator: string)
    returns (r: Result<seq<Row>>)
    requires events.Valid()
    requires requiredArguments.Some? ==> TriggersResolve(events, tbs, requiredArguments.value)
    ensures requiredArguments.None? ==> (r.Err? <==> |events.keys| > 0) && (r.Ok? ==> r.value == [])
    ensures requiredArguments.Some? ==>
      r == Ok(MissingArgumentRows(events.keys, |events.keys|, events, tbs, text, requiredArguments.value, docId, annotator))
  {
    if requiredArguments.None? {
      if |events.keys| > 0 {
        return Err("argument of type 'NoneType' is not iterable");
      }
      return Ok([]);
    }
    var required := requiredArguments.value;
    var output: seq<Row> := [];
    var i := 0;
    while i < |events.keys|
      invariant 0 <= i <= |events.keys|
      invariant output == MissingArgumentRows(events.keys, i, events, tbs, text, required, docId, annotator)
    {
      var event := events.vals[events.keys[i]];
      if event.type_ in required {
        var (_, tbId) := Trigger(event);
        var lineNumber := GetLine(tbs.vals[tbId].start, text);
        var eventRows := MissingRoleRows(event, required[event.type_], lineNumber, docId, annotator);
        output := output + eventRows;
      }
      i := i + 1;
    }
    return Ok(output);
  }

  /** The inner loop over one event's required roles: a row for each role
      the event lacks. */
  method MissingRoleRows(event: Event, roles: seq<string>, lineNumber: nat, docId: string, annotator: string)
    returns (rows: seq<Row>)
    ensures rows == RoleRows(event, roles, |roles|, lineNumber, docId, annotator)
  {
    rows := [];
    var j := 0;
    while j < |roles|
      invariant 0 <= j <= |roles|
      invariant rows == RoleRows(event, roles, j, lineNumber, docId, annotator)
    {
      if roles[j] !in event.arguments.vals {
        rows := rows + [Row(annotator, docId, lineNumber, roles[j], NoText, MissingArgumentMessage)];
      }
      j := j + 1;
    }
  }

  /** Event `k` lacks the required role `row.argument`, and `row` is the
      report of it. */
  predicate MissingRow(events: Table<Id, Event>, k: Id, tbs: Table<Id, Textbound>, text: string,
                       required: map<string, seq<string>>, docId: string, annotator: string, row: Row)
    requires k in events.vals && TriggersResolve(events, tbs, required)
  {
    var e := events.vals[k];
    && e.type_ in required
    && row.argument in required[e.type_]
    && row.argument !in e.arguments.vals
    && row == Row(annotator, docId, TriggerLine(e, tbs, text), row.argument, NoText, MissingArgumentMessage)
  }

  /** The argument rule reports exactly the pairs (event, required role the
      event lacks), each on its trigger's line with placeholder text. */
  lemma {:induction false} MissingArgumentRowsExact(keys: seq<Id>, n: nat, events: Table<Id, Event>,
                                                    tbs: Table<Id, Textbound>, text: string,
                                                    required: map<string, seq<string>>,
                                                    docId: string, annotator: string, row: Row)
    requires n <= |keys| && AllEvents(keys, events)
    requires TriggersResolve(events, tbs, required)
    ensures row in MissingArgumentRows(keys, n, events, tbs, text, required, docId, annotator) <==>
      exists j :: 0 <= j < n && MissingRow(events, keys[j], tbs, text, required, docId, annotator, row)
  {
    if n > 0 {
      MissingArgumentRowsExact(keys, n - 1, events, tbs, text, required, docId, annotator, row);
      var k := keys[n - 1];
      var e := events.vals[k];
      var tail := if e.type_ in required
        then RoleRows(e, required[e.type_], |required[e.type_]|, TriggerLine(e, tbs, text), docId, annotator)
        else [];
      assert MissingArgumentRows(keys, n, events, tbs, text, required, docId, annotator)
          == MissingArgumentRows(keys, n - 1, events, tbs, text, required, docId, annotator) + tail;
      assert row in tail <==> MissingRow(events, k, tbs, text, required, docId, annotator, row) by {
        if e.type_ in required {
          var roles := required[e.type_];
          RoleRowsExact(e, roles, |roles|, TriggerLine(e, tbs, text), docId, annotator, row);
          assert roles[..|roles|] == roles;
        }
      }
      if exists j :: 0 <= j < n && MissingRow(events, keys[j], tbs, text, required, docId, annotator, row) {
        var j :| 0 <= j < n && MissingRow(events, keys[j], tbs, text, required, docId, annotator, row);
        if j == n - 1 {
          assert row in tail;
        }
      }
    }
  }

  /** The required roles among the first `m` that the event lacks, in
      schema order, each as often as the schema lists it. */
  function MissingRoles(e: Event, roles: seq<string>, m: nat): (missing: seq<string>)
    requires m <= |roles|
    ensures |missing| <= m
    ensures forall x :: x in missing <==> x in roles[..m] && x !in e.arguments.vals
  {
    if m == 0 then []
    else
      assert forall x :: x in roles[..m] <==> x in roles[..m - 1] || x == roles[m - 1];
      MissingRoles(e, roles, m - 1) + (if roles[m - 1] in e.arguments.vals then [] else [roles[m - 1]])
  }

  /** One missing-argument row per role of `missing`, in that order. */
  function MissingRoleRowsOf(missing: seq<string>, line: nat, docId: string, annotator: string): (rows: seq<Row>)
    ensures |rows| == |missing|
    ensures forall k :: 0 <= k < |rows| ==>
      rows[k] == Row(annotator, docId, line, missing[k], NoText, MissingArgumentMessage)
  {
    seq(|missing|, k requires 0 <= k < |missing| => Row(annotator, docId, line, missing[k], NoText, MissingArgumentMessage))
  }

  /** The rows of two runs of roles are the rows of each, in order. */
  lemma MissingRoleRowsAppend(a: seq<string>, b: seq<string>, line: nat, docId: string, annotator: string)
    ensures MissingRoleRowsOf(a + b, line, docId, annotator)
         == MissingRoleRowsOf(a, line, docId, annotator) + MissingRoleRowsOf(b, line, docId, annotator)
  {
  }

  /** The rows of one event are exactly one row per missing required role,
      in schema order: none is dropped or merged, even when two are equal. */
  lemma {:induction false} RoleRowsInOrder(e: Event, roles: seq<string>, m: nat, line: nat, docId: string,
                                           annotator: string)
    requires m <= |roles|
    ensures RoleRows(e, roles, m, line, docId, annotator)
         == MissingRoleRowsOf(MissingRoles(e, roles, m), line, docId, annotator)
  {
    if m > 0 {
      RoleRowsInOrder(e, roles, m - 1, line, docId, annotator);
      var role := roles[m - 1];
      if role in e.arguments.vals {
        // Both unfold with an empty tail, written as the bodies write it.
        assert MissingRoles(e, roles, m) == MissingRoles(e, roles, m - 1) + [];
        assert RoleRows(e, roles, m, line, docId, annotator) == RoleRows(e, roles, m - 1, line, docId, annotator) + [];
      } else {
        MissingRoleRowsAppend(MissingRoles(e, roles, m - 1), [role], line, docId, annotator);
      }
    }
  }

  /** The block of rows the argument rule reports for one event. */
  function EventBlock(e: Event, tbs: Table<Id, Textbound>, text: string, required: map<string, seq<string>>,
                      docId: string, annotator: string): (rows: seq<Row>)
    requires e.type_ in required ==> e.arguments.Valid() && |e.arguments.keys| > 0 && Trigger(e).1 in tbs.vals
    ensures e.type_ !in required ==> rows == []
    ensures e.type_ in required ==> |rows| <= |required[e.type_]|
  {
    if e.type_ in required
    then
      var roles := required[e.type_];
      MissingRoleRowsOf(MissingRoles(e, roles, |roles|), TriggerLine(e, tbs, text), docId, annotator)
    else []
  }

  /** The blocks of the first `n` events, in table order. */
  function EventBlocks(keys: seq<Id>, n: nat, events: Table<Id, Event>, tbs: Table<Id, Textbound>, text: string,
                       required: map<string, seq<string>>, docId: string, annotator: string): (blocks: seq<seq<Row>>)
    requires n <= |keys| && AllEvents(keys, events)
    requires TriggersResolve(events, tbs, required)
    ensures |blocks| == n
  {
    seq(n, j requires 0 <= j < n => EventBlock(events.vals[keys[j]], tbs, text, required, docId, annotator))
  }

  /** The argument rule's rows are the events' blocks concatenated in event
      table order, each block one row per missing required role. */
  lemma {:induction false} MissingArgumentRowsInOrder(keys: seq<Id>, n: nat, events: Table<Id, Event>,
                                                      tbs: Table<Id, Textbound>, text: string,
                                                      required: map<string, seq<string>>,
                                                      docId: string, annotator: string)
    requires n <= |keys| && AllEvents(keys, events)
    requires TriggersResolve(events, tbs, required)
    ensures MissingArgumentRows(keys, n, events, tbs, text, required, docId, annotator)
         == Tokens.Flatten(EventBlocks(keys, n, events, tbs, text, required, docId, annotator))
  {
    if n > 0 {
      MissingArgumentRowsInOrder(keys, n - 1, events, tbs, text, required, docId, annotator);
      var blocks := EventBlocks(keys, n, events, tbs, text, required, docId, annotator);
      assert blocks[..n - 1] == EventBlocks(keys, n - 1, events, tbs, text, required, docId, annotator);
      var e := events.vals[keys[n - 1]];
      if e.type_ in required {
        var roles := required[e.type_];
        RoleRowsInOrder(e, roles, |roles|, TriggerLine(e, tbs, text), docId, annotator);
      }
    }
  }

  /** The annotator of a report: a component of the document id, or
      "unknown" when no position is given. */
  function Annotator(docId: string, separator: char, position: Option<int>): (who: string)
    requires position.Some? ==> -|Split(docId, separator)| <= position.value < |Split(docId, separator)|
    ensures position.None? ==> who == "unknown"
    ensures position.Some? ==>
      && who == Split(docId, separator)[position.value % |Split(docId, separator)|]
      && separator !in who
  {
    match position
    case None => "unknown"
    case Some(p) => PyIndex(Split(docId, separator), p)
  }
}

=== FILE: records.dfy ===
/** The standoff-annotation records a document holds, and the id arithmetic
    used when new records are minted. The record classes and their codec live
    in corpus/brat.py, which is not part of this model: only the fields the
    document code reads and writes are kept. */
module Records {
  import opened Tables

  /** A record id such as `T12`: a one-letter kind and a numeric suffix. */
  datatype Id = Id(prefix: char, index: nat)

  /** A labelled character span `[start, end)` of the document text. */
  datatype Textbound = Textbound(id: Id, type_: string, start: nat, end: nat, text: string, tokens: seq<string>)

  /** A label attached to a textbound. */
  datatype Attribute = Attribute(id: Id, type_: string, textbound: Id, value: string)

  /** A typed link between two textbounds. */
  datatype Relation = Relation(id: Id, role: string, arg1: Id, arg2: Id)

  /** An event: a type and an ordered role -> textbound id mapping whose
      first entry is the trigger. */
  datatype Event = Event(id: Id, type_: string, arguments: Table<string, Id>)

  /** The four tables of a document. `attrs` is keyed by the id of the
      textbound an attribute labels, not by the attribute's own id. */
  datatype Annotations = Annotations(
    events: Table<Id, Event>,
    relations: Table<Id, Relation>,
    tbs: Table<Id, Textbound>,
    attrs: Table<Id, Attribute>)
  {
    predicate Valid()
    {
      EventsValid(events) && relations.Valid() && tbs.Valid() && attrs.Valid()
    }
  }

  /** Every event's argument table is well formed. */
  predicate EventsValid(events: Table<Id, Event>)
  {
    && events.Valid()
    && (forall k :: k in events.vals ==> events.vals[k].arguments.Valid())
  }

  /** Every textbound id some event argument names is a key of `tbs`. */
  predicate ArgumentsResolve(events: Table<Id, Event>, tbs: Table<Id, Textbound>)
  {
    forall k, r :: k in events.vals && r in events.vals[k].arguments.vals ==>
      events.vals[k].arguments.vals[r] in tbs.vals
  }

  /** The trigger of an event: its first argument (role, textbound id).
      `get_trigger` of corpus/brat.py is not part of this model; this is the
      contract it is assumed to have. */
  function Trigger(e: Event): (t: (string, Id))
    requires e.arguments.Valid() && |e.arguments.keys| > 0
    ensures t.0 in e.arguments.vals && e.arguments.vals[t.0] == t.1
  {
    (e.arguments.keys[0], e.arguments.vals[e.arguments.keys[0]])
  }

  /** The largest numeric suffix among `ids` (0 when there is none): the
      assumed contract of `get_max_id` of corpus/brat.py, which is not part
      of this model, over the ids of the records a table holds. */
  function MaxSuffix(ids: seq<Id>): (m: nat)
    ensures forall i :: i in ids ==> i.index <= m
    ensures ids != [] ==> exists i :: i in ids && i.index == m
  {
    if ids == [] then 0
    else
      var rest := MaxSuffix(ids[1..]);
      assert forall i :: i in ids[1..] ==> i in ids;
      assert forall i :: i in ids ==> i == ids[0] || i in ids[1..];
      if ids[0].index >= rest then ids[0].index else rest
  }

  /** `get_next_index`: one past the largest suffix, so an id minted from it
      or from any larger number is fresh. */
  function NextIndex(ids: seq<Id>): (n: nat)
    ensures forall i :: i in ids ==> i.index < n
  {
    MaxSuffix(ids) + 1
  }

  /** The ids the records of a table carry (`idOf` reads a record's own
      `id` field), in table order: what `get_max_id` and `get_next_index`
      scan. */
  function RecordIds<R>(t: Table<Id, R>, idOf: R -> Id): (ids: seq<Id>)
    requires t.Valid()
    ensures |ids| == |t.keys|
    ensures forall k :: k in t.vals ==> idOf(t.vals[k]) in ids
  {
    var ids := seq(|t.keys|, i requires 0 <= i < |t.keys| => idOf(t.vals[t.keys[i]]));
    assert forall k :: k in t.vals ==> idOf(t.vals[k]) in ids by {
      forall k | k in t.vals ensures idOf(t.vals[k]) in ids {
        var i :| 0 <= i < |t.keys| && t.keys[i] == k;
        assert ids[i] == idOf(t.vals[k]);
      }
    }
    ids
  }

  /** The id a textbound record carries. */
  function TbId(tb: Textbound): Id { tb.id }

  /** The id an attribute record carries. */
  function AttrId(attr: Attribute): Id { attr.id }

  /** Every textbound is stored under its own id. */
  predicate KeyedById(t: Table<Id, Textbound>)
  {
    forall k :: k in t.vals ==> t.vals[k].id == k
  }

  /** The argument mapping of every event. */
  function ArgsOf(m: map<Id, Event>): (r: map<Id, Table<string, Id>>)
    ensures r.Keys == m.Keys && forall k :: k in m ==> r[k] == m[k].arguments
  {
    map k | k in m :: m[k].arguments
  }

  /** The events with their argument mappings replaced by `args`. */
  function EventsWithArgs(m: map<Id, Event>, args: map<Id, Table<string, Id>>): (r: map<Id, Event>)
    requires m.Keys <= args.Keys
    ensures r.Keys == m.Keys
    ensures forall k :: k in m ==> r[k].type_ == m[k].type_ && r[k].id == m[k].id && r[k].arguments == args[k]
  {
    map k | k in m :: m[k].(arguments := args[k])
  }
}

=== FILE: role_mapping.dfy ===
/** Specification of `map_roles`: renaming event roles by their base name
    (the role with its numeric suffix stripped), keeping role names unique
    within an event. */
module RoleMapping {
  import opened Tables
  import opened Records

  predicate IsDigit(c: char)
  {
    '0' <= c <= '9'
  }

  /** `role.rstrip(string.digits)`: the role without its trailing digits. */
  function RStripDigits(s: string): (r: string)
    ensures |r| <= |s| && r == s[..|r|]
    ensures r == [] || !IsDigit(r[|r| - 1])
    ensures forall i :: |r| <= i < |s| ==> IsDigit(s[i])
  {
    if s != [] && IsDigit(s[|s| - 1]) then RStripDigits(s[..|s| - 1]) else s
  }

  /** A counter key `(role_lookup, role)`: the base name looked up and the
      role it was renamed to. */
  datatype RoleTally<R> = RoleTally(base: R, role: R)

  /* The renaming below is stated for any type `R` of role names: apart from
     comparing names it only takes their base name, `strip`, which for the
     document's string roles is `RStripDigits`. */

  /** The assumed contract of `get_unique_arg`, which lives in corpus/brat.py
      and is not part of this model: the role it returns is not yet a role
      of the arguments built so far. */
  ghost predicate UniqueArg<R(!new)>(uniq: (R, Table<R, Id>) -> R)
  {
    forall r, t :: uniq(r, t) !in t.vals
  }

  /** The role an argument gets, given the arguments built before it. */
  function NewRole<R(==,!new)>(role: R, roleMap: map<R, R>, strip: R -> R, uniq: (R, Table<R, Id>) -> R,
                               built: Table<R, Id>): R
  {
    var base := strip(role);
    if base in roleMap then uniq(roleMap[base], built) else role
  }

  /** The new argument mapping of one event after its first `n` arguments. */
  function MapRolesArgs<R(==,!new)>(args: Table<R, Id>, roleMap: map<R, R>, strip: R -> R,
                                    uniq: (R, Table<R, Id>) -> R, n: nat): (r: Table<R, Id>)
    requires args.Valid() && n <= |args.keys|
    ensures r.Valid()
    ensures |r.keys| <= n
  {
    if n == 0 then Empty()
    else
      var built := MapRolesArgs(args, roleMap, strip, uniq, n - 1);
      var role := args.keys[n - 1];
      built.Put(NewRole(role, roleMap, strip, uniq, built), args.vals[role])
  }

  /** The counter entries the first `n` arguments of one event produce: one
      per argument whose base name is mapped. */
  function RoleTallies<R(==,!new)>(args: Table<R, Id>, roleMap: map<R, R>, strip: R -> R,
                                   uniq: (R, Table<R, Id>) -> R, n: nat): (c: multiset<RoleTally<R>>)
    requires args.Valid() && n <= |args.keys|
    ensures forall t :: t in c ==> t.base in roleMap
  {
    if n == 0 then multiset{}
    else
      var c := RoleTallies(args, roleMap, strip, uniq, n - 1);
      var role := args.keys[n - 1];
      var base := strip(role);
      if base in roleMap
      then c + multiset{RoleTally(base, NewRole(role, roleMap, strip, uniq, MapRolesArgs(args, roleMap, strip, uniq, n - 1)))}
      else c
  }

  /** No role that keeps its name is one `get_unique_arg` can produce: a
      role it produces that is one of the event's roles has a mapped base. */
  ghost predicate NoClash<R(!new)>(args: Table<R, Id>, roleMap: map<R, R>, strip: R -> R, uniq: (R, Table<R, Id>) -> R)
  {
    forall r, t :: uniq(r, t) in args.vals ==> strip(uniq(r, t)) in roleMap
  }

  /** The roles still to come that keep their name are not yet taken. */
  lemma {:induction false} FutureRolesFree<R(!new)>(args: Table<R, Id>, roleMap: map<R, R>, strip: R -> R,
                                                    uniq: (R, Table<R, Id>) -> R, n: nat)
    requires args.Valid() && n <= |args.keys|
    requires NoClash(args, roleMap, strip, uniq)
    ensures forall j :: n <= j < |args.keys| && strip(args.keys[j]) !in roleMap ==>
      args.keys[j] !in MapRolesArgs(args, roleMap, strip, uniq, n).vals
  {
    if n > 0 {
      FutureRolesFree(args, roleMap, strip, uniq, n - 1);
      var built := MapRolesArgs(args, roleMap, strip, uniq, n - 1);
      var role := args.keys[n - 1];
      var role' := NewRole(role, roleMap, strip, uniq, built);
      forall j | n <= j < |args.keys| && strip(args.keys[j]) !in roleMap ensures args.keys[j] != role' {
        if strip(role) !in roleMap {
          DistinctNe(args.keys, j, n - 1);
        }
      }
    }
  }

  /** The new role of argument `n` is not yet taken. */
  lemma NewRoleFresh<R(!new)>(args: Table<R, Id>, roleMap: map<R, R>, strip: R -> R,
                              uniq: (R, Table<R, Id>) -> R, n: nat)
    requires args.Valid() && n < |args.keys|
    requires UniqueArg(uniq) && NoClash(args, roleMap, strip, uniq)
    ensures NewRole(args.keys[n], roleMap, strip, uniq, MapRolesArgs(args, roleMap, strip, uniq, n))
        !in MapRolesArgs(args, roleMap, strip, uniq, n).vals
  {
    FutureRolesFree(args, roleMap, strip, uniq, n);
    var built := MapRolesArgs(args, roleMap, strip, uniq, n);
    var role := args.keys[n];
    if strip(role) in roleMap {
      assert uniq(roleMap[strip(role)], built) !in built.vals;
    }
  }

  /** Each argument adds one role: its new role is not yet taken. */
  lemma MapRolesArgsGrows<R(!new)>(args: Table<R, Id>, roleMap: map<R, R>, strip: R -> R,
                                   uniq: (R, Table<R, Id>) -> R, n: nat)
    requires args.Valid() && 0 < n <= |args.keys|
    requires UniqueArg(uniq) && NoClash(args, roleMap, strip, uniq)
    ensures |MapRolesArgs(args, roleMap, strip, uniq, n).keys| == |MapRolesArgs(args, roleMap, strip, uniq, n - 1).keys| + 1
  {
    NewRoleFresh(args, roleMap, strip, uniq, n - 1);
  }

  /** Each argument adds one role: none overwrites an earlier one. */
  lemma {:induction false} MapRolesArgsLength<R(!new)>(args: Table<R, Id>, roleMap: map<R, R>, strip: R -> R,
                                                       uniq: (R, Table<R, Id>) -> R, n: nat)
    requires args.Valid() && n <= |args.keys|
    requires UniqueArg(uniq) && NoClash(args, roleMap, strip, uniq)
    ensures |MapRolesArgs(args, roleMap, strip, uniq, n).keys| == n
  {
    if n > 0 {
      MapRolesArgsLength(args, roleMap, strip, uniq, n - 1);
      MapRolesArgsGrows(args, roleMap, strip, uniq, n);
    }
  }

  /** When no argument overwrote another, every role added stays in its
      position. */
  lemma {:induction false} MapRolesArgsStable<R(!new)>(args: Table<R, Id>, roleMap: map<R, R>, strip: R -> R,
                                                       uniq: (R, Table<R, Id>) -> R, n: nat, i: nat)
    requires args.Valid() && i < n <= |args.keys|
    requires |MapRolesArgs(args, roleMap, strip, uniq, n).keys| == n
    ensures |MapRolesArgs(args, roleMap, strip, uniq, i + 1).keys| == i + 1
    ensures MapRolesArgs(args, roleMap, strip, uniq, n).keys[i] == MapRolesArgs(args, roleMap, strip, uniq, i + 1).keys[i]
  {
    if i < n - 1 {
      var prev := MapRolesArgs(args, roleMap, strip, uniq, n - 1);
      var role := args.keys[n - 1];
      var next := MapRolesArgs(args, roleMap, strip, uniq, n);
      assert next == prev.Put(NewRole(role, roleMap, strip, uniq, prev), args.vals[role]);
      assert |prev.keys| == n - 1;
      MapRolesArgsStable(args, roleMap, strip, uniq, n - 1, i);
      assert next.keys[i] == prev.keys[i];
    }
  }

  /** The role of argument `i` is its new role, given what was built before it. */
  lemma MapRolesArgsRole<R(!new)>(args: Table<R, Id>, roleMap: map<R, R>, strip: R -> R,
                                  uniq: (R, Table<R, Id>) -> R, n: nat, i: nat)
    requires args.Valid() && i < n <= |args.keys|
    requires UniqueArg(uniq) && NoClash(args, roleMap, strip, uniq)
    ensures |MapRolesArgs(args, roleMap, strip, uniq, n).keys| == n
    ensures MapRolesArgs(args, roleMap, strip, uniq, n).keys[i]
      == NewRole(args.keys[i], roleMap, strip, uniq, MapRolesArgs(args, roleMap, strip, uniq, i))
  {
    MapRolesArgsLength(args, roleMap, strip, uniq, n);
    MapRolesArgsStable(args, roleMap, strip, uniq, n, i);
    MapRolesArgsLength(args, roleMap, strip, uniq, i);
    var prev := MapRolesArgs(args, roleMap, strip, uniq, i);
    var role := args.keys[i];
    var next := MapRolesArgs(args, roleMap, strip, uniq, i + 1);
    assert next == prev.Put(NewRole(role, roleMap, strip, uniq, prev), args.vals[role]);
    assert next.keys[i] == NewRole(role, roleMap, strip, uniq, prev);
  }

  /** When no argument overwrote another, argument `i` keeps its textbound id
      under its new role. */
  lemma {:induction false} MapRolesArgsValue<R(!new)>(args: Table<R, Id>, roleMap: map<R, R>, strip: R -> R,
                                                      uniq: (R, Table<R, Id>) -> R, n: nat, i: nat)
    requires args.Valid() && i < n <= |args.keys|
    requires |MapRolesArgs(args, roleMap, strip, uniq, n).keys| == n
    ensures MapRolesArgs(args, roleMap, strip, uniq, n).keys[i] in MapRolesArgs(args, roleMap, strip, uniq, n).vals
    ensures MapRolesArgs(args, roleMap, strip, uniq, n).vals[MapRolesArgs(args, roleMap, strip, uniq, n).keys[i]]
      == args.vals[args.keys[i]]
  {
    var prev := MapRolesArgs(args, roleMap, strip, uniq, n - 1);
    var role := args.keys[n - 1];
    var x := NewRole(role, roleMap, strip, uniq, prev);
    assert MapRolesArgs(args, roleMap, strip, uniq, n) == prev.Put(x, args.vals[role]);
    PutAt(prev, x, args.vals[role], i);
    if i < n - 1 {
      MapRolesArgsValue(args, roleMap, strip, uniq, n - 1, i);
    }
  }

  /** Without a clash, renaming keeps every argument in its position with
      its textbound id; a role whose base is not mapped keeps its name. */
  lemma MapRolesArgsInPlace<R(!new)>(args: Table<R, Id>, roleMap: map<R, R>, strip: R -> R,
                                     uniq: (R, Table<R, Id>) -> R)
    requires args.Valid()
    requires UniqueArg(uniq) && NoClash(args, roleMap, strip, uniq)
    ensures |MapRolesArgs(args, roleMap, strip, uniq, |args.keys|).keys| == |args.keys|
    ensures forall i :: 0 <= i < |args.keys| && strip(args.keys[i]) !in roleMap ==>
      MapRolesArgs(args, roleMap, strip, uniq, |args.keys|).keys[i] == args.keys[i]
    ensures forall i :: 0 <= i < |args.keys| ==>
      MapRolesArgs(args, roleMap, strip, uniq, |args.keys|).vals[MapRolesArgs(args, roleMap, strip, uniq, |args.keys|).keys[i]]
      == args.vals[args.keys[i]]
  {
    var n := |args.keys|;
    MapRolesArgsLength(args, roleMap, strip, uniq, n);
    forall i | 0 <= i < n
      ensures strip(args.keys[i]) !in roleMap ==> MapRolesArgs(args, roleMap, strip, uniq, n).keys[i] == args.keys[i]
      ensures MapRolesArgs(args, roleMap, strip, uniq, n).vals[MapRolesArgs(args, roleMap, strip, uniq, n).keys[i]]
        == args.vals[args.keys[i]]
    {
      MapRolesArgsRole(args, roleMap, strip, uniq, n, i);
      MapRolesArgsValue(args, roleMap, strip, uniq, n, i);
    }
  }

  /** Argument `n - 1` is put under its new role, and counted when its
      base name is mapped. */
  lemma MapRolesArgsStep<R(!new)>(args: Table<R, Id>, roleMap: map<R, R>, strip: R -> R,
                                  uniq: (R, Table<R, Id>) -> R, n: nat)
    requires args.Valid() && 0 < n <= |args.keys|
    ensures var built := MapRolesArgs(args, roleMap, strip, uniq, n - 1);
      var role := args.keys[n - 1];
      var role' := NewRole(role, roleMap, strip, uniq, built);
      && MapRolesArgs(args, roleMap, strip, uniq, n) == built.Put(role', args.vals[role])
      && RoleTallies(args, roleMap, strip, uniq, n) == RoleTallies(args, roleMap, strip, uniq, n - 1) +
           if strip(role) in roleMap then multiset{RoleTally(strip(role), role')} else multiset{}
  {
  }

  /** The loop over one event's arguments, in order, building the new
      argument mapping and counting the renamed roles. */
  method MapRolesArgsLoop<R(==,!new)>(args: Table<R, Id>, roleMap: map<R, R>, strip: R -> R,
                                      uniq: (R, Table<R, Id>) -> R)
    returns (built: Table<R, Id>, counter: multiset<RoleTally<R>>)
    requires args.Valid()
    ensures built == MapRolesArgs(args, roleMap, strip, uniq, |args.keys|)
    ensures counter == RoleTallies(args, roleMap, strip, uniq, |args.keys|)
  {
    built, counter := Empty(), multiset{};
    var n := 0;
    while n < |args.keys|
      invariant n <= |args.keys|
      invariant built == MapRolesArgs(args, roleMap, strip, uniq, n)
      invariant counter == RoleTallies(args, roleMap, strip, uniq, n)
    {
      var role := args.keys[n];
      var base := strip(role);
      var role' := role;
      if base in roleMap {
        role' := uniq(roleMap[base], built);
        counter := counter + multiset{RoleTally(base, role')};
      }
      built := built.Put(role', args.vals[role]);
      n := n + 1;
      MapRolesArgsStep(args, roleMap, strip, uniq, n);
    }
  }

  /** The argument mapping `map_roles` gives one event. */
  function MapRolesOf<R(==,!new)>(args: Table<R, Id>, roleMap: map<R, R>, strip: R -> R,
                                  uniq: (R, Table<R, Id>) -> R): (r: Table<R, Id>)
    requires args.Valid()
    ensures r.Valid()
  {
    MapRolesArgs(args, roleMap, strip, uniq, |args.keys|)
  }

  /** The counter entries of one event. */
  function RoleTalliesOf<R(==,!new)>(args: Table<R, Id>, roleMap: map<R, R>, strip: R -> R,
                                     uniq: (R, Table<R, Id>) -> R): multiset<RoleTally<R>>
    requires args.Valid()
  {
    RoleTallies(args, roleMap, strip, uniq, |args.keys|)
  }

  /** The new argument mapping of one event, as a function of the old. */
  function MapRolesVisit<R(==,!new)>(roleMap: map<R, R>, strip: R -> R, uniq: (R, Table<R, Id>) -> R)
    : Table<R, Id> -> Table<R, Id>
  {
    (t: Table<R, Id>) => if t.Valid() then MapRolesOf(t, roleMap, strip, uniq) else t
  }

  /** The counter entries of one event. */
  function MapRolesTally<R(==,!new)>(roleMap: map<R, R>, strip: R -> R, uniq: (R, Table<R, Id>) -> R)
    : Table<R, Id> -> multiset<RoleTally<R>>
  {
    (t: Table<R, Id>) => if t.Valid() then RoleTalliesOf(t, roleMap, strip, uniq) else multiset{}
  }

  /** Every event's arguments renamed. */
  function MapRolesEach<R(==,!new)>(m: map<Id, Table<R, Id>>, roleMap: map<R, R>, strip: R -> R,
                                    uniq: (R, Table<R, Id>) -> R): (r: map<Id, Table<R, Id>>)
    requires forall k :: k in m ==> m[k].Valid()
    ensures r.Keys == m.Keys
    ensures forall k :: k in r ==> r[k].Valid()
  {
    map k | k in m :: MapRolesOf(m[k], roleMap, strip, uniq)
  }

  /** The counter of the events `keys` names, in that order. */
  function RoleCounts<R(==,!new)>(m: map<Id, Table<R, Id>>, keys: seq<Id>, roleMap: map<R, R>, strip: R -> R,
                                  uniq: (R, Table<R, Id>) -> R): multiset<RoleTally<R>>
    requires forall x :: 0 <= x < |keys| ==> keys[x] in m
  {
    TallyOver(keys, |keys|, m, MapRolesTally(roleMap, strip, uniq))
  }

  /** Every key the counter holds is a mapped base name. */
  lemma {:induction false} RoleCountsMapped<R(!new)>(m: map<Id, Table<R, Id>>, keys: seq<Id>, j: nat,
                                                     roleMap: map<R, R>, strip: R -> R, uniq: (R, Table<R, Id>) -> R)
    requires j <= |keys|
    requires forall x :: 0 <= x < |keys| ==> keys[x] in m
    ensures forall t :: t in TallyOver(keys, j, m, MapRolesTally(roleMap, strip, uniq)) ==> t.base in roleMap
  {
    if j > 0 {
      RoleCountsMapped(m, keys, j - 1, roleMap, strip, uniq);
    }
  }

  /** Visiting every event with `MapRolesVisit` is `MapRolesEach`. */
  lemma MapRolesVisitEach<R(!new)>(m: map<Id, Table<R, Id>>, roleMap: map<R, R>, strip: R -> R,
                                   uniq: (R, Table<R, Id>) -> R)
    requires forall k :: k in m ==> m[k].Valid()
    ensures (map k | k in m :: MapRolesVisit(roleMap, strip, uniq)(m[k])) == MapRolesEach(m, roleMap, strip, uniq)
  {
  }

  /** The loop over the events in table order: each event's arguments are
      rebuilt, and the counter gathers every event's entries. */
  method MapRolesLoop<R(==,!new)>(m: map<Id, Table<R, Id>>, keys: seq<Id>, roleMap: map<R, R>, strip: R -> R,
                                  uniq: (R, Table<R, Id>) -> R)
    returns (m': map<Id, Table<R, Id>>, counter: multiset<RoleTally<R>>)
    requires Distinct(keys)
    requires forall k :: k in m ==> k in keys
    requires forall x :: 0 <= x < |keys| ==> keys[x] in m
    requires forall k :: k in m ==> m[k].Valid()
    ensures m' == MapRolesEach(m, roleMap, strip, uniq)
    ensures counter == RoleCounts(m, keys, roleMap, strip, uniq)
  {
    m', counter := VisitEach(m, keys, MapRolesVisit(roleMap, strip, uniq), MapRolesTally(roleMap, strip, uniq));
    MapRolesVisitEach(m, roleMap, strip, uniq);
  }

  /** The events after `map_roles`: each keeps its id and type, in its
      order, with its arguments renamed. */
  function RenamedEvents(a: Annotations, roleMap: map<string, string>, uniq: (string, Table<string, Id>) -> string)
    : (t: Table<Id, Event>)
    requires a.Valid()
    ensures EventsValid(t) && t.keys == a.events.keys
    ensures forall k :: k in a.events.vals ==>
      k in t.vals && t.vals[k].id == a.events.vals[k].id && t.vals[k].type_ == a.events.vals[k].type_
  {
    Table(a.events.keys, EventsWithArgs(a.events.vals, MapRolesEach(ArgsOf(a.events.vals), roleMap, RStripDigits, uniq)))
  }

  /** The counter of `map_roles`: every key it holds is a mapped base name. */
  function RoleCounter(a: Annotations, roleMap: map<string, string>, uniq: (string, Table<string, Id>) -> string)
    : (c: multiset<RoleTally<string>>)
    requires a.Valid()
    ensures forall t :: t in c ==> t.base in roleMap
  {
    var args := ArgsOf(a.events.vals);
    RoleCountsMapped(args, a.events.keys, |a.events.keys|, roleMap, RStripDigits, uniq);
    RoleCounts(args, a.events.keys, roleMap, RStripDigits, uniq)
  }

  /** The whole of `map_roles`: only the events' argument mappings change. */
  function MapRoles(a: Annotations, roleMap: map<string, string>, uniq: (string, Table<string, Id>) -> string)
    : (r: (Annotations, multiset<RoleTally<string>>))
    requires a.Valid()
    ensures r.0.Valid()
    ensures r.0.relations == a.relations && r.0.tbs == a.tbs && r.0.attrs == a.attrs
    ensures r.0.events.keys == a.events.keys
  {
    (a.(events := RenamedEvents(a, roleMap, uniq)), RoleCounter(a, roleMap, uniq))
  }
}

=== FILE: selection.dfy ===
/** Which records serialisation keeps (`ids_to_keep`) and the order in which
    `brat_str` emits them. The per-record serialisers of corpus/brat.py are
    not part of this model: a line is represented by the record it renders. */
module Selection {
  import opened Wrappers
  import opened Tables
  import opened Records

  /** Does an optional type filter let `t` through? (`None` lets everything through.) */
  predicate Passes(filter: Option<set<string>>, t: string)
  {
    filter.None? || t in filter.value
  }

  /** Argument `r` of event `k` names an existing textbound, and both the
      event's type and that textbound's type pass their filters. */
  predicate Selected(events: Table<Id, Event>, tbs: Table<Id, Textbound>,
                     eventTypes: Option<set<string>>, argumentTypes: Option<set<string>>, k: Id, r: string)
  {
    && k in events.vals
    && r in events.vals[k].arguments.vals
    && events.vals[k].arguments.vals[r] in tbs.vals
    && Passes(eventTypes, events.vals[k].type_)
    && Passes(argumentTypes, tbs.vals[events.vals[k].arguments.vals[r]].type_)
  }

  /** The event ids `ids_to_keep` returns. */
  function KeptEvents(events: Table<Id, Event>, tbs: Table<Id, Textbound>,
                      eventTypes: Option<set<string>>, argumentTypes: Option<set<string>>): (kept: set<Id>)
    ensures forall k :: k in kept <==> exists r :: Selected(events, tbs, eventTypes, argumentTypes, k, r)
  {
    set k, r | k in events.vals && r in events.vals[k].arguments.vals
                 && Selected(events, tbs, eventTypes, argumentTypes, k, r) :: k
  }

  /** The textbound ids `ids_to_keep` returns. */
  function KeptTbs(events: Table<Id, Event>, tbs: Table<Id, Textbound>,
                   eventTypes: Option<set<string>>, argumentTypes: Option<set<string>>): (kept: set<Id>)
    ensures forall x :: x in kept <==>
      exists k, r :: Selected(events, tbs, eventTypes, argumentTypes, k, r) && events.vals[k].arguments.vals[r] == x
  {
    set k, r | k in events.vals && r in events.vals[k].arguments.vals
                 && Selected(events, tbs, eventTypes, argumentTypes, k, r) :: events.vals[k].arguments.vals[r]
  }

  /** The two id sets `ids_to_keep` accumulates. */
  datatype Keep = Keep(eventIds: set<Id>, tbIds: set<Id>)

  /** Argument `q` (by position) of event `k` is selected. */
  predicate SelectedAt(events: Table<Id, Event>, tbs: Table<Id, Textbound>,
                       eventTypes: Option<set<string>>, argumentTypes: Option<set<string>>, k: Id, q: int)
  {
    && k in events.vals
    && 0 <= q < |events.vals[k].arguments.keys|
    && Selected(events, tbs, eventTypes, argumentTypes, k, events.vals[k].arguments.keys[q])
  }

  /** The textbound id argument `q` of event `k` names. */
  function ArgAt(events: Table<Id, Event>, k: Id, q: int): Id
    requires k in events.vals && 0 <= q < |events.vals[k].arguments.keys|
    requires events.vals[k].arguments.Valid()
  {
    events.vals[k].arguments.vals[events.vals[k].arguments.keys[q]]
  }

  /** One argument visited: the event id and the argument's textbound id
      join the sets when both types pass their filters. */
  function KeepArg(acc: Keep, k: Id, e: Event, role: string, tbs: Table<Id, Textbound>,
                   eventTypes: Option<set<string>>, argumentTypes: Option<set<string>>): Keep
    requires role in e.arguments.vals && e.arguments.vals[role] in tbs.vals
  {
    var tbId := e.arguments.vals[role];
    if Passes(eventTypes, e.type_) && Passes(argumentTypes, tbs.vals[tbId].type_)
    then Keep(acc.eventIds + {k}, acc.tbIds + {tbId})
    else acc
  }

  /** The sets after visiting the first `j` arguments of event `k`. */
  function KeepArgs(acc: Keep, k: Id, e: Event, tbs: Table<Id, Textbound>,
                    eventTypes: Option<set<string>>, argumentTypes: Option<set<string>>, j: nat): Keep
    requires e.arguments.Valid() && j <= |e.arguments.keys|
    requires forall r :: r in e.arguments.vals ==> e.arguments.vals[r] in tbs.vals
  {
    if j == 0 then acc
    else KeepArg(KeepArgs(acc, k, e, tbs, eventTypes, argumentTypes, j - 1), k, e, e.arguments.keys[j - 1],
                 tbs, eventTypes, argumentTypes)
  }

  /** The sets after visiting the first `i` events. */
  function KeepOver(events: Table<Id, Event>, tbs: Table<Id, Textbound>,
                    eventTypes: Option<set<string>>, argumentTypes: Option<set<string>>, i: nat): Keep
    requires EventsValid(events) && ArgumentsResolve(events, tbs) && i <= |events.keys|
  {
    if i == 0 then Keep({}, {})
    else
      var k := events.keys[i - 1];
      KeepArgs(KeepOver(events, tbs, eventTypes, argumentTypes, i - 1), k, events.vals[k], tbs,
               eventTypes, argumentTypes, |events.vals[k].arguments.keys|)
  }

  /** Some of the first `j` arguments of event `k` is selected. */
  ghost predicate SomeSelected(events: Table<Id, Event>, tbs: Table<Id, Textbound>,
                               eventTypes: Option<set<string>>, argumentTypes: Option<set<string>>, k: Id, j: int)
  {
    exists q :: 0 <= q < j && SelectedAt(events, tbs, eventTypes, argumentTypes, k, q)
  }

  /** Some selected argument among the first `j` of event `k` names `x`. */
  ghost predicate SomeSelectedNames(events: Table<Id, Event>, tbs: Table<Id, Textbound>,
                                    eventTypes: Option<set<string>>, argumentTypes: Option<set<string>>,
                                    k: Id, j: int, x: Id)
    requires EventsValid(events)
  {
    exists q :: 0 <= q < j && SelectedAt(events, tbs, eventTypes, argumentTypes, k, q) && ArgAt(events, k, q) == x
  }

  /** Visiting the first `j` arguments of event `k` adds `k` exactly when one
      of them is selected. */
  lemma {:induction false} KeepArgsEvents(acc: Keep, events: Table<Id, Event>, tbs: Table<Id, Textbound>,
                                          eventTypes: Option<set<string>>, argumentTypes: Option<set<string>>,
                                          k: Id, j: nat, x: Id)
    requires EventsValid(events) && ArgumentsResolve(events, tbs)
    requires k in events.vals && j <= |events.vals[k].arguments.keys|
    ensures x in KeepArgs(acc, k, events.vals[k], tbs, eventTypes, argumentTypes, j).eventIds <==>
      x in acc.eventIds || (x == k && SomeSelected(events, tbs, eventTypes, argumentTypes, k, j))
  {
    if j > 0 {
      KeepArgsEvents(acc, events, tbs, eventTypes, argumentTypes, k, j - 1, x);
      var e := events.vals[k];
      var role := e.arguments.keys[j - 1];
      assert SelectedAt(events, tbs, eventTypes, argumentTypes, k, j - 1) <==>
        Passes(eventTypes, e.type_) && Passes(argumentTypes, tbs.vals[e.arguments.vals[role]].type_);
      if SomeSelected(events, tbs, eventTypes, argumentTypes, k, j) && !SelectedAt(events, tbs, eventTypes, argumentTypes, k, j - 1) {
        var q :| 0 <= q < j && SelectedAt(events, tbs, eventTypes, argumentTypes, k, q);
        assert SomeSelected(events, tbs, eventTypes, argumentTypes, k, j - 1);
      }
    }
  }

  /** Visiting the first `j` arguments of event `k` adds exactly the
      textbound ids of the selected ones. */
  lemma {:induction false} KeepArgsTbs(acc: Keep, events: Table<Id, Event>, tbs: Table<Id, Textbound>,
                                       eventTypes: Option<set<string>>, argumentTypes: Option<set<string>>,
                                       k: Id, j: nat, x: Id)
    requires EventsValid(events) && ArgumentsResolve(events, tbs)
    requires k in events.vals && j <= |events.vals[k].arguments.keys|
    ensures x in KeepArgs(acc, k, events.vals[k], tbs, eventTypes, argumentTypes, j).tbIds <==>
      x in acc.tbIds || SomeSelectedNames(events, tbs, eventTypes, argumentTypes, k, j, x)
  {
    if j > 0 {
      KeepArgsTbs(acc, events, tbs, eventTypes, argumentTypes, k, j - 1, x);
      var e := events.vals[k];
      var role := e.arguments.keys[j - 1];
      assert SelectedAt(events, tbs, eventTypes, argumentTypes, k, j - 1) <==>
        Passes(eventTypes, e.type_) && Passes(argumentTypes, tbs.vals[e.arguments.vals[role]].type_);
      assert ArgAt(events, k, j - 1) == e.arguments.vals[role];
      if SomeSelectedNames(events, tbs, eventTypes, argumentTypes, k, j, x)
         && !(SelectedAt(events, tbs, eventTypes, argumentTypes, k, j - 1) && ArgAt(events, k, j - 1) == x) {
        var q :| 0 <= q < j && SelectedAt(events, tbs, eventTypes, argumentTypes, k, q) && ArgAt(events, k, q) == x;
        assert SomeSelectedNames(events, tbs, eventTypes, argumentTypes, k, j - 1, x);
      }
    }
  }

  /** Some argument of the event at position `p` is selected. */
  ghost predicate EventKeptAt(events: Table<Id, Event>, tbs: Table<Id, Textbound>,
                              eventTypes: Option<set<string>>, argumentTypes: Option<set<string>>, p: int)
    requires EventsValid(events) && 0 <= p < |events.keys|
  {
    var k := events.keys[p];
    SomeSelected(events, tbs, eventTypes, argumentTypes, k, |events.vals[k].arguments.keys|)
  }

  /** Some selected argument of the event at position `p` names `x`. */
  ghost predicate TbKeptAt(events: Table<Id, Event>, tbs: Table<Id, Textbound>,
                           eventTypes: Option<set<string>>, argumentTypes: Option<set<string>>, p: int, x: Id)
    requires EventsValid(events) && 0 <= p < |events.keys|
  {
    var k := events.keys[p];
    SomeSelectedNames(events, tbs, eventTypes, argumentTypes, k, |events.vals[k].arguments.keys|, x)
  }

  /** Visiting the first `i` events keeps exactly the events among them with
      a selected argument. */
  lemma {:induction false} KeepOverEvents(events: Table<Id, Event>, tbs: Table<Id, Textbound>,
                                          eventTypes: Option<set<string>>, argumentTypes: Option<set<string>>,
                                          i: nat, x: Id)
    requires EventsValid(events) && ArgumentsResolve(events, tbs) && i <= |events.keys|
    ensures x in KeepOver(events, tbs, eventTypes, argumentTypes, i).eventIds <==>
      exists p :: 0 <= p < i && x == events.keys[p] && EventKeptAt(events, tbs, eventTypes, argumentTypes, p)
  {
    if i > 0 {
      KeepOverEvents(events, tbs, eventTypes, argumentTypes, i - 1, x);
      var k := events.keys[i - 1];
      var prev := KeepOver(events, tbs, eventTypes, argumentTypes, i - 1);
      KeepArgsEvents(prev, events, tbs, eventTypes, argumentTypes, k, |events.vals[k].arguments.keys|, x);
      assert EventKeptAt(events, tbs, eventTypes, argumentTypes, i - 1)
         <==> SomeSelected(events, tbs, eventTypes, argumentTypes, k, |events.vals[k].arguments.keys|);
      if exists p :: 0 <= p < i && x == events.keys[p] && EventKeptAt(events, tbs, eventTypes, argumentTypes, p) {
        var p :| 0 <= p < i && x == events.keys[p] && EventKeptAt(events, tbs, eventTypes, argumentTypes, p);
        if p < i - 1 {
          assert x in prev.eventIds;
        }
      }
      if x in prev.eventIds {
        var p :| 0 <= p < i - 1 && x == events.keys[p] && EventKeptAt(events, tbs, eventTypes, argumentTypes, p);
        assert 0 <= p < i;
      }
    }
  }

  /** Visiting the first `i` events keeps exactly the textbounds the selected
      arguments among them name. */
  lemma {:induction false} KeepOverTbs(events: Table<Id, Event>, tbs: Table<Id, Textbound>,
                                       eventTypes: Option<set<string>>, argumentTypes: Option<set<string>>,
                                       i: nat, x: Id)
    requires EventsValid(events) && ArgumentsResolve(events, tbs) && i <= |events.keys|
    ensures x in KeepOver(events, tbs, eventTypes, argumentTypes, i).tbIds <==>
      exists p :: 0 <= p < i && TbKeptAt(events, tbs, eventTypes, argumentTypes, p, x)
  {
    if i > 0 {
      KeepOverTbs(events, tbs, eventTypes, argumentTypes, i - 1, x);
      var k := events.keys[i - 1];
      var prev := KeepOver(events, tbs, eventTypes, argumentTypes, i - 1);
      KeepArgsTbs(prev, events, tbs, eventTypes, argumentTypes, k, |events.vals[k].arguments.keys|, x);
      assert TbKeptAt(events, tbs, eventTypes, argumentTypes, i - 1, x)
         <==> SomeSelectedNames(events, tbs, eventTypes, argumentTypes, k, |events.vals[k].arguments.keys|, x);
      if exists p :: 0 <= p < i && TbKeptAt(events, tbs, eventTypes, argumentTypes, p, x) {
        var p :| 0 <= p < i && TbKeptAt(events, tbs, eventTypes, argumentTypes, p, x);
        if p < i - 1 {
          assert x in prev.tbIds;
        }
      }
    }
  }

  /** A selected argument, located by the positions of its event and role. */
  lemma PositionOf(events: Table<Id, Event>, tbs: Table<Id, Textbound>,
                   eventTypes: Option<set<string>>, argumentTypes: Option<set<string>>, k: Id, r: string)
    returns (p: nat)
    requires EventsValid(events) && Selected(events, tbs, eventTypes, argumentTypes, k, r)
    ensures p < |events.keys| && events.keys[p] == k
    ensures EventKeptAt(events, tbs, eventTypes, argumentTypes, p)
    ensures TbKeptAt(events, tbs, eventTypes, argumentTypes, p, events.vals[k].arguments.vals[r])
  {
    p := KeyAt(events, k);
    var q := KeyAt(events.vals[k].arguments, r);
    assert SelectedAt(events, tbs, eventTypes, argumentTypes, k, q);
  }

  /** The selected argument behind a kept textbound id. */
  lemma SelectedOf(events: Table<Id, Event>, tbs: Table<Id, Textbound>,
                   eventTypes: Option<set<string>>, argumentTypes: Option<set<string>>, p: nat, x: Id)
    returns (r: string)
    requires EventsValid(events) && p < |events.keys| && TbKeptAt(events, tbs, eventTypes, argumentTypes, p, x)
    ensures Selected(events, tbs, eventTypes, argumentTypes, events.keys[p], r)
    ensures events.vals[events.keys[p]].arguments.vals[r] == x
  {
    var k := events.keys[p];
    var q :| 0 <= q < |events.vals[k].arguments.keys| && SelectedAt(events, tbs, eventTypes, argumentTypes, k, q)
             && ArgAt(events, k, q) == x;
    r := events.vals[k].arguments.keys[q];
  }

  /** The selected argument behind a kept event id. */
  lemma SelectedRoleOf(events: Table<Id, Event>, tbs: Table<Id, Textbound>,
                       eventTypes: Option<set<string>>, argumentTypes: Option<set<string>>, p: nat)
    returns (r: string)
    requires EventsValid(events) && p < |events.keys| && EventKeptAt(events, tbs, eventTypes, argumentTypes, p)
    ensures Selected(events, tbs, eventTypes, argumentTypes, events.keys[p], r)
  {
    var k := events.keys[p];
    var q :| 0 <= q < |events.vals[k].arguments.keys| && SelectedAt(events, tbs, eventTypes, argumentTypes, k, q);
    r := events.vals[k].arguments.keys[q];
  }

  /** After every event, an event id is kept exactly when one of its
      arguments is selected. */
  lemma KeepOverEventsAll(events: Table<Id, Event>, tbs: Table<Id, Textbound>,
                          eventTypes: Option<set<string>>, argumentTypes: Option<set<string>>, x: Id)
    requires EventsValid(events) && ArgumentsResolve(events, tbs)
    ensures x in KeepOver(events, tbs, eventTypes, argumentTypes, |events.keys|).eventIds <==>
      exists r :: Selected(events, tbs, eventTypes, argumentTypes, x, r)
  {
    var n := |events.keys|;
    KeepOverEvents(events, tbs, eventTypes, argumentTypes, n, x);
    if exists p :: 0 <= p < n && x == events.keys[p] && EventKeptAt(events, tbs, eventTypes, argumentTypes, p) {
      var p :| 0 <= p < n && x == events.keys[p] && EventKeptAt(events, tbs, eventTypes, argumentTypes, p);
      var r := SelectedRoleOf(events, tbs, eventTypes, argumentTypes, p);
    }
    if exists r :: Selected(events, tbs, eventTypes, argumentTypes, x, r) {
      var r :| Selected(events, tbs, eventTypes, argumentTypes, x, r);
      var p := PositionOf(events, tbs, eventTypes, argumentTypes, x, r);
    }
  }

  /** After every event, a textbound id is kept exactly when a selected
      argument names it. */
  lemma KeepOverTbsAll(events: Table<Id, Event>, tbs: Table<Id, Textbound>,
                       eventTypes: Option<set<string>>, argumentTypes: Option<set<string>>, x: Id)
    requires EventsValid(events) && ArgumentsResolve(events, tbs)
    ensures x in KeepOver(events, tbs, eventTypes, argumentTypes, |events.keys|).tbIds <==>
      exists k, r :: Selected(events, tbs, eventTypes, argumentTypes, k, r) && events.vals[k].arguments.vals[r] == x
  {
    var n := |events.keys|;
    KeepOverTbs(events, tbs, eventTypes, argumentTypes, n, x);
    if exists p :: 0 <= p < n && TbKeptAt(events, tbs, eventTypes, argumentTypes, p, x) {
      var p :| 0 <= p < n && TbKeptAt(events, tbs, eventTypes, argumentTypes, p, x);
      var r := SelectedOf(events, tbs, eventTypes, argumentTypes, p, x);
    }
    if exists k, r :: Selected(events, tbs, eventTypes, argumentTypes, k, r) && events.vals[k].arguments.vals[r] == x {
      var k, r :| Selected(events, tbs, eventTypes, argumentTypes, k, r) && events.vals[k].arguments.vals[r] == x;
      var p := PositionOf(events, tbs, eventTypes, argumentTypes, k, r);
    }
  }

  /** After every event, the visit has built `KeptEvents` and `KeptTbs`. */
  lemma KeepOverAll(events: Table<Id, Event>, tbs: Table<Id, Textbound>,
                    eventTypes: Option<set<string>>, argumentTypes: Option<set<string>>)
    requires EventsValid(events) && ArgumentsResolve(events, tbs)
    ensures KeepOver(events, tbs, eventTypes, argumentTypes, |events.keys|)
         == Keep(KeptEvents(events, tbs, eventTypes, argumentTypes), KeptTbs(events, tbs, eventTypes, argumentTypes))
  {
    var kept := KeepOver(events, tbs, eventTypes, argumentTypes, |events.keys|);
    forall x
      ensures x in kept.eventIds <==> x in KeptEvents(events, tbs, eventTypes, argumentTypes)
    {
      KeepOverEventsAll(events, tbs, eventTypes, argumentTypes, x);
    }
    forall x
      ensures x in kept.tbIds <==> x in KeptTbs(events, tbs, eventTypes, argumentTypes)
    {
      KeepOverTbsAll(events, tbs, eventTypes, argumentTypes, x);
    }
  }

  /** The inner loop of `ids_to_keep`: visits every argument of one event. */
  method KeepEventArgs(eventIds: set<Id>, tbIds: set<Id>, eventId: Id, event: Event, tbs: Table<Id, Textbound>,
                       eventTypes: Option<set<string>>, argumentTypes: Option<set<string>>)
    returns (eventIdsKeep: set<Id>, tbIdsKeep: set<Id>)
    requires event.arguments.Valid()
    requires forall r :: r in event.arguments.vals ==> event.arguments.vals[r] in tbs.vals
    ensures Keep(eventIdsKeep, tbIdsKeep)
         == KeepArgs(Keep(eventIds, tbIds), eventId, event, tbs, eventTypes, argumentTypes, |event.arguments.keys|)
  {
    eventIdsKeep, tbIdsKeep := eventIds, tbIds;
    var args := event.arguments;
    var j := 0;
    while j < |args.keys|
      invariant 0 <= j <= |args.keys|
      invariant Keep(eventIdsKeep, tbIdsKeep) == KeepArgs(Keep(eventIds, tbIds), eventId, event, tbs, eventTypes, argumentTypes, j)
    {
      var role := args.keys[j];
      var tbId := args.vals[role];
      var tb := tbs.vals[tbId];
      var eventTypeMatch := eventTypes.None? || event.type_ in eventTypes.value;
      var argumentTypeMatch := argumentTypes.None? || tb.type_ in argumentTypes.value;
      if eventTypeMatch && argumentTypeMatch {
        eventIdsKeep := eventIdsKeep + {eventId};
        tbIdsKeep := tbIdsKeep + {tbId};
      }
      j := j + 1;
    }
  }

  /** `ids_to_keep(event_dict, tb_dict, event_types, argument_types)`. Every
      argument is looked up in `tbs` (a missing one raises `KeyError`). */
  method IdsToKeep(events: Table<Id, Event>, tbs: Table<Id, Textbound>,
                   eventTypes: Option<set<string>>, argumentTypes: Option<set<string>>)
    returns (eventIdsKeep: set<Id>, tbIdsKeep: set<Id>)
    requires EventsValid(events) && ArgumentsResolve(events, tbs)
    ensures eventIdsKeep == KeptEvents(events, tbs, eventTypes, argumentTypes)
    ensures tbIdsKeep == KeptTbs(events, tbs, eventTypes, argumentTypes)
  {
    eventIdsKeep, tbIdsKeep := {}, {};
    var i := 0;
    while i < |events.keys|
      invariant 0 <= i <= |events.keys|
      invariant Keep(eventIdsKeep, tbIdsKeep) == KeepOver(events, tbs, eventTypes, argumentTypes, i)
    {
      var eventId := events.keys[i];
      var event := events.vals[eventId];
      eventIdsKeep, tbIdsKeep := KeepEventArgs(eventIdsKeep, tbIdsKeep, eventId, event, tbs, eventTypes, argumentTypes);
      i := i + 1;
    }
    KeepOverAll(events, tbs, eventTypes, argumentTypes);
  }

  /** With no filters every event with an argument is kept, and the kept
      textbounds are exactly those some event argument names: a textbound no
      event refers to is never kept. */
  lemma UnfilteredKeep(events: Table<Id, Event>, tbs: Table<Id, Textbound>, x: Id)
    requires ArgumentsResolve(events, tbs)
    ensures forall k :: k in KeptEvents(events, tbs, None, None) <==>
      k in events.vals && |events.vals[k].arguments.vals| > 0
    ensures x in KeptTbs(events, tbs, None, None) <==>
      exists k, r :: k in events.vals && r in events.vals[k].arguments.vals && events.vals[k].arguments.vals[r] == x
  {
    forall k | k in events.vals && |events.vals[k].arguments.vals| > 0
      ensures k in KeptEvents(events, tbs, None, None)
    {
      var r :| r in events.vals[k].arguments.vals;
      assert Selected(events, tbs, None, None, k, r);
    }
    if exists k, r :: k in events.vals && r in events.vals[k].arguments.vals && events.vals[k].arguments.vals[r] == x {
      var k, r :| k in events.vals && r in events.vals[k].arguments.vals && events.vals[k].arguments.vals[r] == x;
      assert Selected(events, tbs, None, None, k, r);
    }
  }

  /** One serialised line, represented by the record it renders. */
  datatype Line =
    | TbLine(tb: Textbound)
    | RelationLine(relation: Relation)
    | EventLine(event: Event, tbIdsKeep: set<Id>)
    | AttrLine(attr: Attribute)
  {
    /** Section of the output the line belongs to. */
    function Rank(): nat
    {
      match this
      case TbLine(_) => 0
      case RelationLine(_) => 1
      case EventLine(_, _) => 2
      case AttrLine(_) => 3
    }
  }

  /** Values of the keys of `keys` that lie in `keep`, in key order. */
  function Kept<V(!new)>(keys: seq<Id>, vals: map<Id, V>, keep: set<Id>): (vs: seq<V>)
    requires forall k :: k in keys ==> k in vals
    ensures |vs| <= |keys|
    ensures forall v :: v in vs <==> exists k :: k in keys && k in keep && vals[k] == v
  {
    if keys == [] then []
    else
      var n := |keys| - 1;
      var front := Kept(keys[..n], vals, keep);
      assert forall k :: k in keys <==> k in keys[..n] || k == keys[n];
      front + (if keys[n] in keep then [vals[keys[n]]] else [])
  }

  /** Extending the visited prefix by one key appends at most that key's
      value. */
  lemma KeptSnoc<V(!new)>(keys: seq<Id>, vals: map<Id, V>, keep: set<Id>, i: nat)
    requires forall k :: k in keys ==> k in vals
    requires i < |keys|
    ensures Kept(keys[..i + 1], vals, keep) == Kept(keys[..i], vals, keep) + (if keys[i] in keep then [vals[keys[i]]] else [])
  {
    assert keys[..i + 1][..i] == keys[..i];
  }

  function TbLines(tbs: seq<Textbound>): seq<Line>
  {
    seq(|tbs|, i requires 0 <= i < |tbs| => TbLine(tbs[i]))
  }

  function RelationLines(rels: seq<Relation>): seq<Line>
  {
    seq(|rels|, i requires 0 <= i < |rels| => RelationLine(rels[i]))
  }

  function EventLines(events: seq<Event>, tbIdsKeep: set<Id>): seq<Line>
  {
    seq(|events|, i requires 0 <= i < |events| => EventLine(events[i], tbIdsKeep))
  }

  function AttrLines(attrs: seq<Attribute>): seq<Line>
  {
    seq(|attrs|, i requires 0 <= i < |attrs| => AttrLine(attrs[i]))
  }

  lemma TbLinesSnoc(tbs: seq<Textbound>, tb: Textbound)
    ensures TbLines(tbs + [tb]) == TbLines(tbs) + [TbLine(tb)]
  {
  }

  lemma RelationLinesSnoc(rels: seq<Relation>, rel: Relation)
    ensures RelationLines(rels + [rel]) == RelationLines(rels) + [RelationLine(rel)]
  {
  }

  lemma EventLinesSnoc(events: seq<Event>, ev: Event, tbIdsKeep: set<Id>)
    ensures EventLines(events + [ev], tbIdsKeep) == EventLines(events, tbIdsKeep) + [EventLine(ev, tbIdsKeep)]
  {
  }

  lemma AttrLinesSnoc(attrs: seq<Attribute>, attr: Attribute)
    ensures AttrLines(attrs + [attr]) == AttrLines(attrs) + [AttrLine(attr)]
  {
  }

  /** The lines of `brat_str` given the kept id sets: kept textbounds, every
      relation, kept events, then the attributes whose textbound is kept. */
  function BratLines(a: Annotations, eventIdsKeep: set<Id>, tbIdsKeep: set<Id>): seq<Line>
    requires a.Valid()
  {
    TbLines(Kept(a.tbs.keys, a.tbs.vals, tbIdsKeep))
    + RelationLines(Kept(a.relations.keys, a.relations.vals, a.relations.vals.Keys))
    + EventLines(Kept(a.events.keys, a.events.vals, eventIdsKeep), tbIdsKeep)
    + AttrLines(Kept(a.attrs.keys, a.attrs.vals, tbIdsKeep))
  }

  /** Position `p` of four concatenated sections of ranks 0, 1, 2 and 3 has
      the rank of the section it falls in. */
  lemma SectionRank(t: seq<Line>, r: seq<Line>, e: seq<Line>, at: seq<Line>, p: nat)
    requires forall q :: 0 <= q < |t| ==> t[q].Rank() == 0
    requires forall q :: 0 <= q < |r| ==> r[q].Rank() == 1
    requires forall q :: 0 <= q < |e| ==> e[q].Rank() == 2
    requires forall q :: 0 <= q < |at| ==> at[q].Rank() == 3
    requires p < |t| + |r| + |e| + |at|
    ensures (t + r + e + at)[p].Rank()
         == if p < |t| then 0 else if p < |t| + |r| then 1 else if p < |t| + |r| + |e| then 2 else 3
  {
    if p < |t| {
      assert (t + r + e + at)[p] == t[p];
    } else if p < |t| + |r| {
      assert (t + r + e + at)[p] == r[p - |t|];
    } else if p < |t| + |r| + |e| {
      assert (t + r + e + at)[p] == e[p - |t| - |r|];
    } else {
      assert (t + r + e + at)[p] == at[p - |t| - |r| - |e|];
    }
  }

  /** The sections come in a fixed order: textbounds, relations, events,
      attributes. */
  lemma BratLinesOrdered(a: Annotations, eventIdsKeep: set<Id>, tbIdsKeep: set<Id>, i: nat, j: nat)
    requires a.Valid()
    requires i <= j < |BratLines(a, eventIdsKeep, tbIdsKeep)|
    ensures BratLines(a, eventIdsKeep, tbIdsKeep)[i].Rank() <= BratLines(a, eventIdsKeep, tbIdsKeep)[j].Rank()
  {
    var t := TbLines(Kept(a.tbs.keys, a.tbs.vals, tbIdsKeep));
    var r := RelationLines(Kept(a.relations.keys, a.relations.vals, a.relations.vals.Keys));
    var e := EventLines(Kept(a.events.keys, a.events.vals, eventIdsKeep), tbIdsKeep);
    var at := AttrLines(Kept(a.attrs.keys, a.attrs.vals, tbIdsKeep));
    SectionRank(t, r, e, at, i);
    SectionRank(t, r, e, at, j);
  }

  lemma InTbLines(s: seq<Textbound>, x: Line)
    ensures x in TbLines(s) <==> x.TbLine? && x.tb in s
  {
    if x in TbLines(s) {
      var p :| 0 <= p < |s| && TbLines(s)[p] == x;
      assert s[p] == x.tb;
    }
    if x.TbLine? && x.tb in s {
      var p :| 0 <= p < |s| && s[p] == x.tb;
      assert TbLines(s)[p] == x;
    }
  }

  lemma InRelationLines(s: seq<Relation>, x: Line)
    ensures x in RelationLines(s) <==> x.RelationLine? && x.relation in s
  {
    if x in RelationLines(s) {
      var p :| 0 <= p < |s| && RelationLines(s)[p] == x;
      assert s[p] == x.relation;
    }
    if x.RelationLine? && x.relation in s {
      var p :| 0 <= p < |s| && s[p] == x.relation;
      assert RelationLines(s)[p] == x;
    }
  }

  lemma InEventLines(s: seq<Event>, tbIdsKeep: set<Id>, x: Line)
    ensures x in EventLines(s, tbIdsKeep) <==> x.EventLine? && x.event in s && x.tbIdsKeep == tbIdsKeep
  {
    if x in EventLines(s, tbIdsKeep) {
      var p :| 0 <= p < |s| && EventLines(s, tbIdsKeep)[p] == x;
      assert s[p] == x.event;
    }
    if x.EventLine? && x.event in s && x.tbIdsKeep == tbIdsKeep {
      var p :| 0 <= p < |s| && s[p] == x.event;
      assert EventLines(s, tbIdsKeep)[p] == x;
    }
  }

  lemma InAttrLines(s: seq<Attribute>, x: Line)
    ensures x in AttrLines(s) <==> x.AttrLine? && x.attr in s
  {
    if x in AttrLines(s) {
      var p :| 0 <= p < |s| && AttrLines(s)[p] == x;
      assert s[p] == x.attr;
    }
    if x.AttrLine? && x.attr in s {
      var p :| 0 <= p < |s| && s[p] == x.attr;
      assert AttrLines(s)[p] == x;
    }
  }

  /** A line is in `BratLines` exactly when it is in the section of its kind. */
  lemma InBratLines(a: Annotations, eventIdsKeep: set<Id>, tbIdsKeep: set<Id>, x: Line)
    requires a.Valid()
    ensures x in BratLines(a, eventIdsKeep, tbIdsKeep) <==>
      || x in TbLines(Kept(a.tbs.keys, a.tbs.vals, tbIdsKeep))
      || x in RelationLines(Kept(a.relations.keys, a.relations.vals, a.relations.vals.Keys))
      || x in EventLines(Kept(a.events.keys, a.events.vals, eventIdsKeep), tbIdsKeep)
      || x in AttrLines(Kept(a.attrs.keys, a.attrs.vals, tbIdsKeep))
  {
  }

  /** A textbound line appears exactly when its key is kept. */
  lemma BratLinesTextbounds(a: Annotations, eventIdsKeep: set<Id>, tbIdsKeep: set<Id>, tb: Textbound)
    requires a.Valid()
    ensures TbLine(tb) in BratLines(a, eventIdsKeep, tbIdsKeep) <==>
      exists k :: k in a.tbs.vals && k in tbIdsKeep && a.tbs.vals[k] == tb
  {
    var x := TbLine(tb);
    InBratLines(a, eventIdsKeep, tbIdsKeep, x);
    InTbLines(Kept(a.tbs.keys, a.tbs.vals, tbIdsKeep), x);
    InRelationLines(Kept(a.relations.keys, a.relations.vals, a.relations.vals.Keys), x);
    InEventLines(Kept(a.events.keys, a.events.vals, eventIdsKeep), tbIdsKeep, x);
    InAttrLines(Kept(a.attrs.keys, a.attrs.vals, tbIdsKeep), x);
  }

  /** Every relation line appears, whatever is kept. */
  lemma BratLinesRelations(a: Annotations, eventIdsKeep: set<Id>, tbIdsKeep: set<Id>, rel: Relation)
    requires a.Valid()
    ensures RelationLine(rel) in BratLines(a, eventIdsKeep, tbIdsKeep) <==>
      exists k :: k in a.relations.vals && a.relations.vals[k] == rel
  {
    var x := RelationLine(rel);
    InBratLines(a, eventIdsKeep, tbIdsKeep, x);
    InTbLines(Kept(a.tbs.keys, a.tbs.vals, tbIdsKeep), x);
    InRelationLines(Kept(a.relations.keys, a.relations.vals, a.relations.vals.Keys), x);
    InEventLines(Kept(a.events.keys, a.events.vals, eventIdsKeep), tbIdsKeep, x);
    InAttrLines(Kept(a.attrs.keys, a.attrs.vals, tbIdsKeep), x);
  }

  /** An event line appears exactly when its key is kept. */
  lemma BratLinesEvents(a: Annotations, eventIdsKeep: set<Id>, tbIdsKeep: set<Id>, ev: Event)
    requires a.Valid()
    ensures EventLine(ev, tbIdsKeep) in BratLines(a, eventIdsKeep, tbIdsKeep) <==>
      exists k :: k in a.events.vals && k in eventIdsKeep && a.events.vals[k] == ev
  {
    var x := EventLine(ev, tbIdsKeep);
    InBratLines(a, eventIdsKeep, tbIdsKeep, x);
    InTbLines(Kept(a.tbs.keys, a.tbs.vals, tbIdsKeep), x);
    InRelationLines(Kept(a.relations.keys, a.relations.vals, a.relations.vals.Keys), x);
    InEventLines(Kept(a.events.keys, a.events.vals, eventIdsKeep), tbIdsKeep, x);
    InAttrLines(Kept(a.attrs.keys, a.attrs.vals, tbIdsKeep), x);
  }

  /** An attribute line appears exactly when the textbound it is keyed by is
      kept. */
  lemma BratLinesAttributes(a: Annotations, eventIdsKeep: set<Id>, tbIdsKeep: set<Id>, attr: Attribute)
    requires a.Valid()
    ensures AttrLine(attr) in BratLines(a, eventIdsKeep, tbIdsKeep) <==>
      exists k :: k in a.attrs.vals && k in tbIdsKeep && a.attrs.vals[k] == attr
  {
    var x := AttrLine(attr);
    InBratLines(a, eventIdsKeep, tbIdsKeep, x);
    InTbLines(Kept(a.tbs.keys, a.tbs.vals, tbIdsKeep), x);
    InRelationLines(Kept(a.relations.keys, a.relations.vals, a.relations.vals.Keys), x);
    InEventLines(Kept(a.events.keys, a.events.vals, eventIdsKeep), tbIdsKeep, x);
    InAttrLines(Kept(a.attrs.keys, a.attrs.vals, tbIdsKeep), x);
  }
}

=== FILE: snap.dfy ===
/** Specification of `snap_textbounds`: moving each textbound's start back
    to the start of the token that contains it and its end forward to the
    end of the token that contains it, over a flat list of token offsets. */
module Snap {
  import opened Wrappers
  import opened Tables
  import opened Records
  import opened Text
  import opened Tokens

  /** `remove_white_space_at_ends(text, start, end)` of corpus/tokenization,
      which is not part of this model: only the new bounds are used. */
  type Trim = (string, nat, nat) -> (nat, nat)

  /** Token `k` contains the character at `s`. */
  predicate ContainsStart(offsets: seq<Span>, k: nat, s: nat)
    requires k < |offsets|
  {
    offsets[k].0 <= s < offsets[k].1
  }

  /** Token `k` contains the character just before `e`. */
  predicate ContainsEnd(offsets: seq<Span>, k: nat, e: nat)
    requires k < |offsets|
  {
    offsets[k].0 < e <= offsets[k].1
  }

  /** The start of the first token containing position `s`, if any. */
  function FirstStart(offsets: seq<Span>, s: nat): (r: Option<nat>)
    ensures r.None? <==> forall k :: 0 <= k < |offsets| ==> !ContainsStart(offsets, k, s)
    ensures r.Some? ==>
      exists k :: 0 <= k < |offsets| && ContainsStart(offsets, k, s) && offsets[k].0 == r.value
                  && forall k' :: 0 <= k' < k ==> !ContainsStart(offsets, k', s)
  {
    if offsets == [] then None
    else if offsets[0].0 <= s < offsets[0].1 then
      assert ContainsStart(offsets, 0, s);
      Some(offsets[0].0)
    else
      var r := FirstStart(offsets[1..], s);
      assert forall k :: 0 < k < |offsets| ==> (ContainsStart(offsets, k, s) <==> ContainsStart(offsets[1..], k - 1, s));
      if r.Some? then
        var k :| 0 <= k < |offsets[1..]| && ContainsStart(offsets[1..], k, s) && offsets[1..][k].0 == r.value
                 && forall k' :: 0 <= k' < k ==> !ContainsStart(offsets[1..], k', s);
        assert ContainsStart(offsets, k + 1, s);
        r
      else
        r
  }

  /** The end of the first token containing the character before `e`, if
      any. */
  function FirstEnd(offsets: seq<Span>, e: nat): (r: Option<nat>)
    ensures r.None? <==> forall k :: 0 <= k < |offsets| ==> !ContainsEnd(offsets, k, e)
    ensures r.Some? ==>
      exists k :: 0 <= k < |offsets| && ContainsEnd(offsets, k, e) && offsets[k].1 == r.value
                  && forall k' :: 0 <= k' < k ==> !ContainsEnd(offsets, k', e)
  {
    if offsets == [] then None
    else if offsets[0].0 < e <= offsets[0].1 then
      assert ContainsEnd(offsets, 0, e);
      Some(offsets[0].1)
    else
      var r := FirstEnd(offsets[1..], e);
      assert forall k :: 0 < k < |offsets| ==> (ContainsEnd(offsets, k, e) <==> ContainsEnd(offsets[1..], k - 1, e));
      if r.Some? then
        var k :| 0 <= k < |offsets[1..]| && ContainsEnd(offsets[1..], k, e) && offsets[1..][k].1 == r.value
                 && forall k' :: 0 <= k' < k ==> !ContainsEnd(offsets[1..], k', e);
        assert ContainsEnd(offsets, k + 1, e);
        r
      else
        r
  }

  /** The snapped bounds of one textbound, or `None` when the trimmed start
      or end lies in no token (the `ValueError`). */
  function SnapBounds(tb: Textbound, offsets: seq<Span>, trim: Trim): (r: Option<(nat, nat)>)
    ensures r.Some? <==>
      && (exists k :: 0 <= k < |offsets| && ContainsStart(offsets, k, trim(tb.text, tb.start, tb.end).0))
      && (exists k :: 0 <= k < |offsets| && ContainsEnd(offsets, k, trim(tb.text, tb.start, tb.end).1))
    ensures r.Some? ==>
      (exists p :: 0 <= p < |offsets| && offsets[p].0 == r.value.0) &&
      (exists q :: 0 <= q < |offsets| && offsets[q].1 == r.value.1)
  {
    var (s, e) := trim(tb.text, tb.start, tb.end);
    var start := FirstStart(offsets, s);
    var end := FirstEnd(offsets, e);
    if start.Some? && end.Some? then Some((start.value, end.value)) else None
  }

  /** The textbound once snapped to `(s, e)`: it changes, and its text is
      taken afresh from the document, only when a bound moves. */
  function Snapped(tb: Textbound, s: nat, e: nat, text: string): (r: Textbound)
    ensures r.id == tb.id && r.type_ == tb.type_ && r.tokens == tb.tokens
    ensures r.start == s && r.end == e
    ensures (tb.start, tb.end) == (s, e) ==> r == tb
    ensures (tb.start, tb.end) != (s, e) ==> r.text == Slice(text, s, e)
  {
    if tb.start != s || tb.end != e then tb.(start := s, end := e, text := Slice(text, s, e)) else tb
  }

  /** One textbound snapped, or `None` when it cannot be. */
  function SnapOne(tb: Textbound, offsets: seq<Span>, text: string, trim: Trim): (r: Option<Textbound>)
    ensures r.None? <==> SnapBounds(tb, offsets, trim).None?
    ensures r.Some? ==>
      var b := SnapBounds(tb, offsets, trim).value;
      r.value == Snapped(tb, b.0, b.1, text)
  {
    var b := SnapBounds(tb, offsets, trim);
    if b.Some? then Some(Snapped(tb, b.value.0, b.value.1, text)) else None
  }

  /** The state of the pass: the textbounds by id, and whether every
      textbound visited so far could be snapped. */
  datatype SnapState = SnapState(vals: map<Id, Textbound>, ok: bool)

  /** The first of the textbounds `tbs.keys[..j]` that `snap` rejects, or
      `j` when there is none. */
  function FirstFail(tbs: Table<Id, Textbound>, j: nat, snap: Textbound -> Option<Textbound>): (f: nat)
    requires tbs.Valid() && j <= |tbs.keys|
    ensures f <= j
    ensures f < j ==> snap(tbs.vals[tbs.keys[f]]).None?
  {
    if j == 0 then 0
    else
      var f := FirstFail(tbs, j - 1, snap);
      if f < j - 1 || snap(tbs.vals[tbs.keys[j - 1]]).None? then f else j
  }

  /** Every textbound before the first failure can be snapped. */
  lemma {:induction false} FirstFailBefore(tbs: Table<Id, Textbound>, j: nat, snap: Textbound -> Option<Textbound>, i: nat)
    requires tbs.Valid() && j <= |tbs.keys| && i < FirstFail(tbs, j, snap)
    ensures snap(tbs.vals[tbs.keys[i]]).Some?
    decreases j
  {
    if i < FirstFail(tbs, j - 1, snap) {
      FirstFailBefore(tbs, j - 1, snap, i);
    }
  }

  /** The pass over `tbs.keys[..j]`, which replaces each textbound in place
      and stops at the first one that cannot be snapped. Each key is visited
      once, so the entry it reads is still the one it started with. */
  function SnapOver(tbs: Table<Id, Textbound>, j: nat, snap: Textbound -> Option<Textbound>): (r: SnapState)
    requires tbs.Valid() && j <= |tbs.keys|
  {
    if j == 0 then SnapState(tbs.vals, true)
    else
      var prev := SnapOver(tbs, j - 1, snap);
      var k := tbs.keys[j - 1];
      if !prev.ok then prev
      else
        var t := snap(tbs.vals[k]);
        if t.None? then SnapState(prev.vals, false)
        else SnapState(prev.vals[k := t.value], true)
  }

  /** The pass replaces textbounds and neither adds nor removes any. */
  lemma {:induction false} SnapOverKeys(tbs: Table<Id, Textbound>, j: nat, snap: Textbound -> Option<Textbound>)
    requires tbs.Valid() && j <= |tbs.keys|
    ensures SnapOver(tbs, j, snap).vals.Keys == tbs.vals.Keys
    decreases j
  {
    if j > 0 {
      SnapOverKeys(tbs, j - 1, snap);
    }
  }

  /** The pass over `tbs.keys[..j]` leaves the textbounds after them as
      they were. */
  lemma {:induction false} SnapOverUnvisited(tbs: Table<Id, Textbound>, j: nat, snap: Textbound -> Option<Textbound>, i: nat)
    requires tbs.Valid() && j <= i < |tbs.keys|
    ensures var k := tbs.keys[i];
      k in SnapOver(tbs, j, snap).vals && SnapOver(tbs, j, snap).vals[k] == tbs.vals[k]
    decreases j
  {
    SnapOverKeys(tbs, j, snap);
    if j > 0 {
      SnapOverUnvisited(tbs, j - 1, snap, i);
      DistinctNe(tbs.keys, i, j - 1);
    }
  }

  /** The pass over `tbs.keys[..j]` completes exactly when no textbound
      among them failed. */
  lemma {:induction false} SnapOverOk(tbs: Table<Id, Textbound>, j: nat, snap: Textbound -> Option<Textbound>)
    requires tbs.Valid() && j <= |tbs.keys|
    ensures SnapOver(tbs, j, snap).ok <==> FirstFail(tbs, j, snap) == j
    decreases j
  {
    if j > 0 {
      SnapOverOk(tbs, j - 1, snap);
    }
  }

  /** One step of the pass, over `tbs.keys[j - 1]`: a stopped pass stays
      as it is, a textbound that cannot be snapped stops it, any other one
      is replaced by its snapped form. */
  lemma SnapOverStep(tbs: Table<Id, Textbound>, j: nat, snap: Textbound -> Option<Textbound>)
    requires tbs.Valid() && 0 < j <= |tbs.keys|
    ensures var prev := SnapOver(tbs, j - 1, snap);
            var k := tbs.keys[j - 1];
            var cur := SnapOver(tbs, j, snap);
            && (!prev.ok ==> cur == prev && FirstFail(tbs, j, snap) == FirstFail(tbs, j - 1, snap))
            && (prev.ok && snap(tbs.vals[k]).None? ==>
                  cur.vals == prev.vals && FirstFail(tbs, j, snap) == FirstFail(tbs, j - 1, snap))
            && (prev.ok && snap(tbs.vals[k]).Some? ==>
                  cur.vals == prev.vals[k := snap(tbs.vals[k]).value] && FirstFail(tbs, j, snap) == j)
  {
    SnapOverOk(tbs, j - 1, snap);
  }

  /** After the pass over `tbs.keys[..j]`, the textbounds before the first
      failure are snapped; it and the rest are as they were. */
  lemma {:induction false} SnapOverAt(tbs: Table<Id, Textbound>, j: nat, snap: Textbound -> Option<Textbound>, i: nat)
    requires tbs.Valid() && j <= |tbs.keys| && i < |tbs.keys|
    ensures var k := tbs.keys[i];
      k in SnapOver(tbs, j, snap).vals &&
      Some(SnapOver(tbs, j, snap).vals[k]) == if i < FirstFail(tbs, j, snap) then snap(tbs.vals[k]) else Some(tbs.vals[k])
    decreases j
  {
    if j <= i {
      SnapOverUnvisited(tbs, j, snap, i);
    } else {
      SnapOverStep(tbs, j, snap);
      if i < j - 1 {
        SnapOverAt(tbs, j - 1, snap, i);
        DistinctNe(tbs.keys, i, j - 1);
      } else {
        SnapOverUnvisited(tbs, j - 1, snap, i);
      }
    }
  }

  /** The snapping of one textbound, as a function value. */
  function SnapWith(offsets: seq<Span>, text: string, trim: Trim): Textbound -> Option<Textbound>
  {
    tb => SnapOne(tb, offsets, text, trim)
  }

  /** Once a textbound could not be snapped, the pass changes nothing more. */
  lemma {:induction false} SnapOverStops(tbs: Table<Id, Textbound>, j: nat, n: nat, snap: Textbound -> Option<Textbound>)
    requires tbs.Valid() && j < n <= |tbs.keys|
    requires !SnapOver(tbs, j, snap).ok
    ensures SnapOver(tbs, n, snap) == SnapOver(tbs, j, snap)
    decreases n
  {
    if n - 1 > j {
      SnapOverStops(tbs, j, n - 1, snap);
    }
  }

  /** The loop over the textbounds in table order, which stops at the
      first one that cannot be snapped. */
  method SnapLoop(tbs0: Table<Id, Textbound>, offsets: seq<Span>, text: string, trim: Trim)
    returns (tbs: Table<Id, Textbound>, ok: bool)
    requires tbs0.Valid()
    ensures tbs.keys == tbs0.keys
    ensures SnapState(tbs.vals, ok) == SnapOver(tbs0, |tbs0.keys|, SnapWith(offsets, text, trim))
  {
    tbs := tbs0;
    var i := 0;
    while i < |tbs.keys|
      invariant 0 <= i <= |tbs0.keys|
      invariant tbs.Valid() && tbs.keys == tbs0.keys
      invariant SnapState(tbs.vals, true) == SnapOver(tbs0, i, SnapWith(offsets, text, trim))
    {
      var k := tbs.keys[i];
      SnapOverUnvisited(tbs0, i, SnapWith(offsets, text, trim), i);
      var t := SnapOne(tbs.vals[k], offsets, text, trim);
      if t.None? {
        assert SnapOver(tbs0, i + 1, SnapWith(offsets, text, trim)) == SnapState(tbs.vals, false);
        if i + 1 < |tbs0.keys| {
          SnapOverStops(tbs0, i + 1, |tbs0.keys|, SnapWith(offsets, text, trim));
        }
        return tbs, false;
      }
      tbs := tbs.Put(k, t.value);
      i := i + 1;
    }
    ok := true;
  }

  /** The whole of `snap_textbounds`: the new table, and whether the pass
      completed (`False` standing for the `ValueError`). */
  function SnapTextbounds(a: Annotations, offsets: seq<Span>, text: string, trim: Trim): (r: (Annotations, bool))
    requires a.Valid()
    ensures r.0.Valid()
    ensures r.0.events == a.events && r.0.relations == a.relations && r.0.attrs == a.attrs
    ensures r.0.tbs.keys == a.tbs.keys
  {
    var st := SnapOver(a.tbs, |a.tbs.keys|, SnapWith(offsets, text, trim));
    SnapOverKeys(a.tbs, |a.tbs.keys|, SnapWith(offsets, text, trim));
    (a.(tbs := Table(a.tbs.keys, st.vals)), st.ok)
  }

  /** A snapped textbound starts at a token start and ends at a token end,
      keeps its id and type, and has its text resynchronised from the
      document when a bound moved; otherwise it is unchanged. */
  predicate SnappedWell(tb: Textbound, tb': Textbound, offsets: seq<Span>, text: string)
  {
    && tb'.id == tb.id && tb'.type_ == tb.type_
    && (exists p :: 0 <= p < |offsets| && offsets[p].0 == tb'.start)
    && (exists q :: 0 <= q < |offsets| && offsets[q].1 == tb'.end)
    && ((tb'.start, tb'.end) != (tb.start, tb.end) ==> tb'.text == Slice(text, tb'.start, tb'.end))
    && ((tb'.start, tb'.end) == (tb.start, tb.end) ==> tb' == tb)
  }

  lemma SnapOneWell(tb: Textbound, offsets: seq<Span>, text: string, trim: Trim)
    requires SnapOne(tb, offsets, text, trim).Some?
    ensures SnappedWell(tb, SnapOne(tb, offsets, text, trim).value, offsets, text)
  {
  }

  /** The pass completes exactly when every textbound can be snapped. */
  lemma SnapTextboundsOk(a: Annotations, offsets: seq<Span>, text: string, trim: Trim)
    requires a.Valid()
    ensures SnapTextbounds(a, offsets, text, trim).1 <==>
      forall k :: k in a.tbs.vals ==> SnapBounds(a.tbs.vals[k], offsets, trim).Some?
  {
    var keys := a.tbs.keys;
    var snap := SnapWith(offsets, text, trim);
    SnapOverOk(a.tbs, |keys|, snap);
    var f := FirstFail(a.tbs, |keys|, snap);
    if f < |keys| {
      assert keys[f] in a.tbs.vals;
    }
    forall k | k in a.tbs.vals
      ensures f == |keys| ==> SnapBounds(a.tbs.vals[k], offsets, trim).Some?
    {
      var i := KeyAt(a.tbs, k);
      if f == |keys| {
        FirstFailBefore(a.tbs, |keys|, snap, i);
      }
    }
  }

  /** After a completed pass every textbound is snapped well. */
  lemma SnapTextboundsEffect(a: Annotations, offsets: seq<Span>, text: string, trim: Trim)
    requires a.Valid()
    ensures var r := SnapTextbounds(a, offsets, text, trim);
      r.1 ==> forall k :: k in a.tbs.vals ==> SnappedWell(a.tbs.vals[k], r.0.tbs.vals[k], offsets, text)
  {
    var keys := a.tbs.keys;
    var snap := SnapWith(offsets, text, trim);
    SnapOverOk(a.tbs, |keys|, snap);
    var r := SnapTextbounds(a, offsets, text, trim);
    if r.1 {
      forall k | k in a.tbs.vals
        ensures SnappedWell(a.tbs.vals[k], r.0.tbs.vals[k], offsets, text)
      {
        var i := KeyAt(a.tbs, k);
        SnapOverAt(a.tbs, |keys|, snap, i);
        SnapOneWell(a.tbs.vals[k], offsets, text, trim);
      }
    }
  }

  /** Token spans that are non-empty, in order, and do not overlap. */
  predicate OrderedTokens(offsets: seq<Span>)
  {
    && (forall k :: 0 <= k < |offsets| ==> offsets[k].0 < offsets[k].1)
    && (forall i, j :: 0 <= i < j < |offsets| ==> offsets[i].1 <= offsets[j].0)
  }

  /** Over ordered tokens, a textbound that trimming leaves alone and that
      already starts at a token start and ends at a token end is unchanged. */
  lemma {:induction false} SnapOnBoundaries(tb: Textbound, offsets: seq<Span>, text: string, trim: Trim, p: nat, q: nat)
    requires OrderedTokens(offsets)
    requires trim(tb.text, tb.start, tb.end) == (tb.start, tb.end)
    requires p < |offsets| && offsets[p].0 == tb.start
    requires q < |offsets| && offsets[q].1 == tb.end
    ensures SnapOne(tb, offsets, text, trim) == Some(tb)
  {
    assert ContainsStart(offsets, p, tb.start);
    assert ContainsEnd(offsets, q, tb.end);
    var s := FirstStart(offsets, tb.start);
    var k :| 0 <= k < |offsets| && ContainsStart(offsets, k, tb.start) && offsets[k].0 == s.value
             && forall k' :: 0 <= k' < k ==> !ContainsStart(offsets, k', tb.start);
    assert k == p;
    var e := FirstEnd(offsets, tb.end);
    var m :| 0 <= m < |offsets| && ContainsEnd(offsets, m, tb.end) && offsets[m].1 == e.value
             && forall k' :: 0 <= k' < m ==> !ContainsEnd(offsets, k', tb.end);
    assert m == q;
  }

  /** Snapping is idempotent: over ordered tokens, and when trimming leaves
      a snapped textbound alone, snapping it again changes nothing. */
  lemma SnapIdempotent(tb: Textbound, offsets: seq<Span>, text: string, trim: Trim)
    requires OrderedTokens(offsets)
    requires SnapOne(tb, offsets, text, trim).Some?
    requires var t := SnapOne(tb, offsets, text, trim).value; trim(t.text, t.start, t.end) == (t.start, t.end)
    ensures var t := SnapOne(tb, offsets, text, trim).value; SnapOne(t, offsets, text, trim) == Some(t)
  {
    var t := SnapOne(tb, offsets, text, trim).value;
    var p :| 0 <= p < |offsets| && offsets[p].0 == t.start;
    var q :| 0 <= q < |offsets| && offsets[q].1 == t.end;
    SnapOnBoundaries(t, offsets, text, trim, p, q);
  }
}

=== FILE: swap.dfy ===
/** Specification of `swap_spans`: giving an event argument a copy of
    another argument's span, minting new textbound and attribute ids, and
    deleting the replaced textbounds once every event has been visited. */
module Swap {
  import opened Wrappers
  import opened Tables
  import opened Records

  /** The `target` argument: the `TRIGGER` constant of config/constants.py
      (not part of this model), which stands for the event's own trigger,
      or a role or textbound type name. */
  datatype Target = TheTrigger | Named(name: string)

  /** The counter keys `new_tb`, `new_attr`, `rm_tb` and `rm_attr`. */
  datatype SwapTally = NewTb | NewAttr | RmTb | RmAttr

  /** What the pass carries from one event to the next. */
  datatype SwapState = SwapState(
    events: Table<Id, Event>,
    tbs: Table<Id, Textbound>,
    attrs: Table<Id, Attribute>,
    tbIndex: nat,
    attrIndex: nat,
    toRemove: set<Id>,
    counter: multiset<SwapTally>)
  {
    predicate Valid()
    {
      EventsValid(events) && tbs.Valid() && attrs.Valid()
    }
  }

  /** The source textbound, the target textbound and the role to rebind
      that one event yields. */
  datatype Resolved = Resolved(source: Option<Id>, target: Option<Id>, role: Option<string>)

  /** `args[role]` when present. */
  function Lookup(args: Table<string, Id>, role: string): (r: Option<Id>)
    ensures r.Some? <==> role in args.vals
    ensures r.Some? ==> r.value == args.vals[role]
  {
    if role in args.vals then Some(args.vals[role]) else None
  }

  /** Every argument of an event names an existing textbound. */
  predicate ArgsResolve(args: Table<string, Id>, tbs: map<Id, Textbound>)
  {
    forall r :: r in args.vals ==> args.vals[r] in tbs
  }

  /** Type mode over the first `n` arguments: the last argument whose
      textbound has type `source` gives the source id and role, the last
      one whose textbound has type `target` the target id. */
  function ResolveByType(args: Table<string, Id>, tbs: map<Id, Textbound>, source: string, target: string, n: nat)
    : (r: Resolved)
    requires args.Valid() && n <= |args.keys| && ArgsResolve(args, tbs)
    ensures r.source.Some? <==> r.role.Some?
    ensures r.role.Some? ==> r.role.value in args.vals && r.source.value == args.vals[r.role.value]
    ensures r.target.Some? ==> r.target.value in tbs
  {
    if n == 0 then Resolved(None, None, None)
    else
      var r := ResolveByType(args, tbs, source, target, n - 1);
      var role := args.keys[n - 1];
      var id := args.vals[role];
      var ty := tbs[id].type_;
      Resolved(if source == ty then Some(id) else r.source,
               if target == ty then Some(id) else r.target,
               if source == ty then Some(role) else r.role)
  }

  /** The source and target textbounds of event `e`, by role or by type. */
  function Resolve(e: Event, tbs: map<Id, Textbound>, source: string, target: Target, useRole: bool): (r: Resolved)
    requires e.arguments.Valid() && |e.arguments.keys| > 0
    requires !useRole ==> ArgsResolve(e.arguments, tbs)
    ensures r.source.Some? ==>
      r.role.Some? && r.role.value in e.arguments.vals && r.source.value == e.arguments.vals[r.role.value]
    ensures r.target.Some? ==> r.target.value in e.arguments.vals.Values
  {
    var targetName := if target.TheTrigger? then Trigger(e).0 else target.name;
    if useRole then
      Resolved(Lookup(e.arguments, source), Lookup(e.arguments, targetName), Some(source))
    else
      var r := ResolveByType(e.arguments, tbs, source, targetName, |e.arguments.keys|);
      assert r.target.Some? ==> r.target.value in e.arguments.vals.Values by {
        if r.target.Some? {
          TargetIsArgument(e.arguments, tbs, source, targetName, |e.arguments.keys|);
        }
      }
      r
  }

  lemma {:induction false} TargetIsArgument(args: Table<string, Id>, tbs: map<Id, Textbound>, source: string, target: string,
                                            n: nat)
    requires args.Valid() && n <= |args.keys| && ArgsResolve(args, tbs)
    ensures ResolveByType(args, tbs, source, target, n).target.Some? ==>
      ResolveByType(args, tbs, source, target, n).target.value in args.vals.Values
  {
    if n > 0 {
      TargetIsArgument(args, tbs, source, target, n - 1);
      assert args.keys[n - 1] in args.vals;
    }
  }

  /** The name `target` stands for in event `e`. */
  function TargetName(e: Event, target: Target): string
    requires e.arguments.Valid() && |e.arguments.keys| > 0
  {
    if target.TheTrigger? then Trigger(e).0 else target.name
  }

  /** Visiting event `e` raises nothing: it has a trigger, and every
      textbound the visit looks up exists. */
  predicate EventDefined(e: Event, tbs: map<Id, Textbound>, source: string, target: Target, useRole: bool)
  {
    && e.arguments.Valid() && |e.arguments.keys| > 0
    && (!useRole ==> ArgsResolve(e.arguments, tbs))
    && var r := Resolve(e, tbs, source, target, useRole);
       r.source.Some? && r.target.Some? ==> r.source.value in tbs && r.target.value in tbs
  }

  /** The facts every visit keeps: the events keep their keys and their
      role names, textbounds are only added, each created textbound or
      attribute uses up one number and is counted, and fresh numbers stay
      fresh. */
  predicate Advances(st: SwapState, r: SwapState)
  {
    KeepsShape(st, r) && KeepsCount(st, r)
  }

  /** The events keep their keys and their role names, and textbounds are
      only added. */
  predicate KeepsShape(st: SwapState, r: SwapState)
  {
    && r.events.keys == st.events.keys
    && r.events.vals.Keys == st.events.vals.Keys
    && st.tbs.vals.Keys <= r.tbs.vals.Keys
    && (forall x :: x in st.events.vals ==> r.events.vals[x].arguments.keys == st.events.vals[x].arguments.keys)
  }

  /** Each created textbound or attribute uses up one number and is
      counted, marked textbounds exist, and fresh numbers stay fresh. */
  predicate KeepsCount(st: SwapState, r: SwapState)
  {
    && (st.toRemove <= st.tbs.vals.Keys ==> r.toRemove <= r.tbs.vals.Keys)
    && (Fresh(st) ==> Fresh(r))
    && r.tbIndex == st.tbIndex + r.counter[NewTb] - st.counter[NewTb]
    && r.attrIndex == st.attrIndex + r.counter[NewAttr] - st.counter[NewAttr]
    && (Fresh(st) ==> |r.tbs.keys| == |st.tbs.keys| + r.counter[NewTb] - st.counter[NewTb])
    && st.counter <= r.counter
    && r.counter[RmTb] == st.counter[RmTb]
    && |r.toRemove| <= |st.toRemove| + r.counter[NewTb] - st.counter[NewTb]
  }

  /** Rebinding role `role` of event `k` from textbound `source` to a new
      textbound `T<tbIndex>` with the source's type and the span of
      textbound `target`, copying the source's attribute (if any) as
      `A<attrIndex>`, and marking the source for removal. */
  function Rebind(st: SwapState, k: Id, role: string, source: Id, target: Id): (r: SwapState)
    requires st.Valid() && k in st.events.vals && role in st.events.vals[k].arguments.vals
    requires source in st.tbs.vals && target in st.tbs.vals
    ensures r.Valid()
    ensures r.events.keys == st.events.keys && r.events.vals.Keys == st.events.vals.Keys
    ensures st.tbs.vals.Keys <= r.tbs.vals.Keys
    ensures forall x :: x in st.events.vals && x != k ==> r.events.vals[x] == st.events.vals[x]
  {
    var e := st.events.vals[k];
    var src := st.tbs.vals[source];
    var tgt := st.tbs.vals[target];
    var newId := Id('T', st.tbIndex);
    var newTb := Textbound(newId, src.type_, tgt.start, tgt.end, tgt.text, tgt.tokens);
    var args := e.arguments.Put(role, newId);
    var events := st.events.Put(k, e.(arguments := args));
    var tbs := st.tbs.Put(newId, newTb);
    var toRemove := st.toRemove + {source};
    if source in st.attrs.vals then
      var attr := st.attrs.vals[source];
      var newAttr := Attribute(Id('A', st.attrIndex), attr.type_, newId, attr.value);
      SwapState(events, tbs, st.attrs.Put(newId, newAttr), st.tbIndex + 1, st.attrIndex + 1, toRemove,
                st.counter + multiset{NewTb, NewAttr})
    else
      SwapState(events, tbs, st.attrs, st.tbIndex + 1, st.attrIndex, toRemove, st.counter + multiset{NewTb})
  }

  /** The visit of event `k`: when both source and target resolve, the
      source role is rebound to a copy of the target's span. */
  function SwapStep(st: SwapState, k: Id, source: string, target: Target, useRole: bool): (r: SwapState)
    requires st.Valid() && k in st.events.vals
    requires EventDefined(st.events.vals[k], st.tbs.vals, source, target, useRole)
    ensures r.Valid()
    ensures r.events.keys == st.events.keys && r.events.vals.Keys == st.events.vals.Keys
    ensures st.tbs.vals.Keys <= r.tbs.vals.Keys
    ensures forall x :: x in st.events.vals && x != k ==> r.events.vals[x] == st.events.vals[x]
  {
    var res := Resolve(st.events.vals[k], st.tbs.vals, source, target, useRole);
    if res.source.Some? && res.target.Some? then
      Rebind(st, k, res.role.value, res.source.value, res.target.value)
    else
      st
  }

  /** A rebinding keeps the facts every visit keeps, and adds one textbound. */
  lemma RebindAdvances(st: SwapState, k: Id, role: string, source: Id, target: Id)
    requires st.Valid() && k in st.events.vals && role in st.events.vals[k].arguments.vals
    requires source in st.tbs.vals && target in st.tbs.vals
    ensures Advances(st, Rebind(st, k, role, source, target))
    ensures Rebind(st, k, role, source, target).counter[NewTb] == st.counter[NewTb] + 1
  {
    RebindShape(st, k, role, source, target);
    RebindCount(st, k, role, source, target);
  }

  lemma RebindShape(st: SwapState, k: Id, role: string, source: Id, target: Id)
    requires st.Valid() && k in st.events.vals && role in st.events.vals[k].arguments.vals
    requires source in st.tbs.vals && target in st.tbs.vals
    ensures KeepsShape(st, Rebind(st, k, role, source, target))
  {
  }

  lemma RebindCount(st: SwapState, k: Id, role: string, source: Id, target: Id)
    requires st.Valid() && k in st.events.vals && role in st.events.vals[k].arguments.vals
    requires source in st.tbs.vals && target in st.tbs.vals
    ensures KeepsCount(st, Rebind(st, k, role, source, target))
    ensures Rebind(st, k, role, source, target).counter[NewTb] == st.counter[NewTb] + 1
  {
    var newId := Id('T', st.tbIndex);
    var r := Rebind(st, k, role, source, target);
    var src := st.tbs.vals[source];
    var tgt := st.tbs.vals[target];
    var withAttr := source in st.attrs.vals;
    assert r.tbs == st.tbs.Put(newId, Textbound(newId, src.type_, tgt.start, tgt.end, tgt.text, tgt.tokens));
    assert r.counter == st.counter + multiset{NewTb} + (if withAttr then multiset{NewAttr} else multiset{});
    CountsAfterRebind(st, r, source, withAttr, Textbound(newId, src.type_, tgt.start, tgt.end, tgt.text, tgt.tokens));
  }

  /** The counting facts of one rebinding, from what it does to the
      numbers, the counter and the textbounds. */
  lemma CountsAfterRebind(st: SwapState, r: SwapState, source: Id, withAttr: bool, tb: Textbound)
    requires st.tbs.Valid() && source in st.tbs.vals
    requires r.tbs == st.tbs.Put(Id('T', st.tbIndex), tb)
    requires r.toRemove == st.toRemove + {source} && r.tbIndex == st.tbIndex + 1
    requires r.attrIndex == st.attrIndex + (if withAttr then 1 else 0)
    requires r.counter == st.counter + multiset{NewTb} + (if withAttr then multiset{NewAttr} else multiset{})
    ensures KeepsCount(st, r) && r.counter[NewTb] == st.counter[NewTb] + 1
  {
    if Fresh(st) {
      assert Id('T', st.tbIndex) !in st.tbs.vals;
    }
  }

  /** A visit keeps the facts every visit keeps. */
  lemma SwapStepAdvances(st: SwapState, k: Id, source: string, target: Target, useRole: bool)
    requires st.Valid() && k in st.events.vals
    requires EventDefined(st.events.vals[k], st.tbs.vals, source, target, useRole)
    ensures Advances(st, SwapStep(st, k, source, target, useRole))
  {
    var res := Resolve(st.events.vals[k], st.tbs.vals, source, target, useRole);
    if res.source.Some? && res.target.Some? {
      RebindAdvances(st, k, res.role.value, res.source.value, res.target.value);
    }
  }

  /** Every event of `st` can be visited. */
  predicate SwapDefined(st: SwapState, source: string, target: Target, useRole: bool)
  {
    forall k :: k in st.events.vals ==> EventDefined(st.events.vals[k], st.tbs.vals, source, target, useRole)
  }

  /** Visiting an event looks textbounds up only by the ids of its
      arguments, so adding textbounds keeps it possible. */
  lemma EventDefinedGrows(e: Event, tbs: map<Id, Textbound>, tbs': map<Id, Textbound>, source: string, target: Target,
                          useRole: bool)
    requires EventDefined(e, tbs, source, target, useRole)
    requires tbs.Keys <= tbs'.Keys
    ensures EventDefined(e, tbs', source, target, useRole)
  {
  }

  /** The visit of event `k` when it can be visited, and no change
      otherwise; under `SwapDefined` every visit of the pass is of the first
      kind (`SwapOverDefined`), as the source, which would raise, needs. */
  function SwapVisit(st: SwapState, k: Id, source: string, target: Target, useRole: bool): (r: SwapState)
  {
    if st.Valid() && k in st.events.vals && EventDefined(st.events.vals[k], st.tbs.vals, source, target, useRole)
    then SwapStep(st, k, source, target, useRole)
    else st
  }

  /** The visit, as the step of a loop over the event ids. */
  function Visitor(source: string, target: Target, useRole: bool): (SwapState, Id) -> SwapState
  {
    (st, k) => SwapVisit(st, k, source, target, useRole)
  }

  /** The pass over the events `keys[..j]`. */
  function SwapOver(st: SwapState, keys: seq<Id>, j: nat, source: string, target: Target, useRole: bool): SwapState
    requires j <= |keys|
  {
    Fold(st, keys, j, Visitor(source, target, useRole))
  }

  /** The pass over no events is the starting state. */
  lemma SwapOverNone(st: SwapState, keys: seq<Id>, source: string, target: Target, useRole: bool)
    ensures SwapOver(st, keys, 0, source, target, useRole) == st
  {
  }

  /** The facts every visit keeps hold across any run of visits. */
  lemma AdvancesTrans(st: SwapState, mid: SwapState, r: SwapState)
    requires Advances(st, mid) && Advances(mid, r)
    ensures Advances(st, r)
  {
  }

  /** The pass over `keys[..j]` keeps the state well formed and keeps the
      facts every visit keeps. */
  lemma {:induction false} SwapOverAdvances(st: SwapState, keys: seq<Id>, j: nat, source: string, target: Target,
                                            useRole: bool)
    requires st.Valid() && j <= |keys|
    ensures SwapOver(st, keys, j, source, target, useRole).Valid()
    ensures Advances(st, SwapOver(st, keys, j, source, target, useRole))
  {
    if j > 0 {
      SwapOverAdvances(st, keys, j - 1, source, target, useRole);
      var r := SwapOver(st, keys, j - 1, source, target, useRole);
      var k := keys[j - 1];
      assert SwapOver(st, keys, j, source, target, useRole) == SwapVisit(r, k, source, target, useRole);
      if k in r.events.vals && EventDefined(r.events.vals[k], r.tbs.vals, source, target, useRole) {
        SwapStepAdvances(r, k, source, target, useRole);
        AdvancesTrans(st, r, SwapStep(r, k, source, target, useRole));
      }
    }
  }

  /** A visit changes no other event. */
  lemma SwapVisitUntouched(r: SwapState, k: Id, x: Id, source: string, target: Target, useRole: bool)
    requires x in r.events.vals && x != k
    ensures x in SwapVisit(r, k, source, target, useRole).events.vals
    ensures SwapVisit(r, k, source, target, useRole).events.vals[x] == r.events.vals[x]
  {
  }

  /** The pass over `keys[..j]` leaves the events at later positions as
      they were. */
  lemma {:induction false} SwapOverUntouched(st0: SwapState, keys: seq<Id>, j: nat, i: nat, source: string,
                                             target: Target, useRole: bool)
    requires j <= i < |keys| && Distinct(keys) && keys[i] in st0.events.vals
    ensures keys[i] in SwapOver(st0, keys, j, source, target, useRole).events.vals
    ensures SwapOver(st0, keys, j, source, target, useRole).events.vals[keys[i]] == st0.events.vals[keys[i]]
  {
    if j > 0 {
      SwapOverUntouched(st0, keys, j - 1, i, source, target, useRole);
      var r := SwapOver(st0, keys, j - 1, source, target, useRole);
      assert SwapOver(st0, keys, j, source, target, useRole) == SwapVisit(r, keys[j - 1], source, target, useRole);
      DistinctNe(keys, i, j - 1);
      SwapVisitUntouched(r, keys[j - 1], keys[i], source, target, useRole);
    }
  }

  /** When every event can be visited, no visit of the pass raises: each
      event is still as it was when its turn comes, so it can be visited,
      and the pass takes the real step there. */
  lemma SwapOverDefined(st0: SwapState, keys: seq<Id>, i: nat, source: string, target: Target, useRole: bool)
    requires st0.Valid() && keys == st0.events.keys && i < |keys|
    requires SwapDefined(st0, source, target, useRole)
    ensures var r := SwapOver(st0, keys, i, source, target, useRole);
      && r.Valid() && keys[i] in r.events.vals
      && EventDefined(r.events.vals[keys[i]], r.tbs.vals, source, target, useRole)
      && SwapOver(st0, keys, i + 1, source, target, useRole) == SwapStep(r, keys[i], source, target, useRole)
  {
    SwapOverUntouched(st0, keys, i, i, source, target, useRole);
    SwapOverAdvances(st0, keys, i, source, target, useRole);
    var r := SwapOver(st0, keys, i, source, target, useRole);
    EventDefinedGrows(st0.events.vals[keys[i]], st0.tbs.vals, r.tbs.vals, source, target, useRole);
    assert SwapOver(st0, keys, i + 1, source, target, useRole) == Visitor(source, target, useRole)(r, keys[i]);
    assert Visitor(source, target, useRole)(r, keys[i]) == SwapVisit(r, keys[i], source, target, useRole);
  }

  /** The deferred deletion: every marked textbound goes, with its
      attribute if it has one, and the counter records both. */
  function Purge(st: SwapState): (r: SwapState)
    requires st.Valid() && st.toRemove <= st.tbs.vals.Keys
    ensures r.Valid()
  {
    st.(tbs := st.tbs.RemoveAll(st.toRemove),
        attrs := st.attrs.RemoveAll(st.toRemove),
        counter := st.counter + Copies(RmTb, |st.toRemove|) + Copies(RmAttr, |st.toRemove * st.attrs.vals.Keys|))
  }

  /** The state before the first event: the next free textbound and
      attribute numbers, nothing marked and an empty counter. */
  function Start(a: Annotations): (st: SwapState)
    requires a.Valid()
    ensures st.Valid()
  {
    SwapState(a.events, a.tbs, a.attrs, NextIndex(RecordIds(a.tbs, TbId)), NextIndex(RecordIds(a.attrs, AttrId)), {}, multiset{})
  }

  /** The whole of `swap_spans`. */
  function SwapSpans(a: Annotations, source: string, target: Target, useRole: bool)
    : (r: (Annotations, multiset<SwapTally>))
    requires a.Valid() && SwapDefined(Start(a), source, target, useRole)
    ensures r.0.Valid()
    ensures r.0.relations == a.relations
  {
    var st := SwapOver(Start(a), a.events.keys, |a.events.keys|, source, target, useRole);
    SwapOverAdvances(Start(a), a.events.keys, |a.events.keys|, source, target, useRole);
    var p := Purge(st);
    (Annotations(p.events, a.relations, p.tbs, p.attrs), p.counter)
  }

  /** The loop over the events in table order, then the deferred deletion. */
  method SwapSpansLoop(a: Annotations, source: string, target: Target, useRole: bool)
    returns (r: Annotations, counter: multiset<SwapTally>)
    requires a.Valid() && SwapDefined(Start(a), source, target, useRole)
    ensures (r, counter) == SwapSpans(a, source, target, useRole)
  {
    var st := FoldLoop(Start(a), a.events.keys, Visitor(source, target, useRole));
    SwapOverAdvances(Start(a), a.events.keys, |a.events.keys|, source, target, useRole);
    st := Purge(st);
    r, counter := Annotations(st.events, a.relations, st.tbs, st.attrs), st.counter;
  }

  /** No textbound id has a number at or past `tbIndex`. */
  predicate Fresh(st: SwapState)
  {
    forall x :: x in st.tbs.vals ==> x.index < st.tbIndex
  }

  /** A rebinding adds exactly one textbound, under a fresh id, with the
      source's type and the target's span; rebinds the role to it in place;
      copies the source's attribute onto it; and marks the source. */
  lemma RebindEffect(st: SwapState, k: Id, role: string, source: Id, target: Id)
    requires st.Valid() && k in st.events.vals && role in st.events.vals[k].arguments.vals
    requires source in st.tbs.vals && target in st.tbs.vals && Fresh(st)
    ensures var e := st.events.vals[k];
      var r := Rebind(st, k, role, source, target);
      var src := st.tbs.vals[source];
      var tgt := st.tbs.vals[target];
      var newId := Id('T', st.tbIndex);
      && newId !in st.tbs.vals
      && r.tbs.keys == st.tbs.keys + [newId]
      && r.tbs.vals == st.tbs.vals[newId := Textbound(newId, src.type_, tgt.start, tgt.end, tgt.text, tgt.tokens)]
      && r.events.vals[k].arguments.keys == e.arguments.keys
      && r.events.vals[k].arguments.vals == e.arguments.vals[role := newId]
      && r.events.vals[k].type_ == e.type_
      && r.toRemove == st.toRemove + {source}
      && r.tbIndex == st.tbIndex + 1
      && (source in st.attrs.vals ==>
            var attr := st.attrs.vals[source];
            && r.attrs.vals == st.attrs.vals[newId := Attribute(Id('A', st.attrIndex), attr.type_, newId, attr.value)]
            && r.attrIndex == st.attrIndex + 1
            && r.counter == st.counter + multiset{NewTb, NewAttr})
      && (source !in st.attrs.vals ==>
            r.attrs == st.attrs && r.attrIndex == st.attrIndex && r.counter == st.counter + multiset{NewTb})
  {
    assert Id('T', st.tbIndex) !in st.tbs.vals;
  }

  /** After the deletion no marked textbound is left, every other one is,
      and `rm_tb` counts the distinct textbounds removed. */
  lemma PurgeEffect(st: SwapState)
    requires st.Valid() && st.toRemove <= st.tbs.vals.Keys
    ensures Purge(st).tbs.vals.Keys == st.tbs.vals.Keys - st.toRemove
    ensures Purge(st).attrs.vals.Keys == st.attrs.vals.Keys - st.toRemove
    ensures Purge(st).counter[RmTb] == st.counter[RmTb] + |st.toRemove|
    ensures Purge(st).events == st.events
  {
  }

  /** Over a whole `swap_spans` call on a document whose textbounds are
      stored under their own ids: the new textbound numbers run on from the
      largest existing one, one per swapped event, as do the new attribute
      numbers; `new_tb` is the number of textbounds added, which is the
      number of swapped events (`SwapCount`); `rm_tb` counts the distinct
      sources deleted, at most one per swapped event. */
  lemma SwapSpansCounts(a: Annotations, source: string, target: Target, useRole: bool)
    requires a.Valid() && SwapDefined(Start(a), source, target, useRole) && KeyedById(a.tbs)
    ensures var st := SwapOver(Start(a), a.events.keys, |a.events.keys|, source, target, useRole);
      var r := SwapSpans(a, source, target, useRole);
      && st.tbIndex == NextIndex(RecordIds(a.tbs, TbId)) + r.1[NewTb]
      && st.attrIndex == NextIndex(RecordIds(a.attrs, AttrId)) + r.1[NewAttr]
      && |st.tbs.keys| == |a.tbs.keys| + r.1[NewTb]
      && r.0.tbs.vals.Keys == st.tbs.vals.Keys - st.toRemove
      && r.1[RmTb] == |st.toRemove| <= r.1[NewTb]
      && r.1[NewTb] == SwapCount(Start(a), a.events.keys, |a.events.keys|, source, target, useRole)
  {
    StartFresh(a);
    assert Initial(Start(a), a.events.keys, source, target, useRole);
    IndexAt(Start(a), a.events.keys, |a.events.keys|, source, target, useRole);
    var st := SwapOver(Start(a), a.events.keys, |a.events.keys|, source, target, useRole);
    SwapOverAdvances(Start(a), a.events.keys, |a.events.keys|, source, target, useRole);
    PassCounts(Start(a), st);
    var p := Purge(st);
    assert SwapSpans(a, source, target, useRole) == (Annotations(p.events, a.relations, p.tbs, p.attrs), p.counter);
  }

  /** Every event keeps its role names, in their order: only the textbound
      a role names changes. */
  lemma SwapSpansKeepsRoles(a: Annotations, source: string, target: Target, useRole: bool)
    requires a.Valid() && SwapDefined(Start(a), source, target, useRole)
    ensures var r := SwapSpans(a, source, target, useRole);
      r.0.events.vals.Keys == a.events.vals.Keys && r.0.events.keys == a.events.keys
      && forall x :: x in a.events.vals ==> r.0.events.vals[x].arguments.keys == a.events.vals[x].arguments.keys
  {
    var st := SwapOver(Start(a), a.events.keys, |a.events.keys|, source, target, useRole);
    SwapOverAdvances(Start(a), a.events.keys, |a.events.keys|, source, target, useRole);
    assert SwapSpans(a, source, target, useRole).0.events == st.events;
  }

  /** The counting argument of `SwapSpansCounts`, for any pass result `st`
      reached from a fresh starting state `st0`. */
  lemma PassCounts(st0: SwapState, st: SwapState)
    requires st.Valid() && st0.Valid() && Fresh(st0) && Advances(st0, st)
    requires st0.counter == multiset{} && st0.toRemove == {}
    ensures var p := Purge(st);
      && st.tbIndex == st0.tbIndex + p.counter[NewTb]
      && st.attrIndex == st0.attrIndex + p.counter[NewAttr]
      && |st.tbs.keys| == |st0.tbs.keys| + p.counter[NewTb]
      && p.tbs.vals.Keys == st.tbs.vals.Keys - st.toRemove
      && p.counter[RmTb] == |st.toRemove| <= p.counter[NewTb]
      && p.events == st.events
  {
    PurgeEffect(st);
    var p := Purge(st);
    assert p.counter[NewTb] == st.counter[NewTb] && p.counter[NewAttr] == st.counter[NewAttr];
    assert st0.counter[NewTb] == 0 && st0.counter[NewAttr] == 0 && st0.counter[RmTb] == 0;
  }

  /** The numbers `Start` picks are past every existing textbound id. */
  lemma StartFresh(a: Annotations)
    requires a.Valid() && KeyedById(a.tbs)
    ensures Fresh(Start(a))
  {
    forall x | x in a.tbs.vals
      ensures x.index < Start(a).tbIndex
    {
      assert a.tbs.vals[x].id == x;
    }
  }

  /** Event `e` is swapped: it can be visited and both its source and its
      target resolve. */
  predicate Swaps(e: Event, tbs: map<Id, Textbound>, source: string, target: Target, useRole: bool)
  {
    && EventDefined(e, tbs, source, target, useRole)
    && var r := Resolve(e, tbs, source, target, useRole);
       r.source.Some? && r.target.Some?
  }

  /** The source textbound of a swapped event. */
  function SourceOf(e: Event, tbs: map<Id, Textbound>, source: string, target: Target, useRole: bool): Id
    requires Swaps(e, tbs, source, target, useRole)
  {
    Resolve(e, tbs, source, target, useRole).source.value
  }

  /** The new textbound a swapped event gets, under id `nid`: the source's
      type with the target's span, text and tokens. */
  function SwapCopy(e: Event, tbs: map<Id, Textbound>, source: string, target: Target, useRole: bool, nid: Id)
    : Textbound
    requires Swaps(e, tbs, source, target, useRole)
  {
    var r := Resolve(e, tbs, source, target, useRole);
    var src := tbs[r.source.value];
    var tgt := tbs[r.target.value];
    Textbound(nid, src.type_, tgt.start, tgt.end, tgt.text, tgt.tokens)
  }

  /** A swapped event, its source role naming `nid` in the same position. */
  function SwappedEvent(e: Event, tbs: map<Id, Textbound>, source: string, target: Target, useRole: bool, nid: Id)
    : Event
    requires Swaps(e, tbs, source, target, useRole)
  {
    var r := Resolve(e, tbs, source, target, useRole);
    e.(arguments := Table(e.arguments.keys, e.arguments.vals[r.role.value := nid]))
  }

  /** The number of swapped events among `keys[..j]`, judged on the events
      and textbounds of `st0`. */
  function SwapCount(st0: SwapState, keys: seq<Id>, j: nat, source: string, target: Target, useRole: bool): nat
    requires j <= |keys|
  {
    if j == 0 then 0
    else SwapCount(st0, keys, j - 1, source, target, useRole) + SwapsAt(st0, keys[j - 1], source, target, useRole)
  }

  /** 1 when event `k` of `st0` is swapped, 0 otherwise. */
  function SwapsAt(st0: SwapState, k: Id, source: string, target: Target, useRole: bool): nat
  {
    if k in st0.events.vals && Swaps(st0.events.vals[k], st0.tbs.vals, source, target, useRole) then 1 else 0
  }

  /** From `st` to `r` every textbound of `st` stays as it was, and so does
      whether it has an attribute and which. */
  predicate Extends(st: SwapState, r: SwapState)
  {
    && (forall x :: x in st.tbs.vals ==> x in r.tbs.vals && r.tbs.vals[x] == st.tbs.vals[x])
    && (forall x :: x in st.tbs.vals ==> (x in r.attrs.vals <==> x in st.attrs.vals))
    && (forall x :: x in st.tbs.vals && x in st.attrs.vals ==> r.attrs.vals[x] == st.attrs.vals[x])
  }

  lemma ExtendsTrans(st: SwapState, mid: SwapState, r: SwapState)
    requires Extends(st, mid) && Extends(mid, r)
    ensures Extends(st, r)
  {
  }

  /** Writing only under an id that is not a textbound keeps every
      textbound and its attribute. */
  lemma ExtendsByPut(st: SwapState, r: SwapState, newId: Id)
    requires newId !in st.tbs.vals && newId in r.tbs.vals
    requires r.tbs.vals == st.tbs.vals[newId := r.tbs.vals[newId]]
    requires r.attrs.vals == st.attrs.vals
             || (newId in r.attrs.vals && r.attrs.vals == st.attrs.vals[newId := r.attrs.vals[newId]])
    ensures Extends(st, r)
  {
  }

  /** A rebinding from a fresh state writes textbounds and attributes only
      under the new id. */
  lemma RebindExtends(st: SwapState, k: Id, role: string, source: Id, target: Id)
    requires st.Valid() && k in st.events.vals && role in st.events.vals[k].arguments.vals
    requires source in st.tbs.vals && target in st.tbs.vals && Fresh(st)
    ensures Extends(st, Rebind(st, k, role, source, target))
  {
    RebindEffect(st, k, role, source, target);
    var r := Rebind(st, k, role, source, target);
    ExtendsByPut(st, r, Id('T', st.tbIndex));
  }

  /** A visit from a fresh state writes only under the new id, so it keeps
      every existing textbound and its attribute. */
  lemma SwapVisitExtends(st: SwapState, k: Id, source: string, target: Target, useRole: bool)
    requires Fresh(st)
    ensures Extends(st, SwapVisit(st, k, source, target, useRole))
  {
    if st.Valid() && k in st.events.vals && EventDefined(st.events.vals[k], st.tbs.vals, source, target, useRole) {
      var res := Resolve(st.events.vals[k], st.tbs.vals, source, target, useRole);
      if res.source.Some? && res.target.Some? {
        RebindExtends(st, k, res.role.value, res.source.value, res.target.value);
      }
    }
  }

  /** Type mode looks only at the textbounds the arguments name, so more
      textbounds change nothing. */
  lemma {:induction false} ResolveByTypeAgree(args: Table<string, Id>, tbs: map<Id, Textbound>,
                                              tbs': map<Id, Textbound>, source: string, target: string, n: nat)
    requires args.Valid() && n <= |args.keys| && ArgsResolve(args, tbs)
    requires forall x :: x in tbs ==> x in tbs' && tbs'[x] == tbs[x]
    ensures ArgsResolve(args, tbs')
    ensures ResolveByType(args, tbs', source, target, n) == ResolveByType(args, tbs, source, target, n)
  {
    if n > 0 {
      ResolveByTypeAgree(args, tbs, tbs', source, target, n - 1);
      assert args.vals[args.keys[n - 1]] in tbs;
    }
  }

  /** Resolving an event gives the same answer once textbounds are added. */
  lemma ResolveAgree(e: Event, tbs: map<Id, Textbound>, tbs': map<Id, Textbound>, source: string, target: Target,
                     useRole: bool)
    requires EventDefined(e, tbs, source, target, useRole)
    requires forall x :: x in tbs ==> x in tbs' && tbs'[x] == tbs[x]
    ensures EventDefined(e, tbs', source, target, useRole)
    ensures Resolve(e, tbs', source, target, useRole) == Resolve(e, tbs, source, target, useRole)
    ensures Swaps(e, tbs', source, target, useRole) == Swaps(e, tbs, source, target, useRole)
  {
    if !useRole {
      ResolveByTypeAgree(e.arguments, tbs, tbs', source, TargetName(e, target), |e.arguments.keys|);
    }
  }

  /** The visit of an event still as it was in `st0`, from a fresh state
      that keeps the textbounds of `st0`: a swapped event gets the copy
      under the next number, its source marked and counted, and the copy
      gets the source's attribute; any other event leaves the state as it
      was. */
  lemma SwapStepFrom(st0: SwapState, r: SwapState, k: Id, source: string, target: Target, useRole: bool)
    requires r.Valid() && Fresh(r) && Extends(st0, r)
    requires k in st0.events.vals && k in r.events.vals && r.events.vals[k] == st0.events.vals[k]
    requires EventDefined(st0.events.vals[k], st0.tbs.vals, source, target, useRole)
    ensures EventDefined(r.events.vals[k], r.tbs.vals, source, target, useRole)
    ensures var e := st0.events.vals[k];
      var s := SwapStep(r, k, source, target, useRole);
      && Extends(r, s)
      && (Swaps(e, st0.tbs.vals, source, target, useRole) ==>
            var nid := Id('T', r.tbIndex);
            var src := SourceOf(e, st0.tbs.vals, source, target, useRole);
            && s.counter[NewTb] == r.counter[NewTb] + 1
            && s.toRemove == r.toRemove + {src}
            && src in st0.tbs.vals
            && nid in s.tbs.vals && s.tbs.vals[nid] == SwapCopy(e, st0.tbs.vals, source, target, useRole, nid)
            && s.events.vals[k] == SwappedEvent(e, st0.tbs.vals, source, target, useRole, nid)
            && (src in st0.attrs.vals ==>
                  nid in s.attrs.vals && s.attrs.vals[nid].textbound == nid
                  && s.attrs.vals[nid].type_ == st0.attrs.vals[src].type_
                  && s.attrs.vals[nid].value == st0.attrs.vals[src].value))
      && (!Swaps(e, st0.tbs.vals, source, target, useRole) ==> s == r)
  {
    var e := st0.events.vals[k];
    ResolveAgree(e, st0.tbs.vals, r.tbs.vals, source, target, useRole);
    var res := Resolve(e, st0.tbs.vals, source, target, useRole);
    if res.source.Some? && res.target.Some? {
      RebindEffect(r, k, res.role.value, res.source.value, res.target.value);
    }
    SwapVisitExtends(r, k, source, target, useRole);
  }

  /** The pass over `keys[..j]` from a fresh state keeps every textbound
      the state had after `keys[..i]`, and its attribute. */
  lemma {:induction false} SwapOverExtends(st0: SwapState, keys: seq<Id>, i: nat, j: nat, source: string,
                                           target: Target, useRole: bool)
    requires st0.Valid() && Fresh(st0) && i <= j <= |keys|
    ensures Extends(SwapOver(st0, keys, i, source, target, useRole), SwapOver(st0, keys, j, source, target, useRole))
  {
    if j > i {
      SwapOverExtends(st0, keys, i, j - 1, source, target, useRole);
      SwapOverAdvances(st0, keys, j - 1, source, target, useRole);
      var r := SwapOver(st0, keys, j - 1, source, target, useRole);
      assert SwapOver(st0, keys, j, source, target, useRole) == SwapVisit(r, keys[j - 1], source, target, useRole);
      SwapVisitExtends(r, keys[j - 1], source, target, useRole);
      ExtendsTrans(SwapOver(st0, keys, i, source, target, useRole), r,
                   SwapOver(st0, keys, j, source, target, useRole));
    }
  }

  /** The state a pass starts from: nothing counted and nothing marked. */
  predicate Initial(st0: SwapState, keys: seq<Id>, source: string, target: Target, useRole: bool)
  {
    && st0.Valid() && keys == st0.events.keys && SwapDefined(st0, source, target, useRole)
    && Fresh(st0) && st0.counter == multiset{} && st0.toRemove == {}
  }

  /** The state after the visits of `keys[..i]` from a fresh state, with
      what the visit of `keys[i]` needs: it is well formed and fresh, it
      keeps every textbound of `st0`, and the event is still as it was. */
  lemma BeforeVisit(st0: SwapState, keys: seq<Id>, i: nat, source: string, target: Target, useRole: bool)
    requires Initial(st0, keys, source, target, useRole) && i < |keys|
    ensures var r := SwapOver(st0, keys, i, source, target, useRole);
      && r.Valid() && Fresh(r) && Extends(st0, r)
      && keys[i] in st0.events.vals && keys[i] in r.events.vals && r.events.vals[keys[i]] == st0.events.vals[keys[i]]
      && EventDefined(st0.events.vals[keys[i]], st0.tbs.vals, source, target, useRole)
      && SwapOver(st0, keys, i + 1, source, target, useRole) == SwapVisit(r, keys[i], source, target, useRole)
  {
    SwapOverExtends(st0, keys, 0, i, source, target, useRole);
    SwapOverNone(st0, keys, source, target, useRole);
    SwapOverAdvances(st0, keys, i, source, target, useRole);
    SwapOverUntouched(st0, keys, i, i, source, target, useRole);
  }

  /** A visit of an event still as it was in `st0` marks only a textbound
      of `st0`. */
  lemma MarkVisit(st0: SwapState, r: SwapState, k: Id, source: string, target: Target, useRole: bool)
    requires r.Valid() && Fresh(r) && Extends(st0, r) && r.toRemove <= st0.tbs.vals.Keys
    requires k in st0.events.vals && k in r.events.vals && r.events.vals[k] == st0.events.vals[k]
    requires EventDefined(st0.events.vals[k], st0.tbs.vals, source, target, useRole)
    ensures SwapVisit(r, k, source, target, useRole).toRemove <= st0.tbs.vals.Keys
  {
    SwapStepFrom(st0, r, k, source, target, useRole);
  }

  /** A visit of an event still as it was in `st0` adds one to `new_tb`
      exactly when the event is swapped. */
  lemma CountVisit(st0: SwapState, r: SwapState, k: Id, source: string, target: Target, useRole: bool)
    requires r.Valid() && Fresh(r) && Extends(st0, r)
    requires k in st0.events.vals && k in r.events.vals && r.events.vals[k] == st0.events.vals[k]
    requires EventDefined(st0.events.vals[k], st0.tbs.vals, source, target, useRole)
    ensures SwapVisit(r, k, source, target, useRole).counter[NewTb]
         == r.counter[NewTb] + if Swaps(st0.events.vals[k], st0.tbs.vals, source, target, useRole) then 1 else 0
  {
    SwapStepFrom(st0, r, k, source, target, useRole);
  }

  /** Over the pass from a fresh state only textbounds of the starting
      state are marked. */
  lemma {:induction false} SwapOverMarks(st0: SwapState, keys: seq<Id>, j: nat, source: string, target: Target,
                                         useRole: bool)
    requires Initial(st0, keys, source, target, useRole) && j <= |keys|
    ensures SwapOver(st0, keys, j, source, target, useRole).toRemove <= st0.tbs.vals.Keys
  {
    if j > 0 {
      var i := j - 1;
      SwapOverMarks(st0, keys, i, source, target, useRole);
      BeforeVisit(st0, keys, i, source, target, useRole);
      MarkVisit(st0, SwapOver(st0, keys, i, source, target, useRole), keys[i], source, target, useRole);
    }
  }

  /** The visit at position `i` adds one to `new_tb` exactly when that
      event is swapped. */
  lemma VisitCounts(st0: SwapState, keys: seq<Id>, i: nat, source: string, target: Target, useRole: bool)
    requires Initial(st0, keys, source, target, useRole) && i < |keys|
    ensures SwapOver(st0, keys, i + 1, source, target, useRole).counter[NewTb]
         == SwapOver(st0, keys, i, source, target, useRole).counter[NewTb] + SwapsAt(st0, keys[i], source, target, useRole)
  {
    BeforeVisit(st0, keys, i, source, target, useRole);
    CountVisit(st0, SwapOver(st0, keys, i, source, target, useRole), keys[i], source, target, useRole);
  }

  /** `new_tb` after the visits of `keys[..k]`, position by position. */
  function NewTbCounts(st0: SwapState, keys: seq<Id>, source: string, target: Target, useRole: bool): (c: seq<int>)
    ensures |c| == |keys| + 1
  {
    seq(|keys| + 1, k requires 0 <= k <= |keys| => SwapOver(st0, keys, k, source, target, useRole).counter[NewTb])
  }

  /** `SwapCount` of `keys[..k]`, position by position. */
  function SwapCounts(st0: SwapState, keys: seq<Id>, source: string, target: Target, useRole: bool): (c: seq<int>)
    ensures |c| == |keys| + 1
  {
    seq(|keys| + 1, k requires 0 <= k <= |keys| => SwapCount(st0, keys, k, source, target, useRole) as int)
  }

  /** Whether each position's event is swapped, as 1 or 0. */
  function SwapsEach(st0: SwapState, keys: seq<Id>, source: string, target: Target, useRole: bool): (c: seq<int>)
    ensures |c| == |keys|
  {
    seq(|keys|, k requires 0 <= k < |keys| => SwapsAt(st0, keys[k], source, target, useRole) as int)
  }

  /** Each visit of the pass adds its `SwapsAt` to `new_tb`. */
  lemma NewTbSteps(st0: SwapState, keys: seq<Id>, source: string, target: Target, useRole: bool)
    requires Initial(st0, keys, source, target, useRole)
    ensures var f, d := NewTbCounts(st0, keys, source, target, useRole), SwapsEach(st0, keys, source, target, useRole);
      forall k :: 0 <= k < |d| ==> f[k + 1] == f[k] + d[k]
  {
    forall k | 0 <= k < |keys|
      ensures SwapOver(st0, keys, k + 1, source, target, useRole).counter[NewTb]
           == SwapOver(st0, keys, k, source, target, useRole).counter[NewTb] + SwapsAt(st0, keys[k], source, target, useRole)
    {
      VisitCounts(st0, keys, k, source, target, useRole);
    }
  }

  /** Each position adds its `SwapsAt` to `SwapCount`. */
  lemma SwapCountSteps(st0: SwapState, keys: seq<Id>, source: string, target: Target, useRole: bool)
    ensures var g, d := SwapCounts(st0, keys, source, target, useRole), SwapsEach(st0, keys, source, target, useRole);
      forall k :: 0 <= k < |d| ==> g[k + 1] == g[k] + d[k]
  {
    forall k | 0 <= k < |keys|
      ensures SwapCount(st0, keys, k + 1, source, target, useRole)
           == SwapCount(st0, keys, k, source, target, useRole) + SwapsAt(st0, keys[k], source, target, useRole)
    {
      SwapCountStep(st0, keys, k, source, target, useRole);
    }
  }

  /** Over the pass from a fresh state, `new_tb` counts the swapped events
      so far. */
  lemma SwapOverCount(st0: SwapState, keys: seq<Id>, j: nat, source: string, target: Target, useRole: bool)
    requires Initial(st0, keys, source, target, useRole) && j <= |keys|
    ensures SwapOver(st0, keys, j, source, target, useRole).counter[NewTb] == SwapCount(st0, keys, j, source, target, useRole)
  {
    var f := NewTbCounts(st0, keys, source, target, useRole);
    var g := SwapCounts(st0, keys, source, target, useRole);
    NewTbSteps(st0, keys, source, target, useRole);
    SwapCountSteps(st0, keys, source, target, useRole);
    SwapOverNone(st0, keys, source, target, useRole);
    SameRunningTotals(f, g, SwapsEach(st0, keys, source, target, useRole), j);
    assert f[j] == SwapOver(st0, keys, j, source, target, useRole).counter[NewTb];
  }

  /** One more position adds one to the count when its event is swapped. */
  lemma SwapCountStep(st0: SwapState, keys: seq<Id>, i: nat, source: string, target: Target, useRole: bool)
    requires i < |keys|
    ensures SwapCount(st0, keys, i + 1, source, target, useRole)
         == SwapCount(st0, keys, i, source, target, useRole) + SwapsAt(st0, keys[i], source, target, useRole)
  {
  }

  /** In the tables `events`, `tbs` and `attrs`, the event stored under
      `k`, which is `e` swapped against the textbounds `tbs0`, names the new
      textbound `nid` in its source role; `nid` holds `SwapCopy` and carries
      a copy of the source's attribute in `attrs0` when there is one. */
  predicate SwappedIn(events: map<Id, Event>, tbs: map<Id, Textbound>, attrs: map<Id, Attribute>, k: Id, e: Event,
                      tbs0: map<Id, Textbound>, attrs0: map<Id, Attribute>, nid: Id, source: string, target: Target,
                      useRole: bool)
    requires Swaps(e, tbs0, source, target, useRole)
  {
    var src := SourceOf(e, tbs0, source, target, useRole);
    && k in events && events[k] == SwappedEvent(e, tbs0, source, target, useRole, nid)
    && nid in tbs && tbs[nid] == SwapCopy(e, tbs0, source, target, useRole, nid)
    && (src in attrs0 ==>
          && nid in attrs && attrs[nid].textbound == nid
          && attrs[nid].type_ == attrs0[src].type_ && attrs[nid].value == attrs0[src].value)
  }

  /** `SwappedIn` for the tables of a state. */
  predicate SwappedInState(s: SwapState, k: Id, e: Event, st0: SwapState, nid: Id, source: string, target: Target,
                           useRole: bool)
    requires Swaps(e, st0.tbs.vals, source, target, useRole)
  {
    SwappedIn(s.events.vals, s.tbs.vals, s.attrs.vals, k, e, st0.tbs.vals, st0.attrs.vals, nid, source, target, useRole)
  }

  /** The visit of a swapped event still as it was in `st0` leaves it
      `SwappedIn` under the next textbound number. */
  lemma SwappedVisit(st0: SwapState, r: SwapState, k: Id, source: string, target: Target, useRole: bool)
    requires r.Valid() && Fresh(r) && Extends(st0, r)
    requires k in st0.events.vals && k in r.events.vals && r.events.vals[k] == st0.events.vals[k]
    requires EventDefined(st0.events.vals[k], st0.tbs.vals, source, target, useRole)
    requires Swaps(st0.events.vals[k], st0.tbs.vals, source, target, useRole)
    ensures SwappedInState(SwapVisit(r, k, source, target, useRole), k, st0.events.vals[k], st0, Id('T', r.tbIndex),
                           source, target, useRole)
  {
    SwapStepFrom(st0, r, k, source, target, useRole);
  }

  /** The visit of an event that is not swapped leaves it as it was. */
  lemma UnswappedVisit(st0: SwapState, r: SwapState, k: Id, source: string, target: Target, useRole: bool)
    requires r.Valid() && Fresh(r) && Extends(st0, r)
    requires k in st0.events.vals && k in r.events.vals && r.events.vals[k] == st0.events.vals[k]
    requires EventDefined(st0.events.vals[k], st0.tbs.vals, source, target, useRole)
    requires !Swaps(st0.events.vals[k], st0.tbs.vals, source, target, useRole)
    ensures k in SwapVisit(r, k, source, target, useRole).events.vals
    ensures SwapVisit(r, k, source, target, useRole).events.vals[k] == st0.events.vals[k]
  {
    SwapStepFrom(st0, r, k, source, target, useRole);
  }

  /** After the visits of `keys[..i]` the next textbound number is the
      starting one plus the swaps so far. */
  lemma IndexAt(st0: SwapState, keys: seq<Id>, i: nat, source: string, target: Target, useRole: bool)
    requires Initial(st0, keys, source, target, useRole) && i <= |keys|
    ensures SwapOver(st0, keys, i, source, target, useRole).tbIndex
         == st0.tbIndex + SwapCount(st0, keys, i, source, target, useRole)
  {
    SwapOverAdvances(st0, keys, i, source, target, useRole);
    SwapOverCount(st0, keys, i, source, target, useRole);
  }

  /** The visit at position `i`: a swapped event is left `SwappedIn` under
      the textbound number after the swaps so far; any other event is left
      as it was. */
  lemma VisitEffect(st0: SwapState, keys: seq<Id>, i: nat, source: string, target: Target, useRole: bool)
    requires Initial(st0, keys, source, target, useRole) && i < |keys|
    ensures keys[i] in st0.events.vals
    ensures var s := SwapOver(st0, keys, i + 1, source, target, useRole);
      var e := st0.events.vals[keys[i]];
      && (Swaps(e, st0.tbs.vals, source, target, useRole) ==>
            SwappedInState(s, keys[i], e, st0,
                           Id('T', st0.tbIndex + SwapCount(st0, keys, i, source, target, useRole)), source, target,
                           useRole))
      && (!Swaps(e, st0.tbs.vals, source, target, useRole) ==>
            keys[i] in s.events.vals && s.events.vals[keys[i]] == e)
  {
    BeforeVisit(st0, keys, i, source, target, useRole);
    IndexAt(st0, keys, i, source, target, useRole);
    var r := SwapOver(st0, keys, i, source, target, useRole);
    if Swaps(st0.events.vals[keys[i]], st0.tbs.vals, source, target, useRole) {
      SwappedVisit(st0, r, keys[i], source, target, useRole);
      var nid := Id('T', st0.tbIndex + SwapCount(st0, keys, i, source, target, useRole));
      assert Id('T', r.tbIndex) == nid;
      assert SwapOver(st0, keys, i + 1, source, target, useRole) == SwapVisit(r, keys[i], source, target, useRole);
    } else {
      UnswappedVisit(st0, r, keys[i], source, target, useRole);
    }
  }

  /** A later state that extends `s` and still holds the same event under
      `k` keeps it `SwappedInState`. */
  lemma SwappedKept(s: SwapState, s': SwapState, k: Id, e: Event, st0: SwapState, nid: Id, source: string,
                    target: Target, useRole: bool)
    requires Swaps(e, st0.tbs.vals, source, target, useRole)
    requires SwappedInState(s, k, e, st0, nid, source, target, useRole) && Extends(s, s')
    requires k in s'.events.vals && s'.events.vals[k] == s.events.vals[k]
    ensures SwappedInState(s', k, e, st0, nid, source, target, useRole)
  {
  }

  /** The visits after position `i` leave the event at position `i` as
      that visit left it. */
  lemma {:induction false} EventKept(st0: SwapState, keys: seq<Id>, i: nat, j: nat, source: string, target: Target,
                                     useRole: bool)
    requires Distinct(keys) && i < j <= |keys|
    requires keys[i] in SwapOver(st0, keys, i + 1, source, target, useRole).events.vals
    ensures keys[i] in SwapOver(st0, keys, j, source, target, useRole).events.vals
    ensures SwapOver(st0, keys, j, source, target, useRole).events.vals[keys[i]]
         == SwapOver(st0, keys, i + 1, source, target, useRole).events.vals[keys[i]]
  {
    if j > i + 1 {
      var m := j - 1;
      EventKept(st0, keys, i, m, source, target, useRole);
      var r := SwapOver(st0, keys, m, source, target, useRole);
      assert SwapOver(st0, keys, j, source, target, useRole) == SwapVisit(r, keys[m], source, target, useRole);
      DistinctNe(keys, i, m);
      SwapVisitUntouched(r, keys[m], keys[i], source, target, useRole);
    }
  }

  /** After the whole pass, a swapped event at position `i` is as its own
      visit left it: `SwappedInState` under the textbound number after the
      swaps before it. */
  lemma PassSwapped(st0: SwapState, keys: seq<Id>, i: nat, source: string, target: Target, useRole: bool)
    requires Initial(st0, keys, source, target, useRole) && i < |keys| && keys[i] in st0.events.vals
    requires Swaps(st0.events.vals[keys[i]], st0.tbs.vals, source, target, useRole)
    ensures SwappedInState(SwapOver(st0, keys, |keys|, source, target, useRole), keys[i], st0.events.vals[keys[i]], st0,
                           Id('T', st0.tbIndex + SwapCount(st0, keys, i, source, target, useRole)), source, target,
                           useRole)
  {
    var nid := Id('T', st0.tbIndex + SwapCount(st0, keys, i, source, target, useRole));
    var s := SwapOver(st0, keys, i + 1, source, target, useRole);
    var s' := SwapOver(st0, keys, |keys|, source, target, useRole);
    VisitEffect(st0, keys, i, source, target, useRole);
    LaterVisits(st0, keys, i, source, target, useRole);
    SwappedKept(s, s', keys[i], st0.events.vals[keys[i]], st0, nid, source, target, useRole);
  }

  /** The visits after position `i` keep what the state held after it, and
      leave the event at position `i` alone. */
  lemma LaterVisits(st0: SwapState, keys: seq<Id>, i: nat, source: string, target: Target, useRole: bool)
    requires Initial(st0, keys, source, target, useRole) && i < |keys|
    ensures var s := SwapOver(st0, keys, i + 1, source, target, useRole);
      var s' := SwapOver(st0, keys, |keys|, source, target, useRole);
      && Extends(s, s') && keys[i] in s.events.vals && keys[i] in s'.events.vals
      && s'.events.vals[keys[i]] == s.events.vals[keys[i]]
  {
    SwapOverAdvances(st0, keys, i + 1, source, target, useRole);
    EventKept(st0, keys, i, |keys|, source, target, useRole);
    SwapOverExtends(st0, keys, i + 1, |keys|, source, target, useRole);
  }

  /** After the whole pass, an event that is not swapped is as it was. */
  lemma PassUnswapped(st0: SwapState, keys: seq<Id>, i: nat, source: string, target: Target, useRole: bool)
    requires Initial(st0, keys, source, target, useRole) && i < |keys| && keys[i] in st0.events.vals
    requires !Swaps(st0.events.vals[keys[i]], st0.tbs.vals, source, target, useRole)
    ensures keys[i] in SwapOver(st0, keys, |keys|, source, target, useRole).events.vals
    ensures SwapOver(st0, keys, |keys|, source, target, useRole).events.vals[keys[i]] == st0.events.vals[keys[i]]
  {
    VisitEffect(st0, keys, i, source, target, useRole);
    LaterVisits(st0, keys, i, source, target, useRole);
  }

  /** The deferred deletion keeps a swapped event's new textbound when it is
      not marked. */
  lemma SwappedPurged(st: SwapState, k: Id, e: Event, st0: SwapState, nid: Id, source: string, target: Target,
                      useRole: bool)
    requires st.Valid() && st.toRemove <= st.tbs.vals.Keys && nid !in st.toRemove
    requires Swaps(e, st0.tbs.vals, source, target, useRole)
    requires SwappedInState(st, k, e, st0, nid, source, target, useRole)
    ensures SwappedInState(Purge(st), k, e, st0, nid, source, target, useRole)
  {
  }

  /** Over a whole `swap_spans` call on a document whose textbounds are
      stored under their own ids, the event at position `i` of the event
      table, when its source and target both resolve: its source role now
      names a new textbound, which survives the deletion, numbered after
      the largest existing textbound number plus the swaps before it, with
      the source's type, the target's span, text and tokens, and a copy of
      the source's attribute. */
  lemma SwapSpansSwapped(a: Annotations, source: string, target: Target, useRole: bool, i: nat)
    requires a.Valid() && SwapDefined(Start(a), source, target, useRole) && KeyedById(a.tbs)
    requires i < |a.events.keys| && a.events.keys[i] in a.events.vals
    requires Swaps(a.events.vals[a.events.keys[i]], a.tbs.vals, source, target, useRole)
    ensures var r := SwapSpans(a, source, target, useRole).0;
      SwappedIn(r.events.vals, r.tbs.vals, r.attrs.vals, a.events.keys[i], a.events.vals[a.events.keys[i]],
                a.tbs.vals, a.attrs.vals,
                Id('T', NextIndex(RecordIds(a.tbs, TbId)) + SwapCount(Start(a), a.events.keys, i, source, target, useRole)),
                source, target, useRole)
  {
    var st0, keys := Start(a), a.events.keys;
    StartFresh(a);
    assert Initial(st0, keys, source, target, useRole);
    var st := SwapOver(st0, keys, |keys|, source, target, useRole);
    SwapOverAdvances(st0, keys, |keys|, source, target, useRole);
    SwapOverMarks(st0, keys, |keys|, source, target, useRole);
    var p := Purge(st);
    var r := SwapSpans(a, source, target, useRole).0;
    assert r == Annotations(p.events, a.relations, p.tbs, p.attrs);
    var e := a.events.vals[keys[i]];
    assert st0.events.vals[keys[i]] == e && st0.tbs == a.tbs;
    PurgeSwapped(st0, keys, i, source, target, useRole);
    var nid := Id('T', st0.tbIndex + SwapCount(st0, keys, i, source, target, useRole));
    var nid' := Id('T', NextIndex(RecordIds(a.tbs, TbId)) + SwapCount(Start(a), a.events.keys, i, source, target, useRole));
    assert st0.tbIndex == NextIndex(RecordIds(a.tbs, TbId));
    assert nid' == nid;
  }

  /** Over a whole `swap_spans` call, every event whose source or target
      does not resolve is left as it was. */
  lemma SwapSpansUnswapped(a: Annotations, source: string, target: Target, useRole: bool, i: nat)
    requires a.Valid() && SwapDefined(Start(a), source, target, useRole) && KeyedById(a.tbs)
    requires i < |a.events.keys| && a.events.keys[i] in a.events.vals
    requires !Swaps(a.events.vals[a.events.keys[i]], a.tbs.vals, source, target, useRole)
    ensures var r := SwapSpans(a, source, target, useRole).0;
      a.events.keys[i] in r.events.vals && r.events.vals[a.events.keys[i]] == a.events.vals[a.events.keys[i]]
  {
    StartFresh(a);
    assert Initial(Start(a), a.events.keys, source, target, useRole);
    SwapOverAdvances(Start(a), a.events.keys, |a.events.keys|, source, target, useRole);
    SwapOverMarks(Start(a), a.events.keys, |a.events.keys|, source, target, useRole);
    PassUnswapped(Start(a), a.events.keys, i, source, target, useRole);
  }

  /** After the pass and the deletion, a swapped event at position `i` is
      still `SwappedInState`: its new textbound is not among the marked
      ones, which all come from the starting state. */
  lemma PurgeSwapped(st0: SwapState, keys: seq<Id>, i: nat, source: string, target: Target, useRole: bool)
    requires Initial(st0, keys, source, target, useRole) && i < |keys| && keys[i] in st0.events.vals
    requires Swaps(st0.events.vals[keys[i]], st0.tbs.vals, source, target, useRole)
    ensures var st := SwapOver(st0, keys, |keys|, source, target, useRole);
      && st.Valid() && st.toRemove <= st.tbs.vals.Keys
      && SwappedInState(Purge(st), keys[i], st0.events.vals[keys[i]], st0,
                        Id('T', st0.tbIndex + SwapCount(st0, keys, i, source, target, useRole)), source, target,
                        useRole)
  {
    var st := SwapOver(st0, keys, |keys|, source, target, useRole);
    var nid := Id('T', st0.tbIndex + SwapCount(st0, keys, i, source, target, useRole));
    SwapOverAdvances(st0, keys, |keys|, source, target, useRole);
    SwapOverMarks(st0, keys, |keys|, source, target, useRole);
    PassSwapped(st0, keys, i, source, target, useRole);
    assert nid !in st0.tbs.vals;
    SwappedPurged(st, keys[i], st0.events.vals[keys[i]], st0, nid, source, target, useRole);
  }
}

=== FILE: tables.dfy ===
/** Insertion-ordered dictionaries, the shape every annotation table and
    every event's argument mapping has in the modelled code. */
module Tables {

  /** A dictionary that remembers insertion order: `keys` lists the keys in
      the order they were first inserted, `vals` gives each key's value. */
  datatype Table<K(==,!new), V> = Table(keys: seq<K>, vals: map<K, V>)
  {
    /** The keys are distinct and are exactly the keys of the map. */
    predicate Valid()
    {
      && Distinct(keys)
      && (forall k :: k in vals ==> k in keys)
      && (forall i :: 0 <= i < |keys| ==> keys[i] in vals)
    }

    /** `d[k] = v`: an existing key keeps its position, a new key goes last. */
    function Put(k: K, v: V): (t: Table<K, V>)
      requires Valid()
      ensures t.Valid()
      ensures t.vals == vals[k := v]
      ensures k in vals ==> t.keys == keys
      ensures k !in vals ==> t.keys == keys + [k]
    {
      if k in vals then Table(keys, vals[k := v])
      else
        DistinctSnoc(keys, k);
        Table(keys + [k], vals[k := v])
    }

    /** `del d[k]` for every `k` in `gone` that is present. */
    function RemoveAll(gone: set<K>): (t: Table<K, V>)
      requires Valid()
      ensures t.Valid()
      ensures t.vals.Keys == vals.Keys - gone
      ensures forall k :: k in t.vals ==> t.vals[k] == vals[k]
    {
      FilterOutKeepsDistinct(keys, gone);
      var ks := FilterOut(keys, gone);
      assert forall i :: 0 <= i < |ks| ==> ks[i] in ks;
      Table(FilterOut(keys, gone), vals - gone)
    }
  }

  /** A `Put` that adds a key leaves every earlier position as it was and
      puts the new key last. */
  lemma PutAt<K(!new), V>(t: Table<K, V>, k: K, v: V, i: nat)
    requires t.Valid() && |t.Put(k, v).keys| > |t.keys| && i <= |t.keys|
    ensures var t' := t.Put(k, v);
      && i < |t'.keys| && t'.keys[i] in t'.vals
      && t'.keys[i] == (if i < |t.keys| then t.keys[i] else k)
      && t'.vals[t'.keys[i]] == (if i < |t.keys| then t.vals[t.keys[i]] else v)
  {
    if i < |t.keys| {
      assert t.keys[i] != k;
    }
  }

  /** The position of a present key in the insertion order. */
  lemma KeyAt<K(!new), V>(t: Table<K, V>, k: K) returns (p: nat)
    requires t.Valid() && k in t.vals
    ensures p < |t.keys| && t.keys[p] == k
  {
    p :| p < |t.keys| && t.keys[p] == k;
  }

  /** `n` copies of `t`, as a counter: `counter[t] += n` on an empty one. */
  function Copies<T(!new)>(t: T, n: nat): (c: multiset<T>)
    ensures c[t] == n
    ensures forall u :: u != t ==> c[u] == 0
  {
    multiset{}[t := n]
  }

  /** One more copy is one more occurrence. */
  lemma CopiesSucc<T(!new)>(t: T, n: nat)
    ensures Copies(t, n + 1) == Copies(t, n) + multiset{t}
  {
  }

  /** Empty table. */
  function Empty<K(==,!new), V>(): (t: Table<K, V>)
    ensures t.Valid() && t.keys == []
  {
    Table([], map[])
  }

  /** Positions `i` and `j` of `s` hold different elements. */
  predicate Differ<K(==)>(s: seq<K>, i: int, j: int)
    requires 0 <= i < |s| && 0 <= j < |s|
  {
    s[i] != s[j]
  }

  /** No element occurs twice. */
  predicate Distinct<K(==,!new)>(s: seq<K>)
  {
    forall i, j :: 0 <= i < j < |s| ==> Differ(s, i, j)
  }

  /** Different positions of a distinct sequence hold different elements. */
  lemma DistinctNe<K(!new)>(s: seq<K>, i: int, j: int)
    requires Distinct(s) && 0 <= i < |s| && 0 <= j < |s| && i != j
    ensures s[i] != s[j]
  {
    if i < j {
      assert Differ(s, i, j);
    } else {
      assert Differ(s, j, i);
    }
  }

  /** An element of a distinct sequence does not occur before its position. */
  lemma DistinctNotBefore<K(!new)>(s: seq<K>, i: int)
    requires Distinct(s) && 0 <= i < |s|
    ensures s[i] !in s[..i]
  {
    forall j | 0 <= j < i
      ensures s[..i][j] != s[i]
    {
      assert Differ(s, j, i);
    }
  }

  /** A prefix of a distinct sequence is distinct. */
  lemma DistinctPrefix<K(!new)>(s: seq<K>, n: int)
    requires Distinct(s) && 0 <= n <= |s|
    ensures Distinct(s[..n])
  {
    forall i, j | 0 <= i < j < n
      ensures Differ(s[..n], i, j)
    {
      assert Differ(s, i, j);
    }
  }

  /** Dropping the head of a distinct sequence leaves a distinct sequence
      without the head. */
  lemma DistinctTail<K(!new)>(s: seq<K>)
    requires Distinct(s) && s != []
    ensures Distinct(s[1..]) && s[0] !in s[1..]
  {
    forall i, j | 0 <= i < j < |s| - 1
      ensures Differ(s[1..], i, j)
    {
      assert Differ(s, i + 1, j + 1);
    }
    forall j | 0 <= j < |s| - 1
      ensures s[1..][j] != s[0]
    {
      assert Differ(s, 0, j + 1);
    }
  }

  /** Appending a new element keeps a sequence distinct. */
  lemma DistinctSnoc<K(!new)>(s: seq<K>, x: K)
    requires Distinct(s) && x !in s
    ensures Distinct(s + [x])
  {
    forall i, j | 0 <= i < j < |s| + 1
      ensures Differ(s + [x], i, j)
    {
      if j < |s| {
        assert Differ(s, i, j);
      } else {
        assert s[i] in s;
      }
    }
  }

  /** Prepending a new element keeps a sequence distinct. */
  lemma DistinctCons<K(!new)>(x: K, s: seq<K>)
    requires Distinct(s) && x !in s
    ensures Distinct([x] + s)
  {
    forall i, j | 0 <= i < j < |s| + 1
      ensures Differ([x] + s, i, j)
    {
      if 0 < i {
        assert Differ(s, i - 1, j - 1);
      } else {
        assert s[j - 1] in s;
      }
    }
  }

  /** The elements of `s` that are not in `gone`, in their order. */
  function FilterOut<K(==,!new)>(s: seq<K>, gone: set<K>): (r: seq<K>)
    ensures forall x :: x in r <==> x in s && x !in gone
    ensures |r| <= |s|
  {
    if s == [] then []
    else if s[0] in gone then FilterOut(s[1..], gone)
    else [s[0]] + FilterOut(s[1..], gone)
  }

  lemma {:induction false} FilterOutKeepsDistinct<K(!new)>(s: seq<K>, gone: set<K>)
    requires Distinct(s)
    ensures Distinct(FilterOut(s, gone))
  {
    if s != [] {
      DistinctTail(s);
      FilterOutKeepsDistinct(s[1..], gone);
      if s[0] !in gone {
        DistinctCons(s[0], FilterOut(s[1..], gone));
      }
    }
  }

  /** Filtering twice is filtering once by the union: deleting keys one at a
      time, in any order, gives the same table as deleting them all. */
  lemma {:induction false} FilterOutTwice<K(!new)>(s: seq<K>, a: set<K>, b: set<K>)
    ensures FilterOut(FilterOut(s, a), b) == FilterOut(s, a + b)
  {
    if s != [] {
      FilterOutTwice(s[1..], a, b);
    }
  }

  /** Deleting one more key from a table from which a set has been deleted. */
  lemma RemoveAllStep<K(!new), V>(t: Table<K, V>, gone: set<K>, x: K)
    requires t.Valid()
    ensures t.RemoveAll(gone).RemoveAll({x}) == t.RemoveAll(gone + {x})
  {
    FilterOutTwice(t.keys, gone, {x});
  }

  /** A sequence without repeats has as many elements as its set. */
  lemma {:induction false} DistinctCardinality<K(!new)>(s: seq<K>)
    requires Distinct(s)
    ensures |set x | x in s| == |s|
  {
    if s != [] {
      var last := |s| - 1;
      DistinctPrefix(s, last);
      DistinctNotBefore(s, last);
      DistinctCardinality(s[..last]);
      assert (set x | x in s) == (set x | x in s[..last]) + {s[last]};
      assert s[last] !in s[..last];
    }
  }

  /** A table holding `n` keys has `n` map entries. */
  lemma SizeOfValid<K(!new), V>(t: Table<K, V>)
    requires t.Valid()
    ensures |t.vals| == |t.keys|
  {
    DistinctCardinality(t.keys);
    assert t.vals.Keys == set x | x in t.keys;
  }

  /** Filtering distributes over appending one element. */
  lemma {:induction false} FilterOutSnoc<K(!new)>(s: seq<K>, x: K, gone: set<K>)
    ensures FilterOut(s + [x], gone) == FilterOut(s, gone) + (if x in gone then [] else [x])
  {
    if s == [] {
      assert s + [x] == [x];
    } else {
      assert (s + [x])[1..] == s[1..] + [x];
      FilterOutSnoc(s[1..], x, gone);
    }
  }

  /** Filtering out nothing keeps the sequence. */
  lemma {:induction false} FilterOutNothing<K(!new)>(s: seq<K>)
    ensures FilterOut(s, {}) == s
  {
    if s != [] {
      FilterOutNothing(s[1..]);
    }
  }

  /** A first element that is not filtered out stays first. */
  lemma FilterOutHead<K(!new)>(s: seq<K>, gone: set<K>)
    requires s != [] && s[0] !in gone
    ensures FilterOut(s, gone) != [] && FilterOut(s, gone)[0] == s[0]
  {
  }

  /** The elements of a sequence, as a set. */
  function Elems<K(!new)>(s: seq<K>): (r: set<K>)
    ensures forall x :: x in r <==> x in s
  {
    set x | x in s
  }

  lemma ElemsSnoc<K(!new)>(s: seq<K>, x: K)
    ensures Elems(s + [x]) == Elems(s) + {x}
  {
  }

  /** The union of `tally` over the entries of `cur` that `keys[..j]` names. */
  function TallyOver<K(==), V, T>(keys: seq<K>, j: nat, cur: map<K, V>, tally: V -> multiset<T>): multiset<T>
    requires j <= |keys|
    requires forall x :: 0 <= x < |keys| ==> keys[x] in cur
  {
    if j == 0 then multiset{}
    else TallyOver(keys, j - 1, cur, tally) + tally(cur[keys[j - 1]])
  }

  /** A loop over the entries in the order of `keys` that replaces each
      entry by `visit` of it and tallies each entry as it was before. */
  method VisitEach<K(==,!new), V, T>(cur: map<K, V>, keys: seq<K>, visit: V -> V, tally: V -> multiset<T>)
    returns (m': map<K, V>, c: multiset<T>)
    requires Distinct(keys)
    requires forall k :: k in cur ==> k in keys
    requires forall x :: 0 <= x < |keys| ==> keys[x] in cur
    ensures m' == map k | k in cur :: visit(cur[k])
    ensures c == TallyOver(keys, |keys|, cur, tally)
  {
    ghost var next := map k | k in cur :: visit(cur[k]);
    m', c := cur, multiset{};
    var j := 0;
    while j < |keys|
      invariant 0 <= j <= |keys|
      invariant m'.Keys == cur.Keys
      invariant forall x :: 0 <= x < |keys| ==> m'[keys[x]] == if x < j then next[keys[x]] else cur[keys[x]]
      invariant c == TallyOver(keys, j, cur, tally)
    {
      var k := keys[j];
      var entry := m'[k];
      c := c + tally(entry);
      UpdateAt(m', keys, j, visit(entry), next, cur);
      m' := m'[k := visit(entry)];
      j := j + 1;
    }
    SameAt(m', next, keys);
  }

  /** Setting the entry of `keys[j]` to its `next` value extends, by one
      position, the prefix of `keys` whose entries come from `next`. */
  lemma UpdateAt<K(!new), V>(m: map<K, V>, keys: seq<K>, j: nat, v: V, next: map<K, V>, cur: map<K, V>)
    requires Distinct(keys) && j < |keys|
    requires forall x :: 0 <= x < |keys| ==> keys[x] in m && keys[x] in next && keys[x] in cur
    requires forall x :: 0 <= x < |keys| ==> m[keys[x]] == if x < j then next[keys[x]] else cur[keys[x]]
    requires v == next[keys[j]]
    ensures forall x :: 0 <= x < |keys| ==>
      m[keys[j] := v][keys[x]] == if x < j + 1 then next[keys[x]] else cur[keys[x]]
  {
    forall x | 0 <= x < |keys|
      ensures m[keys[j] := v][keys[x]] == if x < j + 1 then next[keys[x]] else cur[keys[x]]
    {
      if x != j {
        DistinctNe(keys, x, j);
      }
    }
  }

  /** Two maps over the same keys that agree at every position of `keys`,
      which names them all, are equal. */
  lemma SameAt<K(!new), V>(m: map<K, V>, next: map<K, V>, keys: seq<K>)
    requires m.Keys == next.Keys
    requires forall k :: k in m ==> k in keys
    requires forall x :: 0 <= x < |keys| ==> keys[x] in m && m[keys[x]] == next[keys[x]]
    ensures m == next
  {
    forall k | k in m ensures m[k] == next[k] {
      var x :| 0 <= x < |keys| && keys[x] == k;
    }
  }

  /** Two maps over the same keys that agree at every key are equal. */
  lemma SameEverywhere<K(!new), V>(m: map<K, V>, next: map<K, V>)
    requires m.Keys == next.Keys
    requires forall k :: k in m ==> m[k] == next[k]
    ensures m == next
  {
  }

  /** The left fold of `step` over `keys[..j]`, starting from `s0`. */
  function Fold<S, K>(s0: S, keys: seq<K>, j: nat, step: (S, K) -> S): S
    requires j <= |keys|
  {
    if j == 0 then s0 else step(Fold(s0, keys, j - 1, step), keys[j - 1])
  }

  /** A loop over `keys` in order, applying `step` to the state. */
  method FoldLoop<S, K>(s0: S, keys: seq<K>, step: (S, K) -> S) returns (s: S)
    ensures s == Fold(s0, keys, |keys|, step)
  {
    s := s0;
    var i := 0;
    while i < |keys|
      invariant 0 <= i <= |keys|
      invariant s == Fold(s0, keys, i, step)
    {
      s := step(s, keys[i]);
      i := i + 1;
    }
  }

  /** Two running totals of the same increments that start equal stay
      equal. */
  lemma {:induction false} SameRunningTotals(f: seq<int>, g: seq<int>, d: seq<int>, j: nat)
    requires |f| == |g| == |d| + 1 && j < |f| && f[0] == g[0]
    requires forall k :: 0 <= k < |d| ==> f[k + 1] == f[k] + d[k]
    requires forall k :: 0 <= k < |d| ==> g[k + 1] == g[k] + d[k]
    ensures f[j] == g[j]
  {
    if j > 0 {
      SameRunningTotals(f, g, d, j - 1);
    }
  }
}

=== FILE: text.dfy ===
/** Character-level helpers over the document text: line numbers
    (`get_line`), whitespace-insensitive comparison (`non_white_space_check`),
    Python slicing and path splitting. */
module Text {

  /** Python's `s[a:b]` for non-negative bounds: both bounds are clamped to
      the length, and a reversed range is empty. */
  function Slice(s: string, a: nat, b: nat): (r: string)
    ensures |r| <= |s|
    ensures a <= b <= |s| ==> r == s[a..b]
  {
    var lo := if a <= |s| then a else |s|;
    var hi := if b <= |s| then b else |s|;
    if lo <= hi then s[lo..hi] else []
  }

  /** Number of newline characters in `s`. */
  function CountNewlines(s: string): (n: nat)
    ensures n <= |s|
  {
    if s == [] then 0 else (if s[0] == '\n' then 1 else 0) + CountNewlines(s[1..])
  }

  lemma {:induction false} CountNewlinesAppend(a: string, b: string)
    ensures CountNewlines(a + b) == CountNewlines(a) + CountNewlines(b)
  {
    if a != [] {
      assert (a + b)[1..] == a[1..] + b;
      CountNewlinesAppend(a[1..], b);
    } else {
      assert a + b == b;
    }
  }

  /** `get_line(index, text)`: the 1-based line on which offset `index` lies. */
  function GetLine(index: nat, text: string): (line: nat)
    ensures 1 <= line <= 1 + |text|
  {
    1 + CountNewlines(Slice(text, 0, index))
  }

  /** Offset 0 is on line 1. */
  lemma GetLineAtStart(text: string)
    ensures GetLine(0, text) == 1
  {
  }

  /** Moving one character forward raises the line number by one exactly
      when that character is a newline. */
  lemma GetLineStep(index: nat, text: string)
    requires index < |text|
    ensures GetLine(index + 1, text) == GetLine(index, text) + (if text[index] == '\n' then 1 else 0)
  {
    assert text[..index + 1] == text[..index] + [text[index]];
    CountNewlinesAppend(text[..index], [text[index]]);
  }

  /** Line numbers never decrease along the text. */
  lemma {:induction false} GetLineMonotone(i: nat, j: nat, text: string)
    requires i <= j
    ensures GetLine(i, text) <= GetLine(j, text)
    decreases j - i
  {
    if i < j {
      if i < |text| {
        GetLineStep(i, text);
        GetLineMonotone(i + 1, j, text);
      }
    }
  }

  /** The whitespace characters the model recognises (the ASCII ones). */
  predicate IsWhiteSpace(c: char)
  {
    c == ' ' || c == '\t' || c == '\n' || c == '\r' || c == '\U{0B}' || c == '\U{0C}'
  }

  /** `"".join(s.split())`: `s` with every whitespace character removed. */
  function StripWhiteSpace(s: string): (r: string)
    ensures |r| <= |s|
    ensures forall i :: 0 <= i < |r| ==> !IsWhiteSpace(r[i])
  {
    if s == [] then []
    else if IsWhiteSpace(s[0]) then StripWhiteSpace(s[1..])
    else [s[0]] + StripWhiteSpace(s[1..])
  }

  lemma {:induction false} StripWhiteSpaceAppend(a: string, b: string)
    ensures StripWhiteSpace(a + b) == StripWhiteSpace(a) + StripWhiteSpace(b)
  {
    if a != [] {
      assert (a + b)[1..] == a[1..] + b;
      StripWhiteSpaceAppend(a[1..], b);
    } else {
      assert a + b == b;
    }
  }

  /** Stripping keeps exactly the non-whitespace characters. */
  lemma {:induction false} StripWhiteSpaceChars(s: string)
    ensures forall c :: c in StripWhiteSpace(s) <==> c in s && !IsWhiteSpace(c)
  {
    if s != [] {
      StripWhiteSpaceChars(s[1..]);
      assert forall c :: c in s <==> c == s[0] || c in s[1..];
    }
  }

  /** A string made only of whitespace strips to nothing. */
  lemma {:induction false} StripAllWhiteSpace(w: string)
    requires forall i :: 0 <= i < |w| ==> IsWhiteSpace(w[i])
    ensures StripWhiteSpace(w) == []
  {
    if w != [] {
      StripAllWhiteSpace(w[1..]);
    }
  }

  /** `non_white_space_check(x, y)`: true exactly when the assertion holds,
      i.e. `x` and `y` agree once whitespace is removed. */
  function NonWhiteSpaceCheck(x: string, y: string): (ok: bool)
    ensures x == y ==> ok
    ensures ok ==> forall c :: !IsWhiteSpace(c) ==> (c in x <==> c in y)
  {
    StripWhiteSpaceChars(x);
    StripWhiteSpaceChars(y);
    StripWhiteSpace(x) == StripWhiteSpace(y)
  }

  /** Inserting whitespace anywhere never makes the check fail. */
  lemma WhiteSpaceInsertionPasses(a: string, w: string, b: string)
    requires forall i :: 0 <= i < |w| ==> IsWhiteSpace(w[i])
    ensures NonWhiteSpaceCheck(a + b, a + w + b)
  {
    StripWhiteSpaceAppend(a, b);
    StripWhiteSpaceAppend(a + w, b);
    StripWhiteSpaceAppend(a, w);
    StripAllWhiteSpace(w);
  }

  /** Changing a non-whitespace character makes the check fail. */
  lemma ChangedCharacterFails(a: string, c: char, d: char, b: string)
    requires c != d && !IsWhiteSpace(c) && !IsWhiteSpace(d)
    ensures !NonWhiteSpaceCheck(a + [c] + b, a + [d] + b)
  {
    StripWhiteSpaceAppend(a + [c], b);
    StripWhiteSpaceAppend(a, [c]);
    StripWhiteSpaceAppend(a + [d], b);
    StripWhiteSpaceAppend(a, [d]);
    var p := StripWhiteSpace(a);
    assert StripWhiteSpace(a + [c] + b)[|p|] == c;
    assert StripWhiteSpace(a + [d] + b)[|p|] == d;
  }

  /** Python's `s.split(sep)` for a one-character separator. */
  function Split(s: string, sep: char): (parts: seq<string>)
    ensures |parts| >= 1
    ensures forall i :: 0 <= i < |parts| ==> sep !in parts[i]
  {
    if s == [] then [""]
    else
      var rest := Split(s[1..], sep);
      if s[0] == sep then [""] + rest
      else [[s[0]] + rest[0]] + rest[1..]
  }

  /** `sep.join(parts)`. */
  function Join(parts: seq<string>, sep: char): string
  {
    if parts == [] then ""
    else if |parts| == 1 then parts[0]
    else parts[0] + [sep] + Join(parts[1..], sep)
  }

  /** Splitting and joining again gives back the string. */
  lemma {:induction false} SplitJoin(s: string, sep: char)
    ensures Join(Split(s, sep), sep) == s
  {
    if s != [] {
      SplitJoin(s[1..], sep);
      var rest := Split(s[1..], sep);
      if s[0] == sep {
        assert Split(s, sep) == [""] + rest;
        assert ([""] + rest)[1..] == rest;
      } else {
        var parts := Split(s, sep);
        assert parts[1..] == rest[1..];
        if |rest| > 1 {
          assert Join(rest, sep) == rest[0] + [sep] + Join(rest[1..], sep);
        }
      }
    }
  }

  /** Python's `parts[p]`, negative positions counting from the end. */
  function PyIndex<T>(parts: seq<T>, p: int): (x: T)
    requires -|parts| <= p < |parts|
    ensures x == parts[p % |parts|]
  {
    if p >= 0 then parts[p] else parts[|parts| + p]
  }
}

=== FILE: tokens.dfy ===
/** Token offsets: the check `tokenize_document` makes of the tokenizer's
    output and `adj_tokens`, which flattens sentence-grouped tokens. The
    tokenizer itself is not part of this model. */
module Tokens {
  import opened Wrappers
  import opened Text

  /** A token's character offsets `(start, end)`. */
  type Span = (nat, nat)

  /** Concatenation of the groups, in order. */
  function Flatten<T>(groups: seq<seq<T>>): (flat: seq<T>)
  {
    if groups == [] then [] else Flatten(groups[..|groups| - 1]) + groups[|groups| - 1]
  }

  /** Position in the flattened sequence at which group `i` begins. */
  function GroupStart<T>(groups: seq<seq<T>>, i: nat): nat
    requires i <= |groups|
  {
    |Flatten(groups[..i])|
  }

  /** The `j`-th element of group `i` sits at `GroupStart(i) + j` of the
      flattened sequence. */
  lemma {:induction false} FlattenIndex<T>(groups: seq<seq<T>>, i: nat, j: nat)
    requires i < |groups| && j < |groups[i]|
    ensures GroupStart(groups, i) + j < |Flatten(groups)|
    ensures Flatten(groups)[GroupStart(groups, i) + j] == groups[i][j]
    decreases |groups|
  {
    var n := |groups| - 1;
    assert groups[..n + 1] == groups;
    if i < n {
      FlattenIndex(groups[..n], i, j);
      assert groups[..n][..i] == groups[..i];
    } else {
      assert groups[..n] == groups[..i];
    }
  }

  /** Two groupings with the same shape: as many groups, of the same sizes. */
  predicate SameShape<T, U>(a: seq<seq<T>>, b: seq<seq<U>>)
  {
    |a| == |b| && forall i :: 0 <= i < |a| ==> |a[i]| == |b[i]|
  }

  /** Groupings of the same shape flatten to sequences of the same length
      whose groups begin at the same positions. */
  lemma {:induction false} SameShapeFlatten<T, U>(a: seq<seq<T>>, b: seq<seq<U>>, i: nat)
    requires SameShape(a, b) && i <= |a|
    ensures GroupStart(a, i) == GroupStart(b, i)
    ensures |Flatten(a)| == |Flatten(b)|
    decreases |a|
  {
    if |a| > 0 {
      var n := |a| - 1;
      assert a[..n + 1] == a && b[..n + 1] == b;
      assert SameShape(a[..n], b[..n]);
      if i <= n {
        assert a[..n][..i] == a[..i] && b[..n][..i] == b[..i];
        SameShapeFlatten(a[..n], b[..n], i);
      } else {
        SameShapeFlatten(a[..n], b[..n], n);
        assert a[..n][..n] == a[..n] && b[..n][..n] == b[..n];
      }
    }
  }

  /** What `adj_tokens` returns: the groupings unchanged, or flat sequences. */
  datatype TokenView =
    | Grouped(tokens: Option<seq<seq<string>>>, offsets: Option<seq<seq<Span>>>)
    | Flat(flatTokens: seq<string>, flatOffsets: seq<Span>)

  /** `adj_tokens(tokens, offsets, by_sent)`. The assertions on the shapes
      become an `Err`. */
  method AdjTokens(tokens: Option<seq<seq<string>>>, offsets: Option<seq<seq<Span>>>, bySent: bool)
    returns (r: Result<TokenView>)
    ensures tokens.None? || bySent ==> r == Ok(Grouped(tokens, offsets))
    ensures tokens.Some? && !bySent ==>
      (r.Ok? <==> offsets.Some? && SameShape(tokens.value, offsets.value))
    ensures tokens.Some? && !bySent && r.Ok? ==>
      r.value == Flat(Flatten(tokens.value), Flatten(offsets.value))
  {
    if tokens.None? || bySent {
      return Ok(Grouped(tokens, offsets));
    }
    if offsets.None? || |tokens.value| != |offsets.value| {
      return Err("token and offset groupings differ in length");
    }
    var toks, offs := tokens.value, offsets.value;
    var tokensOut: seq<string> := [];
    var offsetsOut: seq<Span> := [];
    var i := 0;
    while i < |toks|
      invariant 0 <= i <= |toks|
      invariant SameShape(toks[..i], offs[..i])
      invariant tokensOut == Flatten(toks[..i])
      invariant offsetsOut == Flatten(offs[..i])
    {
      if |toks[i]| != |offs[i]| {
        assert !SameShape(toks, offs);
        return Err("a sentence has differing token and offset counts");
      }
      tokensOut, offsetsOut := AppendSentence(tokensOut, offsetsOut, toks[i], offs[i]);
      assert toks[..i + 1][..i] == toks[..i] && offs[..i + 1][..i] == offs[..i];
      i := i + 1;
    }
    assert toks[..i] == toks && offs[..i] == offs;
    return Ok(Flat(tokensOut, offsetsOut));
  }

  /** The inner loop of `adj_tokens`: one sentence's tokens and offsets
      appended, pair by pair, to the flat sequences. */
  method AppendSentence(tokensOut: seq<string>, offsetsOut: seq<Span>, toks: seq<string>, offs: seq<Span>)
    returns (tokensOut': seq<string>, offsetsOut': seq<Span>)
    requires |toks| == |offs|
    ensures tokensOut' == tokensOut + toks && offsetsOut' == offsetsOut + offs
  {
    tokensOut', offsetsOut' := tokensOut, offsetsOut;
    var j := 0;
    while j < |toks|
      invariant 0 <= j <= |toks|
      invariant tokensOut' == tokensOut + toks[..j]
      invariant offsetsOut' == offsetsOut + offs[..j]
    {
      tokensOut' := tokensOut' + [toks[j]];
      offsetsOut' := offsetsOut' + [offs[j]];
      assert toks[..j + 1] == toks[..j] + [toks[j]];
      assert offs[..j + 1] == offs[..j] + [offs[j]];
      j := j + 1;
    }
    assert toks[..j] == toks && offs[..j] == offs;
  }

  /** The postcondition `tokenize_document` asserts: the groupings have the
      same shape and every token is the text its offsets cut out. */
  predicate TokensMatchText(text: string, tokens: seq<seq<string>>, offsets: seq<seq<Span>>)
  {
    && SameShape(tokens, offsets)
    && forall i, j :: 0 <= i < |tokens| && 0 <= j < |tokens[i]| ==>
         tokens[i][j] == Slice(text, offsets[i][j].0, offsets[i][j].1)
  }

  /** The assertion loop of `tokenize_document`: true exactly when every
      check passes. */
  method CheckTokenization(text: string, tokens: seq<seq<string>>, offsets: seq<seq<Span>>)
    returns (ok: bool)
    ensures ok <==> TokensMatchText(text, tokens, offsets)
  {
    if |tokens| != |offsets| {
      return false;
    }
    var i := 0;
    while i < |tokens|
      invariant 0 <= i <= |tokens|
      invariant forall a :: 0 <= a < i ==> |tokens[a]| == |offsets[a]|
      invariant forall a, b :: 0 <= a < i && 0 <= b < |tokens[a]| ==>
        tokens[a][b] == Slice(text, offsets[a][b].0, offsets[a][b].1)
    {
      if |tokens[i]| != |offsets[i]| {
        return false;
      }
      var j := 0;
      while j < |tokens[i]|
        invariant 0 <= j <= |tokens[i]|
        invariant forall b :: 0 <= b < j ==> tokens[i][b] == Slice(text, offsets[i][b].0, offsets[i][b].1)
      {
        if tokens[i][j] != Slice(text, offsets[i][j].0, offsets[i][j].1) {
          return false;
        }
        j := j + 1;
      }
      i := i + 1;
    }
    return true;
  }

  /** Flattening keeps every token aligned with its own offsets, so the flat
      sequences `adj_tokens` returns still cut each token out of the text. */
  lemma FlattenKeepsTokensMatched(text: string, tokens: seq<seq<string>>, offsets: seq<seq<Span>>, k: nat)
    requires TokensMatchText(text, tokens, offsets)
    requires k < |Flatten(tokens)|
    ensures k < |Flatten(offsets)|
    ensures Flatten(tokens)[k] == Slice(text, Flatten(offsets)[k].0, Flatten(offsets)[k].1)
  {
    var i, j := Locate(tokens, k);
    FlattenIndex(tokens, i, j);
    SameShapeFlatten(tokens, offsets, i);
    FlattenIndex(offsets, i, j);
  }

  /** Every position of a flattened sequence lies in some group. */
  lemma {:induction false} Locate<T>(groups: seq<seq<T>>, k: nat) returns (i: nat, j: nat)
    requires k < |Flatten(groups)|
    ensures i < |groups| && j < |groups[i]| && k == GroupStart(groups, i) + j
    decreases |groups|
  {
    var n := |groups| - 1;
    assert groups[..n + 1] == groups;
    if k < |Flatten(groups[..n])| {
      i, j := Locate(groups[..n], k);
      assert groups[..n][..i] == groups[..i];
    } else {
      assert groups[..n] == groups[..n];
      i, j := n, k - |Flatten(groups[..n])|;
    }
  }
}

=== FILE: transfer.dfy ===
/** Specification of `transfer_subtype_value`: copying the value of the
    attribute on an event's `source` argument to a new attribute on its
    `target` argument, for each (target, source) argument-type pair. */
module Transfer {
  import opened Tables
  import opened Records

  /** The argument-type -> textbound id map of an event's first `n`
      arguments: later arguments of the same type overwrite earlier ones. */
  function TypeToTb(args: Table<string, Id>, tbs: map<Id, Textbound>, n: nat): (m: map<string, Id>)
    requires args.Valid() && n <= |args.keys|
    requires forall r :: r in args.vals ==> args.vals[r] in tbs
    ensures forall ty :: ty in m ==> m[ty] in args.vals.Values && tbs[m[ty]].type_ == ty
  {
    if n == 0 then map[]
    else
      var id := args.vals[args.keys[n - 1]];
      TypeToTb(args, tbs, n - 1)[tbs[id].type_ := id]
  }

  /** The type of the textbound of argument `i`. */
  function ArgType(args: Table<string, Id>, tbs: map<Id, Textbound>, i: nat): string
    requires args.Valid() && i < |args.keys|
    requires forall r :: r in args.vals ==> args.vals[r] in tbs
  {
    tbs[args.vals[args.keys[i]]].type_
  }

  /** A type is in the map exactly when one of the first `n` arguments has
      it, and it maps to the last such argument's textbound. */
  lemma {:induction false} TypeToTbLast(args: Table<string, Id>, tbs: map<Id, Textbound>, n: nat, ty: string)
    requires args.Valid() && n <= |args.keys|
    requires forall r :: r in args.vals ==> args.vals[r] in tbs
    ensures ty in TypeToTb(args, tbs, n) <==> exists i :: 0 <= i < n && ArgType(args, tbs, i) == ty
    ensures ty in TypeToTb(args, tbs, n) ==>
      exists i :: 0 <= i < n && ArgType(args, tbs, i) == ty && TypeToTb(args, tbs, n)[ty] == args.vals[args.keys[i]]
                  && forall i' :: i < i' < n ==> ArgType(args, tbs, i') != ty
  {
    if n > 0 {
      TypeToTbLast(args, tbs, n - 1, ty);
      var m := TypeToTb(args, tbs, n);
      if ArgType(args, tbs, n - 1) == ty {
        assert m[ty] == args.vals[args.keys[n - 1]];
      } else if ty in m {
        var i :| 0 <= i < n - 1 && ArgType(args, tbs, i) == ty && TypeToTb(args, tbs, n - 1)[ty] == args.vals[args.keys[i]]
                 && forall i' :: i < i' < n - 1 ==> ArgType(args, tbs, i') != ty;
        assert forall i' :: i < i' < n ==> ArgType(args, tbs, i') != ty;
      }
    }
  }

  /** An event has an argument of type `ty` when some role names a
      textbound of that type. */
  predicate HasArgOfType(args: Table<string, Id>, tbs: map<Id, Textbound>, ty: string)
    requires forall r :: r in args.vals ==> args.vals[r] in tbs
  {
    exists r :: r in args.vals && tbs[args.vals[r]].type_ == ty
  }

  /** The full map holds exactly the types some argument has. */
  lemma TypeToTbHas(args: Table<string, Id>, tbs: map<Id, Textbound>, ty: string)
    requires args.Valid()
    requires forall r :: r in args.vals ==> args.vals[r] in tbs
    ensures ty in TypeToTb(args, tbs, |args.keys|) <==> HasArgOfType(args, tbs, ty)
  {
    TypeToTbLast(args, tbs, |args.keys|, ty);
    if HasArgOfType(args, tbs, ty) {
      var r :| r in args.vals && tbs[args.vals[r]].type_ == ty;
      var i :| 0 <= i < |args.keys| && args.keys[i] == r;
      assert ArgType(args, tbs, i) == ty;
    }
  }

  /** The counter key `(target_arg, source_value)`. */
  datatype Transferred = Transferred(target: string, value: string)

  /** The attribute minted for the target textbound: the next attribute
      number, the target type, the source attribute's value. */
  function NewAttribute(attrs: Table<Id, Attribute>, target: string, targetTb: Id, value: string): (a: Attribute)
    requires attrs.Valid()
    ensures a.type_ == target && a.textbound == targetTb && a.value == value
    ensures forall k :: k in attrs.vals ==> attrs.vals[k].id != a.id
  {
    var ids := RecordIds(attrs, AttrId);
    Attribute(Id('A', MaxSuffix(ids) + 1), target, targetTb, value)
  }

  /** The visit of one event for the pair (`target`, `source`). */
  function TransferEvent(attrs: Table<Id, Attribute>, e: Event, tbs: map<Id, Textbound>, target: string, source: string)
    : (r: (Table<Id, Attribute>, multiset<Transferred>))
    requires attrs.Valid() && e.arguments.Valid()
    requires forall role :: role in e.arguments.vals ==> e.arguments.vals[role] in tbs
    ensures r.0.Valid()
    ensures |r.1| <= 1
    ensures forall x :: x in r.0.vals ==> x in attrs.vals || (x in tbs && tbs[x].type_ == target)
    ensures forall x :: x in attrs.vals && (x !in tbs || tbs[x].type_ != target) ==> x in r.0.vals && r.0.vals[x] == attrs.vals[x]
    ensures forall c :: c in r.1 ==> c.target == target
  {
    var m := TypeToTb(e.arguments, tbs, |e.arguments.keys|);
    if source in m && target in m && m[source] in attrs.vals then
      var value := attrs.vals[m[source]].value;
      (attrs.Put(m[target], NewAttribute(attrs, target, m[target], value)), multiset{Transferred(target, value)})
    else
      (attrs, multiset{})
  }

  /** An event lacking either type, or whose source textbound carries no
      attribute, changes nothing; otherwise the target textbound's
      attribute becomes a fresh one with the target type and the source's
      value, and, when the two types differ, the source's own attribute is
      left as it was. */
  lemma TransferEventEffect(attrs: Table<Id, Attribute>, e: Event, tbs: map<Id, Textbound>, target: string,
                            source: string)
    requires attrs.Valid() && e.arguments.Valid()
    requires forall role :: role in e.arguments.vals ==> e.arguments.vals[role] in tbs
    ensures var r := TransferEvent(attrs, e, tbs, target, source);
      !HasArgOfType(e.arguments, tbs, source) || !HasArgOfType(e.arguments, tbs, target) ==>
        r == (attrs, multiset{})
    ensures var r := TransferEvent(attrs, e, tbs, target, source);
      var m := TypeToTb(e.arguments, tbs, |e.arguments.keys|);
      source in m && target in m && m[source] in attrs.vals ==>
        && m[source] in e.arguments.vals.Values && tbs[m[source]].type_ == source
        && m[target] in e.arguments.vals.Values && tbs[m[target]].type_ == target
        && r.0.vals == attrs.vals[m[target] := r.0.vals[m[target]]]
        && r.0.vals[m[target]].type_ == target
        && r.0.vals[m[target]].value == attrs.vals[m[source]].value
        && (forall k :: k in attrs.vals ==> attrs.vals[k].id != r.0.vals[m[target]].id)
        && (source != target ==> r.0.vals[m[source]] == attrs.vals[m[source]])
        && r.1 == multiset{Transferred(target, attrs.vals[m[source]].value)}
    ensures var r := TransferEvent(attrs, e, tbs, target, source);
      var m := TypeToTb(e.arguments, tbs, |e.arguments.keys|);
      source in m && target in m && m[source] !in attrs.vals ==> r == (attrs, multiset{})
  {
    TypeToTbHas(e.arguments, tbs, source);
    TypeToTbHas(e.arguments, tbs, target);
  }

  /** The visits of the events `keys[..j]` for one pair. */
  function TransferEvents(attrs: Table<Id, Attribute>, events: Table<Id, Event>, keys: seq<Id>, j: nat,
                          tbs: Table<Id, Textbound>, target: string, source: string)
    : (r: (Table<Id, Attribute>, multiset<Transferred>))
    requires attrs.Valid() && EventsValid(events) && ArgumentsResolve(events, tbs)
    requires keys == events.keys && j <= |keys|
    ensures r.0.Valid()
    ensures |r.1| <= j
    ensures forall x :: x in r.0.vals ==> x in attrs.vals || (x in tbs.vals && tbs.vals[x].type_ == target)
    ensures forall x :: x in attrs.vals && (x !in tbs.vals || tbs.vals[x].type_ != target) ==>
      x in r.0.vals && r.0.vals[x] == attrs.vals[x]
    ensures forall c :: c in r.1 ==> c.target == target
  {
    if j == 0 then (attrs, multiset{})
    else
      var prev := TransferEvents(attrs, events, keys, j - 1, tbs, target, source);
      assert keys[j - 1] in events.vals;
      var next := TransferEvent(prev.0, events.vals[keys[j - 1]], tbs.vals, target, source);
      (next.0, prev.1 + next.1)
  }

  /** One more round of `n` adds `n` to the bound. */
  lemma MulStep(i: nat, n: nat)
    requires 0 < i
    ensures (i - 1) * n + n == i * n
  {
  }

  /** The loop over the events in order for one pair. */
  method TransferLoop(attrs: Table<Id, Attribute>, events: Table<Id, Event>, tbs: Table<Id, Textbound>,
                      target: string, source: string)
    returns (a: Table<Id, Attribute>, counts: multiset<Transferred>)
    requires attrs.Valid() && EventsValid(events) && ArgumentsResolve(events, tbs)
    ensures (a, counts) == TransferEvents(attrs, events, events.keys, |events.keys|, tbs, target, source)
  {
    a, counts := attrs, multiset{};
    var j := 0;
    while j < |events.keys|
      invariant 0 <= j <= |events.keys|
      invariant (a, counts) == TransferEvents(attrs, events, events.keys, j, tbs, target, source)
    {
      var k := events.keys[j];
      var visit := TransferEvent(a, events.vals[k], tbs.vals, target, source);
      a := visit.0;
      counts := counts + visit.1;
      j := j + 1;
    }
  }

  /** The first `i` pairs (target type -> source type), each over every
      event in order; only attributes of textbounds whose type is a target
      type can change. */
  function TransferPairs(attrs: Table<Id, Attribute>, events: Table<Id, Event>, tbs: Table<Id, Textbound>,
                         pairs: Table<string, string>, i: nat)
    : (r: (Table<Id, Attribute>, multiset<Transferred>))
    requires attrs.Valid() && EventsValid(events) && (i > 0 ==> ArgumentsResolve(events, tbs))
    requires pairs.Valid() && i <= |pairs.keys|
    ensures r.0.Valid()
    ensures |r.1| <= i * |events.keys|
    ensures forall x :: x in r.0.vals ==>
      x in attrs.vals || (x in tbs.vals && tbs.vals[x].type_ in pairs.vals)
    ensures forall x :: x in attrs.vals && (x !in tbs.vals || tbs.vals[x].type_ !in pairs.vals) ==>
      x in r.0.vals && r.0.vals[x] == attrs.vals[x]
    ensures forall c :: c in r.1 ==> c.target in pairs.vals
  {
    if i == 0 then (attrs, multiset{})
    else
      var prev := TransferPairs(attrs, events, tbs, pairs, i - 1);
      var target := pairs.keys[i - 1];
      var next := TransferEvents(prev.0, events, events.keys, |events.keys|, tbs, target, pairs.vals[target]);
      MulStep(i, |events.keys|);
      (next.0, prev.1 + next.1)
  }

  /** The whole of `transfer_subtype_value`. */
  function TransferSubtypeValue(a: Annotations, pairs: Table<string, string>): (r: (Annotations, multiset<Transferred>))
    requires a.Valid() && (|pairs.keys| > 0 ==> ArgumentsResolve(a.events, a.tbs)) && pairs.Valid()
    ensures r.0.Valid()
    ensures r.0.events == a.events && r.0.relations == a.relations && r.0.tbs == a.tbs
    ensures forall x :: x in r.0.attrs.vals ==>
      x in a.attrs.vals || (x in a.tbs.vals && a.tbs.vals[x].type_ in pairs.vals)
    ensures forall x :: x in a.attrs.vals && (x !in a.tbs.vals || a.tbs.vals[x].type_ !in pairs.vals) ==>
      x in r.0.attrs.vals && r.0.attrs.vals[x] == a.attrs.vals[x]
    ensures forall c :: c in r.1 ==> c.target in pairs.vals
  {
    var r := TransferPairs(a.attrs, a.events, a.tbs, pairs, |pairs.keys|);
    (a.(attrs := r.0), r.1)
  }
}

=== FILE: type_mapping.dfy ===
/** Specification of `map_`: renaming record types pair by pair, and renaming
    the event roles that carry a renamed textbound type. */
module TypeMapping {
  import opened Wrappers
  import opened Tables
  import opened Records

  /** Which table a counter entry is about. */
  datatype Section = EventsSection | TextboundsSection | ArgumentsSection | AttributesSection

  /** A counter key `(section, old, new_)`. */
  datatype Tally<N> = Tally(section: Section, from: N, to: N)

  /** The type of every record of a table, `typeOf` reading it from one
      record. */
  function TypesOf<R>(m: map<Id, R>, typeOf: R -> string): (r: map<Id, string>)
    ensures r.Keys == m.Keys && forall k :: k in m ==> r[k] == typeOf(m[k])
  {
    map k | k in m :: typeOf(m[k])
  }

  function EventType(e: Event): string { e.type_ }
  function TbType(tb: Textbound): string { tb.type_ }
  function AttrType(attr: Attribute): string { attr.type_ }

  /** One `(from, to)` pair applied to the types of a table. */
  function Retype<N(==,!new)>(ty: map<Id, N>, from: N, to: N): (r: map<Id, N>)
    ensures r.Keys == ty.Keys
  {
    map k | k in ty :: if ty[k] == from then to else ty[k]
  }

  /** Number of the records `keys` names whose type is `from`. */
  function CountOfType<N(==,!new)>(keys: seq<Id>, ty: map<Id, N>, from: N): (n: nat)
    requires forall k :: k in keys ==> k in ty
    ensures n <= |keys|
  {
    if keys == [] then 0
    else
      var last := |keys| - 1;
      CountOfType(keys[..last], ty, from) + (if ty[keys[last]] == from then 1 else 0)
  }

  /** The first `n` pairs of `pairs`, applied in order to the types of a
      table. */
  function RetypeTypes<N(==,!new)>(ty: map<Id, N>, pairs: Table<N, N>, n: nat): (r: map<Id, N>)
    requires pairs.Valid() && n <= |pairs.keys|
    ensures r.Keys == ty.Keys
  {
    if n == 0 then ty
    else
      var from := pairs.keys[n - 1];
      Retype(RetypeTypes(ty, pairs, n - 1), from, pairs.vals[from])
  }

  /** After the pairs, every record has its old type or the new type of
      one of the pairs. */
  lemma {:induction false} RetypeTypesValues<N(!new)>(ty: map<Id, N>, pairs: Table<N, N>, n: nat, k: Id)
    requires pairs.Valid() && n <= |pairs.keys|
    requires k in ty
    ensures var r := RetypeTypes(ty, pairs, n);
      r[k] == ty[k] || exists i :: 0 <= i < n && r[k] == pairs.vals[pairs.keys[i]]
  {
    if n > 0 {
      RetypeTypesValues(ty, pairs, n - 1, k);
      var from := pairs.keys[n - 1];
      assert from in pairs.vals;
    }
  }

  /** The counter entries the first `n` pairs produce: each pair counts the
      records `keys` names whose type, after the pairs before it, is the
      pair's old type. */
  function RetypeTallies<N(==,!new)>(ty: map<Id, N>, keys: seq<Id>, pairs: Table<N, N>, n: nat, section: Section)
    : (c: multiset<Tally<N>>)
    requires pairs.Valid() && n <= |pairs.keys|
    requires forall k :: k in keys ==> k in ty
    ensures forall t :: t in c ==> t.section == section && t.from in pairs.vals && t.to == pairs.vals[t.from]
  {
    if n == 0 then multiset{}
    else
      var from := pairs.keys[n - 1];
      RetypeTallies(ty, keys, pairs, n - 1, section)
      + Copies(Tally(section, from, pairs.vals[from]), CountOfType(keys, RetypeTypes(ty, pairs, n - 1), from))
  }

  /** One table's pass: the new types and the counter entries. */
  function RetypeAll<N(==,!new)>(ty: map<Id, N>, keys: seq<Id>, pairs: Table<N, N>, section: Section)
    : (r: (map<Id, N>, multiset<Tally<N>>))
    requires pairs.Valid()
    requires forall k :: k in keys ==> k in ty
    ensures r.0.Keys == ty.Keys
  {
    (RetypeTypes(ty, pairs, |pairs.keys|), RetypeTallies(ty, keys, pairs, |pairs.keys|, section))
  }

  /** One pair applied to the records `keys[..j]` names, one record at a
      time, as the inner loop of `map_` does. */
  function RetypeUpTo<N(==,!new)>(ty: map<Id, N>, keys: seq<Id>, j: nat, from: N, to: N): (r: map<Id, N>)
    requires j <= |keys|
    requires forall k :: k in keys ==> k in ty
    ensures r.Keys == ty.Keys
  {
    if j == 0 then ty
    else
      var r1 := RetypeUpTo(ty, keys, j - 1, from, to);
      var k := keys[j - 1];
      if r1[k] == from then r1[k := to] else r1
  }

  /** A record is renamed by the inner loop once its turn has come. */
  lemma {:induction false} RetypeUpToAt<N(!new)>(ty: map<Id, N>, keys: seq<Id>, j: nat, from: N, to: N, k: Id)
    requires j <= |keys| && Distinct(keys)
    requires forall x :: x in keys ==> x in ty
    requires k in ty
    ensures RetypeUpTo(ty, keys, j, from, to)[k] == if k in keys[..j] && ty[k] == from then to else ty[k]
  {
    if j > 0 {
      RetypeUpToAt(ty, keys, j - 1, from, to, k);
      assert keys[..j] == keys[..j - 1] + [keys[j - 1]];
      if k == keys[j - 1] {
        DistinctNotBefore(keys, j - 1);
      }
    }
  }

  /** The inner loop over every record is the pair applied to the table. */
  lemma RetypeUpToAll<N(!new)>(ty: map<Id, N>, keys: seq<Id>, from: N, to: N)
    requires Distinct(keys)
    requires forall x :: x in keys <==> x in ty
    ensures RetypeUpTo(ty, keys, |keys|, from, to) == Retype(ty, from, to)
  {
    assert keys[..|keys|] == keys;
    forall k | k in ty ensures RetypeUpTo(ty, keys, |keys|, from, to)[k] == Retype(ty, from, to)[k] {
      RetypeUpToAt(ty, keys, |keys|, from, to, k);
    }
  }

  /** Record `j` still has its original type when its turn comes; it is
      renamed and counted exactly when that type is `from`. */
  lemma RetypePairStep<N(!new)>(ty: map<Id, N>, keys: seq<Id>, j: nat, from: N, to: N, section: Section)
    requires j < |keys| && Distinct(keys)
    requires forall x :: x in keys <==> x in ty
    ensures var k := keys[j];
      var cur := RetypeUpTo(ty, keys, j, from, to);
      && k in cur && cur[k] == ty[k]
      && RetypeUpTo(ty, keys, j + 1, from, to) == (if ty[k] == from then cur[k := to] else cur)
      && Copies(Tally(section, from, to), CountOfType(keys[..j + 1], ty, from))
         == Copies(Tally(section, from, to), CountOfType(keys[..j], ty, from))
            + (if ty[k] == from then multiset{Tally(section, from, to)} else multiset{})
  {
    var k := keys[j];
    RetypeUpToAt(ty, keys, j, from, to, k);
    DistinctNotBefore(keys, j);
    assert keys[..j + 1][..j] == keys[..j];
    CopiesSucc(Tally(section, from, to), CountOfType(keys[..j], ty, from));
  }

  /** The two nested loops of one table's pass in `map_`: for each pair in
      order, every record in table order whose type is the pair's old type
      gets the new type and is counted. */
  method RetypeLoop<N(==,!new)>(ty: map<Id, N>, keys: seq<Id>, pairs: Table<N, N>, section: Section)
    returns (ty': map<Id, N>, counter: multiset<Tally<N>>)
    requires pairs.Valid() && Distinct(keys)
    requires forall x :: x in keys <==> x in ty
    ensures (ty', counter) == RetypeAll(ty, keys, pairs, section)
  {
    ty', counter := ty, multiset{};
    var i := 0;
    while i < |pairs.keys|
      invariant 0 <= i <= |pairs.keys|
      invariant ty' == RetypeTypes(ty, pairs, i)
      invariant counter == RetypeTallies(ty, keys, pairs, i, section)
    {
      var from := pairs.keys[i];
      var renamed, count := RetypePair(ty', keys, from, pairs.vals[from], section);
      ty', counter := renamed, counter + count;
      i := i + 1;
    }
  }

  /** The inner loop for one pair: the records in table order, each renamed
      and counted when its type is `from`. */
  method RetypePair<N(==,!new)>(ty: map<Id, N>, keys: seq<Id>, from: N, to: N, section: Section)
    returns (ty': map<Id, N>, count: multiset<Tally<N>>)
    requires Distinct(keys)
    requires forall x :: x in keys <==> x in ty
    ensures ty' == Retype(ty, from, to)
    ensures count == Copies(Tally(section, from, to), CountOfType(keys, ty, from))
  {
    ty', count := ty, multiset{};
    var j := 0;
    while j < |keys|
      invariant 0 <= j <= |keys|
      invariant ty' == RetypeUpTo(ty, keys, j, from, to)
      invariant count == Copies(Tally(section, from, to), CountOfType(keys[..j], ty, from))
    {
      var k := keys[j];
      RetypePairStep(ty, keys, j, from, to, section);
      if ty'[k] == from {
        ty' := ty'[k := to];
        count := count + multiset{Tally(section, from, to)};
      }
      j := j + 1;
    }
    assert keys[..j] == keys;
    RetypeUpToAll(ty, keys, from, to);
  }

  /** The records of a table with their types replaced by `ty`, `retype`
      setting the type of one record. */
  function WithTypes<R>(m: map<Id, R>, ty: map<Id, string>, retype: (R, string) -> R): (r: map<Id, R>)
    requires m.Keys <= ty.Keys
    ensures r.Keys == m.Keys
    ensures forall k :: k in m ==> r[k] == retype(m[k], ty[k])
  {
    map k | k in m :: retype(m[k], ty[k])
  }

  function EventWithType(e: Event, t: string): Event { e.(type_ := t) }
  function TbWithType(tb: Textbound, t: string): Textbound { tb.(type_ := t) }
  function AttrWithType(attr: Attribute, t: string): Attribute { attr.(type_ := t) }

  /** No pair renames to a type that another pair renames from, so each
      record is renamed at most once. */
  predicate NoChain<N(==,!new)>(pairs: Table<N, N>)
  {
    forall a, b :: a in pairs.vals && b in pairs.vals ==> pairs.vals[a] != b
  }

  /** Without chains, every record whose type has a pair ends up with that
      pair's new type and every other record is untouched. */
  lemma {:induction false} RetypeTypesNoChain<N(!new)>(ty: map<Id, N>, pairs: Table<N, N>, n: nat, k: Id)
    requires pairs.Valid() && n <= |pairs.keys|
    requires NoChain(pairs)
    requires k in ty
    ensures RetypeTypes(ty, pairs, n)[k] ==
      if ty[k] in pairs.keys[..n] then pairs.vals[ty[k]] else ty[k]
  {
    if n > 0 {
      RetypeTypesNoChain(ty, pairs, n - 1, k);
      var ty1 := RetypeTypes(ty, pairs, n - 1);
      var from := pairs.keys[n - 1];
      assert from in pairs.vals;
      assert RetypeTypes(ty, pairs, n)[k] == if ty1[k] == from then pairs.vals[from] else ty1[k];
      assert pairs.keys[..n] == pairs.keys[..n - 1] + [from];
      if ty[k] in pairs.keys[..n - 1] {
        var i :| 0 <= i < n - 1 && pairs.keys[i] == ty[k];
        assert ty[k] in pairs.vals;
        assert ty1[k] != from;
      }
    }
  }

  lemma {:induction false} CountOfTypeAgree<N(!new)>(keys: seq<Id>, ty1: map<Id, N>, ty2: map<Id, N>, from: N)
    requires forall k :: k in keys ==> k in ty1 && k in ty2
    requires forall k :: k in keys ==> (ty1[k] == from <==> ty2[k] == from)
    ensures CountOfType(keys, ty1, from) == CountOfType(keys, ty2, from)
  {
    if keys != [] {
      CountOfTypeAgree(keys[..|keys| - 1], ty1, ty2, from);
    }
  }

  /** The counter entries expected from the first `n` pairs when each counts
      the records that had the pair's old type to begin with. */
  function ExpectedTallies<N(==,!new)>(ty: map<Id, N>, keys: seq<Id>, pairs: Table<N, N>, n: nat, section: Section)
    : multiset<Tally<N>>
    requires pairs.Valid() && n <= |pairs.keys|
    requires forall k :: k in keys ==> k in ty
  {
    if n == 0 then multiset{}
    else
      var from := pairs.keys[n - 1];
      ExpectedTallies(ty, keys, pairs, n - 1, section)
      + Copies(Tally(section, from, pairs.vals[from]), CountOfType(keys, ty, from))
  }

  /** Without chains, the counter records, for each pair, how many records
      had the pair's old type. */
  lemma {:induction false} RetypeTalliesNoChain<N(!new)>(ty: map<Id, N>, keys: seq<Id>, pairs: Table<N, N>, n: nat,
                                           section: Section)
    requires pairs.Valid() && n <= |pairs.keys|
    requires forall x :: x in keys ==> x in ty
    requires NoChain(pairs)
    ensures RetypeTallies(ty, keys, pairs, n, section) == ExpectedTallies(ty, keys, pairs, n, section)
  {
    if n > 0 {
      RetypeTalliesNoChain(ty, keys, pairs, n - 1, section);
      var ty1 := RetypeTypes(ty, pairs, n - 1);
      var from := pairs.keys[n - 1];
      forall k | k in keys ensures ty1[k] == from <==> ty[k] == from {
        RetypeTypesKeepFrom(ty, pairs, n, k);
      }
      CountOfTypeAgree(keys, ty1, ty, from);
    }
  }

  /** Without chains, the pairs before pair `n - 1` neither produce nor
      remove its old type. */
  lemma RetypeTypesKeepFrom<N(!new)>(ty: map<Id, N>, pairs: Table<N, N>, n: nat, k: Id)
    requires pairs.Valid() && 0 < n <= |pairs.keys|
    requires NoChain(pairs)
    requires k in ty
    ensures var from := pairs.keys[n - 1];
      RetypeTypes(ty, pairs, n - 1)[k] == from <==> ty[k] == from
  {
    var from := pairs.keys[n - 1];
    RetypeTypesNoChain(ty, pairs, n - 1, k);
    if ty[k] in pairs.keys[..n - 1] {
      var i :| 0 <= i < n - 1 && pairs.keys[i] == ty[k];
      assert pairs.keys[i] in pairs.vals && from in pairs.vals;
      DistinctNe(pairs.keys, i, n - 1);
    }
  }

  /** A role name after renaming `from` to `to`. */
  function Rename<N(==,!new)>(role: N, from: N, to: N): N
  {
    if role == from then to else role
  }

  /** The first `n` arguments rebuilt into a fresh ordered mapping, with
      role `from` written as `to`. */
  function RenameRoleOver<N(==,!new)>(args: Table<N, Id>, from: N, to: N, n: nat): (r: Table<N, Id>)
    requires args.Valid() && n <= |args.keys|
    ensures r.Valid()
  {
    if n == 0 then Empty()
    else
      var role := args.keys[n - 1];
      RenameRoleOver(args, from, to, n - 1).Put(Rename(role, from, to), args.vals[role])
  }

  /** The argument mapping the tb_map pass gives an event. */
  function RenameRole<N(==,!new)>(args: Table<N, Id>, from: N, to: N): (r: Table<N, Id>)
    requires args.Valid()
    ensures r.Valid()
    ensures from != to ==> from !in r.vals
    ensures to == from || to !in args.vals ==>
      && r.keys == Renamed(args.keys, from, to)
      && forall i :: 0 <= i < |args.keys| ==> r.vals[r.keys[i]] == args.vals[args.keys[i]]
  {
    assert from != to ==> from !in RenameRoleOver(args, from, to, |args.keys|).vals by {
      if from != to {
        RenameRoleRemovesOld(args, from, to, |args.keys|);
      }
    }
    assert to == from || to !in args.vals ==>
      && RenameRoleOver(args, from, to, |args.keys|).keys == Renamed(args.keys, from, to)
      && forall i :: 0 <= i < |args.keys| ==>
        RenameRoleOver(args, from, to, |args.keys|).vals[Rename(args.keys[i], from, to)] == args.vals[args.keys[i]] by {
      if to == from || to !in args.vals {
        RenameRoleInPlace(args, from, to, |args.keys|);
      }
    }
    RenameRoleOver(args, from, to, |args.keys|)
  }

  /** The innermost loop of the tb_map pass: the arguments rebuilt in
      order into a fresh mapping, role `from` written as `to`. */
  method RenameRoleLoop<N(==,!new)>(args: Table<N, Id>, from: N, to: N) returns (r: Table<N, Id>)
    requires args.Valid()
    ensures r == RenameRole(args, from, to)
  {
    r := Empty();
    var n := 0;
    while n < |args.keys|
      invariant 0 <= n <= |args.keys|
      invariant r == RenameRoleOver(args, from, to, n)
    {
      var role := args.keys[n];
      assert RenameRoleOver(args, from, to, n + 1) == r.Put(Rename(role, from, to), args.vals[role]);
      if role == from {
        r := r.Put(to, args.vals[role]);
      } else {
        r := r.Put(role, args.vals[role]);
      }
      n := n + 1;
    }
  }

  /** The role names of `keys` after renaming. */
  function Renamed<N(==,!new)>(keys: seq<N>, from: N, to: N): (r: seq<N>)
    ensures |r| == |keys|
    ensures forall i :: 0 <= i < |keys| ==> r[i] == Rename(keys[i], from, to)
  {
    seq(|keys|, i requires 0 <= i < |keys| => Rename(keys[i], from, to))
  }

  /** Without a clash, distinct roles stay distinct after renaming. */
  lemma RenameInjective<N(!new)>(args: Table<N, Id>, from: N, to: N, a: N, b: N)
    requires to == from || to !in args.vals
    requires a in args.vals && b in args.vals && a != b
    ensures Rename(a, from, to) != Rename(b, from, to)
  {
  }

  /** Without a clash, renaming keeps the roles in their positions. */
  lemma {:induction false} RenameRoleKeys<N(!new)>(args: Table<N, Id>, from: N, to: N, n: nat)
    requires args.Valid() && n <= |args.keys|
    requires to == from || to !in args.vals
    ensures |RenameRoleOver(args, from, to, n).keys| == n
    ensures forall i :: 0 <= i < n ==> RenameRoleOver(args, from, to, n).keys[i] == Rename(args.keys[i], from, to)
  {
    if n > 0 {
      RenameRoleKeys(args, from, to, n - 1);
      RenameRoleKeysStep(args, from, to, n);
    }
  }

  /** The step of `RenameRoleKeys`: the renamed role is new, so it goes last. */
  lemma RenameRoleKeysStep<N(!new)>(args: Table<N, Id>, from: N, to: N, n: nat)
    requires args.Valid() && 0 < n <= |args.keys|
    requires to == from || to !in args.vals
    requires |RenameRoleOver(args, from, to, n - 1).keys| == n - 1
    requires forall i :: 0 <= i < n - 1 ==>
      RenameRoleOver(args, from, to, n - 1).keys[i] == Rename(args.keys[i], from, to)
    ensures |RenameRoleOver(args, from, to, n).keys| == n
    ensures forall i :: 0 <= i < n ==> RenameRoleOver(args, from, to, n).keys[i] == Rename(args.keys[i], from, to)
  {
    var prev := RenameRoleOver(args, from, to, n - 1);
    var role := args.keys[n - 1];
    var x := Rename(role, from, to);
    assert x !in prev.vals by {
      if x in prev.vals {
        var i :| 0 <= i < n - 1 && prev.keys[i] == x;
        DistinctNe(args.keys, i, n - 1);
        RenameInjective(args, from, to, args.keys[i], role);
      }
    }
    assert RenameRoleOver(args, from, to, n).keys == prev.keys + [x];
  }

  /** Renaming keeps each argument's textbound id under its new role. */
  lemma {:induction false} RenameRoleValue<N(!new)>(args: Table<N, Id>, from: N, to: N, n: nat, i: nat)
    requires args.Valid() && i < n <= |args.keys|
    requires to == from || to !in args.vals
    ensures Rename(args.keys[i], from, to) in RenameRoleOver(args, from, to, n).vals
    ensures RenameRoleOver(args, from, to, n).vals[Rename(args.keys[i], from, to)] == args.vals[args.keys[i]]
  {
    if i < n - 1 {
      RenameRoleValue(args, from, to, n - 1, i);
      DistinctNe(args.keys, i, n - 1);
      RenameInjective(args, from, to, args.keys[i], args.keys[n - 1]);
    }
  }

  /** When `to` is not already a role, renaming keeps every argument in its
      position with its textbound id, only the role name `from` changing. */
  lemma RenameRoleInPlace<N(!new)>(args: Table<N, Id>, from: N, to: N, n: nat)
    requires args.Valid() && n <= |args.keys|
    requires to == from || to !in args.vals
    ensures |RenameRoleOver(args, from, to, n).keys| == n
    ensures forall i :: 0 <= i < n ==> RenameRoleOver(args, from, to, n).keys[i] == Rename(args.keys[i], from, to)
    ensures forall i :: 0 <= i < n ==>
      RenameRoleOver(args, from, to, n).vals[Rename(args.keys[i], from, to)] == args.vals[args.keys[i]]
  {
    RenameRoleKeys(args, from, to, n);
    forall i | 0 <= i < n
      ensures RenameRoleOver(args, from, to, n).vals[Rename(args.keys[i], from, to)] == args.vals[args.keys[i]]
    {
      RenameRoleValue(args, from, to, n, i);
    }
  }

  /** Renaming a role that is absent renames nothing. */
  lemma {:induction false} RenameAbsentRoleOver<N(!new)>(args: Table<N, Id>, from: N, to: N, n: nat)
    requires args.Valid() && n <= |args.keys| && from !in args.vals
    ensures RenameRoleOver(args, from, to, n) == RenameRoleOver(args, from, from, n)
  {
    if n > 0 {
      RenameAbsentRoleOver(args, from, to, n - 1);
      assert args.keys[n - 1] in args.vals;
    }
  }

  /** Renaming a role that is absent rebuilds the very same mapping. */
  lemma RenameAbsentRole<N(!new)>(args: Table<N, Id>, from: N, to: N)
    requires args.Valid() && from !in args.vals
    ensures RenameRole(args, from, to) == args
  {
    RenameAbsentRoleOver(args, from, to, |args.keys|);
    RenameRoleInPlace(args, from, from, |args.keys|);
    var r := RenameRole(args, from, to);
    assert r.keys == args.keys;
    assert forall k :: k in r.vals ==> r.vals[k] == args.vals[k] by {
      forall k | k in r.vals ensures r.vals[k] == args.vals[k] {
        var i :| 0 <= i < |args.keys| && args.keys[i] == k;
      }
    }
  }

  /** After renaming to a different name, `from` is no longer a role. */
  lemma {:induction false} RenameRoleRemovesOld<N(!new)>(args: Table<N, Id>, from: N, to: N, n: nat)
    requires args.Valid() && n <= |args.keys| && to != from
    ensures from !in RenameRoleOver(args, from, to, n).vals
  {
    if n > 0 {
      RenameRoleRemovesOld(args, from, to, n - 1);
    }
  }

  /** An event's argument mapping after the first `n` tb_map pairs. */
  function RenameRoleAll<N(==,!new)>(args: Table<N, Id>, pairs: Table<N, N>, n: nat): (r: Table<N, Id>)
    requires args.Valid() && pairs.Valid() && n <= |pairs.keys|
    ensures r.Valid()
  {
    if n == 0 then args
    else
      var from := pairs.keys[n - 1];
      RenameRole(RenameRoleAll(args, pairs, n - 1), from, pairs.vals[from])
  }

  /** Every event's arguments after the first `n` tb_map pairs. */
  function RenameRolesAll<N(==,!new)>(m: map<Id, Table<N, Id>>, pairs: Table<N, N>, n: nat): (r: map<Id, Table<N, Id>>)
    requires pairs.Valid() && n <= |pairs.keys|
    requires forall k :: k in m ==> m[k].Valid()
    ensures r.Keys == m.Keys
    ensures forall k :: k in r ==> r[k].Valid()
  {
    map k | k in m :: RenameRoleAll(m[k], pairs, n)
  }

  /** The counter entry of one event for pair (`from`, `to`): one when its
      arguments hold the role `from`. */
  function CountRole<N(==,!new)>(from: N, to: N): Table<N, Id> -> multiset<Tally<N>>
  {
    (t: Table<N, Id>) => if from in t.vals then multiset{Tally(ArgumentsSection, from, to)} else multiset{}
  }

  /** Tallying `CountRole` over `j` events gives at most `j` entries, each
      the pair (`from`, `to`) of the arguments section. */
  lemma {:induction false} CountRoleOver<N(!new)>(keys: seq<Id>, j: nat, cur: map<Id, Table<N, Id>>, from: N, to: N)
    requires j <= |keys|
    requires forall x :: 0 <= x < |keys| ==> keys[x] in cur
    ensures forall t :: t in TallyOver(keys, j, cur, CountRole(from, to)) ==> t == Tally(ArgumentsSection, from, to)
  {
    if j > 0 {
      CountRoleOver(keys, j - 1, cur, from, to);
    }
  }

  /** The argument counter entries of the first `n` tb_map pairs: each pair
      counts the events that have its role at that moment. */
  function ArgumentTallies<N(==,!new)>(m: map<Id, Table<N, Id>>, keys: seq<Id>, pairs: Table<N, N>, n: nat)
    : (c: multiset<Tally<N>>)
    requires pairs.Valid() && n <= |pairs.keys|
    requires forall k :: k in m ==> m[k].Valid()
    requires forall x :: 0 <= x < |keys| ==> keys[x] in m
    ensures forall t :: t in c ==> t.section == ArgumentsSection && t.from in pairs.vals && t.to == pairs.vals[t.from]
  {
    if n == 0 then multiset{}
    else
      var from := pairs.keys[n - 1];
      CountRoleOver(keys, |keys|, RenameRolesAll(m, pairs, n - 1), from, pairs.vals[from]);
      ArgumentTallies(m, keys, pairs, n - 1)
      + TallyOver(keys, |keys|, RenameRolesAll(m, pairs, n - 1), CountRole(from, pairs.vals[from]))
  }

  /** One pair's renaming applied to every event's arguments. */
  function RenameRoleEach<N(==,!new)>(cur: map<Id, Table<N, Id>>, from: N, to: N): (r: map<Id, Table<N, Id>>)
    requires forall k :: k in cur ==> cur[k].Valid()
    ensures r.Keys == cur.Keys
    ensures forall k :: k in r ==> r[k].Valid()
  {
    map k | k in cur :: RenameRole(cur[k], from, to)
  }

  /** Pair `i` renames its role in the arguments the earlier pairs left. */
  lemma RenameRolesAllSucc<N(!new)>(m: map<Id, Table<N, Id>>, pairs: Table<N, N>, i: nat)
    requires pairs.Valid() && i < |pairs.keys|
    requires forall k :: k in m ==> m[k].Valid()
    ensures var from := pairs.keys[i];
      RenameRolesAll(m, pairs, i + 1) == RenameRoleEach(RenameRolesAll(m, pairs, i), from, pairs.vals[from])
  {
    var from := pairs.keys[i];
    var next := RenameRolesAll(m, pairs, i + 1);
    var each := RenameRoleEach(RenameRolesAll(m, pairs, i), from, pairs.vals[from]);
    forall k | k in m
      ensures next[k] == each[k]
    {
      assert RenameRoleAll(m[k], pairs, i + 1) == RenameRole(RenameRoleAll(m[k], pairs, i), from, pairs.vals[from]);
    }
    SameEverywhere(next, each);
  }

  /** What the loop over the events does for pair `i` is the next step of
      the specification. */
  lemma RenameRolesStep<N(!new)>(m: map<Id, Table<N, Id>>, keys: seq<Id>, pairs: Table<N, N>, i: nat,
                                 m': map<Id, Table<N, Id>>, count: multiset<Tally<N>>)
    requires pairs.Valid() && i < |pairs.keys|
    requires forall k :: k in m ==> m[k].Valid()
    requires forall x :: 0 <= x < |keys| ==> keys[x] in m
    requires var from := pairs.keys[i];
      && m' == RenameRoleEach(RenameRolesAll(m, pairs, i), from, pairs.vals[from])
      && count == TallyOver(keys, |keys|, RenameRolesAll(m, pairs, i), CountRole(from, pairs.vals[from]))
    ensures m' == RenameRolesAll(m, pairs, i + 1)
    ensures ArgumentTallies(m, keys, pairs, i) + count == ArgumentTallies(m, keys, pairs, i + 1)
  {
    RenameRolesAllSucc(m, pairs, i);
  }

  /** The role half of the tb_map pass: for each pair in order, every event
      in table order has its arguments rebuilt with the pair's role renamed,
      and every event holding that role is counted. */
  method RenameRolesLoop<N(==,!new)>(m: map<Id, Table<N, Id>>, keys: seq<Id>, pairs: Table<N, N>)
    returns (m': map<Id, Table<N, Id>>, counter: multiset<Tally<N>>)
    requires pairs.Valid() && Distinct(keys)
    requires forall k :: k in m ==> k in keys
    requires forall x :: 0 <= x < |keys| ==> keys[x] in m
    requires forall k :: k in m ==> m[k].Valid()
    ensures m' == RenameRolesAll(m, pairs, |pairs.keys|)
    ensures counter == ArgumentTallies(m, keys, pairs, |pairs.keys|)
  {
    m', counter := m, multiset{};
    var i := 0;
    while i < |pairs.keys|
      invariant 0 <= i <= |pairs.keys|
      invariant m' == RenameRolesAll(m, pairs, i)
      invariant counter == ArgumentTallies(m, keys, pairs, i)
    {
      m', counter := RenameRolesNext(m, keys, pairs, i, m', counter);
      i := i + 1;
    }
  }

  /** One pass of the outer loop: pair `i` renamed in every event. */
  method RenameRolesNext<N(==,!new)>(m: map<Id, Table<N, Id>>, keys: seq<Id>, pairs: Table<N, N>, i: nat,
                                     cur: map<Id, Table<N, Id>>, counter: multiset<Tally<N>>)
    returns (m': map<Id, Table<N, Id>>, counter': multiset<Tally<N>>)
    requires pairs.Valid() && Distinct(keys) && i < |pairs.keys|
    requires forall k :: k in m ==> k in keys
    requires forall x :: 0 <= x < |keys| ==> keys[x] in m
    requires forall k :: k in m ==> m[k].Valid()
    requires cur == RenameRolesAll(m, pairs, i) && counter == ArgumentTallies(m, keys, pairs, i)
    ensures m' == RenameRolesAll(m, pairs, i + 1) && counter' == ArgumentTallies(m, keys, pairs, i + 1)
  {
    var from := pairs.keys[i];
    var count;
    m', count := RenameRolesPair(cur, keys, from, pairs.vals[from]);
    RenameRolesStep(m, keys, pairs, i, m', count);
    counter' := counter + count;
  }

  /** The loop over the events for one pair: each event's arguments are
      rebuilt with the role renamed, and the events holding the role are
      counted. */
  method RenameRolesPair<N(==,!new)>(cur: map<Id, Table<N, Id>>, keys: seq<Id>, from: N, to: N)
    returns (m': map<Id, Table<N, Id>>, count: multiset<Tally<N>>)
    requires Distinct(keys)
    requires forall k :: k in cur ==> k in keys
    requires forall x :: 0 <= x < |keys| ==> keys[x] in cur
    requires forall k :: k in cur ==> cur[k].Valid()
    ensures m' == RenameRoleEach(cur, from, to)
    ensures count == TallyOver(keys, |keys|, cur, CountRole(from, to))
  {
    m', count := VisitEach(cur, keys, RenameVisit(from, to), CountRole(from, to));
    RenameVisitEach(cur, from, to);
  }

  /** The rebuild of one event's arguments for pair (`from`, `to`). */
  function RenameVisit<N(==,!new)>(from: N, to: N): Table<N, Id> -> Table<N, Id>
  {
    (t: Table<N, Id>) => if t.Valid() then RenameRole(t, from, to) else t
  }

  /** Visiting every event with `RenameVisit` is `RenameRoleEach`. */
  lemma RenameVisitEach<N(!new)>(cur: map<Id, Table<N, Id>>, from: N, to: N)
    requires forall k :: k in cur ==> cur[k].Valid()
    ensures (map k | k in cur :: RenameVisit(from, to)(cur[k])) == RenameRoleEach(cur, from, to)
  {
  }

  /** The event types after the event_map pass. */
  function MappedEventTypes(a: Annotations, eventMap: Option<Table<string, string>>): (r: map<Id, string>)
    requires eventMap.Some? ==> eventMap.value.Valid()
    ensures r.Keys == a.events.vals.Keys
  {
    if eventMap.Some? then RetypeTypes(TypesOf(a.events.vals, EventType), eventMap.value, |eventMap.value.keys|)
    else TypesOf(a.events.vals, EventType)
  }

  /** The textbound types after the tb_map pass. */
  function MappedTbTypes(a: Annotations, tbMap: Option<Table<string, string>>): (r: map<Id, string>)
    requires tbMap.Some? ==> tbMap.value.Valid()
    ensures r.Keys == a.tbs.vals.Keys
  {
    if tbMap.Some? then RetypeTypes(TypesOf(a.tbs.vals, TbType), tbMap.value, |tbMap.value.keys|)
    else TypesOf(a.tbs.vals, TbType)
  }

  /** The attribute types after the attr_map pass. */
  function MappedAttrTypes(a: Annotations, attrMap: Option<Table<string, string>>): (r: map<Id, string>)
    requires attrMap.Some? ==> attrMap.value.Valid()
    ensures r.Keys == a.attrs.vals.Keys
  {
    if attrMap.Some? then RetypeTypes(TypesOf(a.attrs.vals, AttrType), attrMap.value, |attrMap.value.keys|)
    else TypesOf(a.attrs.vals, AttrType)
  }

  /** The event arguments after the tb_map pass renamed the matching roles. */
  function MappedArgs(a: Annotations, tbMap: Option<Table<string, string>>): (r: map<Id, Table<string, Id>>)
    requires a.Valid()
    requires tbMap.Some? ==> tbMap.value.Valid()
    ensures r.Keys == a.events.vals.Keys
    ensures forall k :: k in r ==> r[k].Valid()
  {
    if tbMap.Some? then RenameRolesAll(ArgsOf(a.events.vals), tbMap.value, |tbMap.value.keys|)
    else ArgsOf(a.events.vals)
  }

  /** The events with their new types and arguments, in their order. */
  function MappedEvents(a: Annotations, eventMap: Option<Table<string, string>>, tbMap: Option<Table<string, string>>)
    : (t: Table<Id, Event>)
    requires a.Valid()
    requires eventMap.Some? ==> eventMap.value.Valid()
    requires tbMap.Some? ==> tbMap.value.Valid()
    ensures EventsValid(t) && t.keys == a.events.keys
  {
    var typed := WithTypes(a.events.vals, MappedEventTypes(a, eventMap), EventWithType);
    var args := MappedArgs(a, tbMap);
    assert typed.Keys == a.events.vals.Keys == args.Keys;
    Table(a.events.keys, EventsWithArgs(typed, args))
  }

  /** The textbounds with their new types, in their order. */
  function MappedTbs(a: Annotations, tbMap: Option<Table<string, string>>): (t: Table<Id, Textbound>)
    requires a.Valid()
    requires tbMap.Some? ==> tbMap.value.Valid()
    ensures t.Valid() && t.keys == a.tbs.keys
  {
    Table(a.tbs.keys, WithTypes(a.tbs.vals, MappedTbTypes(a, tbMap), TbWithType))
  }

  /** The attributes with their new types, in their order. */
  function MappedAttrs(a: Annotations, attrMap: Option<Table<string, string>>): (t: Table<Id, Attribute>)
    requires a.Valid()
    requires attrMap.Some? ==> attrMap.value.Valid()
    ensures t.Valid() && t.keys == a.attrs.keys
  {
    Table(a.attrs.keys, WithTypes(a.attrs.vals, MappedAttrTypes(a, attrMap), AttrWithType))
  }

  /** Counter entry `t` is a pair of the mapping `m`. */
  predicate FromMap(t: Tally<string>, m: Option<Table<string, string>>)
  {
    m.Some? && t.from in m.value.vals && t.to == m.value.vals[t.from]
  }

  /** Every entry of `c` is of `section` and a pair of the mapping `m`. */
  predicate Drawn(c: multiset<Tally<string>>, section: Section, m: Option<Table<string, string>>)
  {
    forall t :: t in c ==> t.section == section && FromMap(t, m)
  }

  /** The four parts of the counter, each drawn from its own mapping, make
      a counter whose every entry comes from the mapping of its section. */
  lemma DrawnCounter(cE: multiset<Tally<string>>, cT: multiset<Tally<string>>, cR: multiset<Tally<string>>,
                     cA: multiset<Tally<string>>, eventMap: Option<Table<string, string>>,
                     tbMap: Option<Table<string, string>>, attrMap: Option<Table<string, string>>)
    requires Drawn(cE, EventsSection, eventMap) && Drawn(cT, TextboundsSection, tbMap)
    requires Drawn(cR, ArgumentsSection, tbMap) && Drawn(cA, AttributesSection, attrMap)
    ensures forall t :: t in cE + cT + cR + cA ==>
      && (t.section == EventsSection ==> FromMap(t, eventMap))
      && (t.section == TextboundsSection || t.section == ArgumentsSection ==> FromMap(t, tbMap))
      && (t.section == AttributesSection ==> FromMap(t, attrMap))
  {
  }

  /** The counter of `map_`: the event_map entries, the tb_map entries of
      textbounds and of roles, then the attr_map entries. */
  function MapTypesCounter(a: Annotations, eventMap: Option<Table<string, string>>,
                           tbMap: Option<Table<string, string>>, attrMap: Option<Table<string, string>>)
    : (c: multiset<Tally<string>>)
    requires a.Valid()
    requires eventMap.Some? ==> eventMap.value.Valid()
    requires tbMap.Some? ==> tbMap.value.Valid()
    requires attrMap.Some? ==> attrMap.value.Valid()
    ensures eventMap.None? && tbMap.None? && attrMap.None? ==> c == multiset{}
    ensures forall t :: t in c ==>
      && (t.section == EventsSection ==> FromMap(t, eventMap))
      && (t.section == TextboundsSection || t.section == ArgumentsSection ==> FromMap(t, tbMap))
      && (t.section == AttributesSection ==> FromMap(t, attrMap))
  {
    var cE := if eventMap.Some?
      then RetypeTallies(TypesOf(a.events.vals, EventType), a.events.keys, eventMap.value, |eventMap.value.keys|, EventsSection)
      else multiset{};
    var cT := if tbMap.Some?
      then RetypeTallies(TypesOf(a.tbs.vals, TbType), a.tbs.keys, tbMap.value, |tbMap.value.keys|, TextboundsSection)
      else multiset{};
    var cR := if tbMap.Some?
      then ArgumentTallies(ArgsOf(a.events.vals), a.events.keys, tbMap.value, |tbMap.value.keys|)
      else multiset{};
    var cA := if attrMap.Some?
      then RetypeTallies(TypesOf(a.attrs.vals, AttrType), a.attrs.keys, attrMap.value, |attrMap.value.keys|, AttributesSection)
      else multiset{};
    DrawnCounter(cE, cT, cR, cA, eventMap, tbMap, attrMap);
    cE + cT + cR + cA
  }

  /** The whole of `map_`: event types, then (nothing for) relations, then
      textbound types together with the matching roles, then attribute
      types, and the counter. */
  function MapTypes(a: Annotations, eventMap: Option<Table<string, string>>, relationMap: Option<Table<string, string>>,
                    tbMap: Option<Table<string, string>>, attrMap: Option<Table<string, string>>)
    : (r: (Annotations, multiset<Tally<string>>))
    requires a.Valid()
    requires eventMap.Some? ==> eventMap.value.Valid()
    requires tbMap.Some? ==> tbMap.value.Valid()
    requires attrMap.Some? ==> attrMap.value.Valid()
    ensures r.0.Valid()
    ensures r.0.relations == a.relations
    ensures r.0.events.keys == a.events.keys && r.0.tbs.keys == a.tbs.keys && r.0.attrs.keys == a.attrs.keys
  {
    (Annotations(MappedEvents(a, eventMap, tbMap), a.relations, MappedTbs(a, tbMap), MappedAttrs(a, attrMap)),
     MapTypesCounter(a, eventMap, tbMap, attrMap))
  }

  /** The passes of `map_` over the four tables, in the order the code runs
      them: the event types, the textbound types and the matching roles,
      then the attribute types. */
  method MapTypesLoop(a: Annotations, eventMap: Option<Table<string, string>>, relationMap: Option<Table<string, string>>,
                      tbMap: Option<Table<string, string>>, attrMap: Option<Table<string, string>>)
    returns (r: Annotations, counter: multiset<Tally<string>>)
    requires a.Valid()
    requires eventMap.Some? ==> eventMap.value.Valid()
    requires tbMap.Some? ==> tbMap.value.Valid()
    requires attrMap.Some? ==> attrMap.value.Valid()
    ensures (r, counter) == MapTypes(a, eventMap, relationMap, tbMap, attrMap)
  {
    var cE, cT, cR, cA := multiset{}, multiset{}, multiset{}, multiset{};
    var eventTypes := TypesOf(a.events.vals, EventType);
    if eventMap.Some? {
      eventTypes, cE := RetypeLoop(eventTypes, a.events.keys, eventMap.value, EventsSection);
    }
    var tbTypes := TypesOf(a.tbs.vals, TbType);
    var args := ArgsOf(a.events.vals);
    if tbMap.Some? {
      tbTypes, cT := RetypeLoop(tbTypes, a.tbs.keys, tbMap.value, TextboundsSection);
      args, cR := RenameRolesLoop(args, a.events.keys, tbMap.value);
    }
    var attrTypes := TypesOf(a.attrs.vals, AttrType);
    if attrMap.Some? {
      attrTypes, cA := RetypeLoop(attrTypes, a.attrs.keys, attrMap.value, AttributesSection);
    }
    r := Annotations(Table(a.events.keys, EventsWithArgs(WithTypes(a.events.vals, eventTypes, EventWithType), args)),
                     a.relations,
                     Table(a.tbs.keys, WithTypes(a.tbs.vals, tbTypes, TbWithType)),
                     Table(a.attrs.keys, WithTypes(a.attrs.vals, attrTypes, AttrWithType)));
    counter := cE + cT + cR + cA;
  }
}

=== FILE: wrappers.dfy ===
/** Option and Result values for the model's error paths. */
module Wrappers {

  datatype Option<+T> = None | Some(value: T)

  /** A computation that either yields a value or fails with a message,
      standing for the exceptions the modelled code raises. */
  datatype Result<+T> = Ok(value: T) | Err(message: string)
}
